=== FILE: README.md ===
# M-Indicator decision logic in Dafny

A model of the deterministic core of the M-Indicator suburban-rail web app
(Mumbai's western, central and harbour lines), with proofs about it:

- `transit.dfy` (`Transit`): the in-memory data layer of `js/data.js`. It
  covers the station registry and its `findStation` / `searchStations`
  scans, the zone fare table, the timetable store with its synthetic
  ten-train fallback, `calculateDuration` / `calculateCost`, and the
  route-option heuristic (direct, or via Dadar).
- `storage.dfy` (`Storage`): `StorageManager`, over `localStorage` modelled
  as a class holding a map from key to the parsed JSON record. Favourites
  are deduplicated on (from, to) and capped at 10. Recent searches are
  move-to-front and capped at 5. Preferences fall back to defaults.
- `app.dfy` (`LiveApp`): the `App` handlers that are not rendering. The live
  refresh rewrites the selected line's train records in place. The module
  also covers the search-form check, the "Updated … ago" bucketing and the
  live-line lookup.
- `utils.dfy` (`Utils`): the helpers of `js/utils.js`. These are 24h→12h
  time formatting, duration text, time-until with the clock injected,
  train-number formatting, the hex⇄RGB codec, the nearest-station argmin,
  the swipe classifier, the expiring store entries and `groupBy`.
- `components.dfy` (`Components`): the autocomplete dropdown's keyboard
  cursor and input gating, the favourite form check, the day labels of
  saved routes, the reminder delay, and the toast icon and colour tables.
- `service_worker.dfy` (`ServiceWorker`): the fetch strategy classifier,
  the activation cache filter, cache-first and network-first over a
  cache-storage object, the offline fallback and the notification-click
  mapping.
- `js_builtins.dfy` (`JsBuiltins`): the few JavaScript built-ins the others
  rely on, spelled out. These are ASCII case mapping, `includes`,
  `startsWith`, `split`, `trim`, `parseInt`, `padStart`, `String(n)` and
  `%` with the sign of the dividend.

`Math.random()` draws, `Date.now()` and the time of day, the user's position
and the haversine distance, and the network's answer to `fetch` are all
parameters. Times of day are milliseconds or minutes since midnight.

## Model

| member | source | states |
|---|---|---|
| Transit.FindIndex | js/data.js:358-362 | `list.find` over one line: the index of the first station whose lower-cased name contains the lower-cased query or whose lower-cased id equals it; none only when no station of the list matches |
| Transit.FindStationIsFirstMatch | js/data.js:356-365 | `findStation` is empty exactly when no station matches; otherwise it is the first match in the order western, central, harbour, each in list order |
| Transit.FindStationResolvesRegistered | js/data.js:356-365 | every registered station's id and name resolve to some station |
| Transit.FindStationDadar | js/data.js:356-365 | on the seed data, `"Dadar"` resolves to the western `DDR`, not the central `DDR2` |
| Transit.FindStationCst | js/data.js:356-365 | on the seed data, `"CST"` resolves to Charni Road (id `CST`) before CST Mumbai is reached |
| Transit.FirstByName | js/data.js:456-459 | the first-occurrence-by-name filter: pairwise distinct names, every kept station comes from the input, every input name is kept, each kept station is the first of its name, and the kept stations stay in input order |
| Transit.SearchStationsSpec | js/data.js:443-462 | `searchStations` is empty below 2 characters; otherwise at most 8 registered stations with distinct names, all containing the query ignoring case; with fewer than 8, every matching name is present |
| Transit.SearchStationsScanOrder | js/data.js:443-462 | scanning the matches line by line (western, central, harbour), each result is the first match of its name and the results keep the scan order; when 8 are returned they are the 8 names met first |
| Transit.CalculateFare | js/data.js:310-324 | the fare of the unordered zone pair; 0 for a pair missing from the table; within zones 1..3, 5 (second) or 25 (first) per zone spanned |
| Transit.FareSymmetric | js/data.js:321-324 | the fare does not depend on the direction of travel |
| Transit.FareExamples | js/data.js:312-324 | (1,3) costs 15 second class and 75 first class; (3,1) costs 15; (1,4) is missing and costs 0 |
| Transit.ScheduleLookup | js/data.js:389-401 | no timetable exactly when the line has no `from-to` key; for `all`, the slow list, then the fast list, then the ladies' list (a missing list counts as empty); for one category, that list, or empty when it is absent |
| Transit.SeedScheduleExamples | js/data.js:91-136 | on the seed data, `CG-VRR` has 22 trains in all and 2 ladies' specials, `CG-BHY` has no ladies' list, and station names as key find no timetable |
| Transit.GenerateSampleSchedule | js/data.js:407-432 | the loop builds exactly the schedule `SampleSchedule` describes |
| Transit.SampleScheduleSpec | js/data.js:407-432 | empty when either station does not resolve; otherwise 10 trains; train i departs 15·i minutes after now and arrives 30 (fast) or 45 minutes later, with platform 1..6 and number `LINE-…` ending in the 3-digit i+1 |
| Transit.SampleTrainNumbersDistinct | js/data.js:418 | the ten generated train numbers are pairwise distinct |
| Transit.GetSchedule | js/data.js:384-405 | empty when the from-station does not resolve; the explicit timetable of its line under the raw key `fromId-toId` when there is one; the generated samples otherwise |
| Transit.CalculateDurationSpec | js/data.js:371-378 | the duration text reads back as at least 15 minutes and is the same in both directions |
| Transit.DurationOnLine | js/data.js:371-378 | for two stations of one line, the minutes are 3 per position between them in the list, and at least 15 |
| Transit.MinutesTextRoundTrip | js/data.js:377 | `"<n>m"` reads back as n, and so does `"<n>m10"` |
| Transit.InterchangeDurationDefect | js/data.js:276 | the via-Dadar duration as written reads back as the direct minutes; the intended one reads back as 10 more |
| Transit.InterchangeDurationExample | js/data.js:276 | Churchgate to CST Mumbai shows `15m10` as written |
| Transit.GetRouteOptionsSpec | js/data.js:243-306 | the corrected `getRouteOptions` (see Findings: as written the call throws, and the Via Dadar duration reads `15m10`): empty exactly when a station does not resolve; otherwise one option costing the second-class fare. Same line: Direct, 0 changes, 1 step. Otherwise: Via Dadar, 1 change, steps of 25m, 3m, 30m, duration 10 minutes more. The steps chain from the origin to the destination |
| Transit.RouteOptionsDefect | js/data.js:243-258 | as invoked, every call fails with a TypeError, while the intended function yields an option for every pair of registered stations |
| Storage.AddedFavorites | js/data.js:481-489 | unchanged when the (from, to) pair is already saved; otherwise the new favourite first, then the old list, at most 10 |
| Storage.AddedFavoritesValid | js/data.js:481-489 | adding keeps at most 10 favourites with unique pairs, and the pair is saved afterwards |
| Storage.AddFavorite | js/data.js:481-489 | the store's favourites become `AddedFavorites` of the old ones; nothing is written when the pair exists |
| Storage.Spliced | js/data.js:491-495 | `splice(index, 1)`: the entry at the start position removed, a negative index counted from the end, nothing removed at or past the end |
| Storage.SplicedValid | js/data.js:491-495 | removal keeps the favourites valid and removes exactly the indexed entry when the index is in range |
| Storage.RemoveFavorite | js/data.js:491-495 | the spliced list is always written back |
| Storage.AddedRecent | js/data.js:527-541 | the new search first, then the old list without that pair, at most 5 |
| Storage.AddedRecentValid | js/data.js:527-541 | the recent list keeps unique pairs, and the searched pair occurs only at the front |
| Storage.AddRecentSearch | js/data.js:527-541 | the recent-searches entry becomes `AddedRecent` of the old one, stamped with the clock reading |
| Storage.SavePreferences | js/data.js:515-517 | saved preferences are what `getPreferences` returns next |
| Storage.PreferencesRoundTrip | js/data.js:497-517 | preferences read back unchanged; with no `Prefs` record saved, the defaults light / notifications on / western / en |
| LiveApp.Refreshed | js/app.js:440-447 | the ETA moves by the draw; on a re-roll the status is `ontime` with delay 0 or `delayed` with delay 2..11; without one, status and delay are kept |
| LiveApp.NextEtaStep | js/app.js:440-441 | a well-formed ETA `"<N> min"` moves by at most one minute, never below 1, and stays well formed |
| LiveApp.RefreshKeepsConsistent | js/app.js:438-448 | a refresh keeps a train consistent (well-formed ETA, status and delay in agreement) |
| LiveApp.RefreshedLineConsistent | js/app.js:436-448 | a refresh keeps every train of a consistent line consistent |
| LiveApp.SeedEntryConsistent | js/data.js:165-238 | a seed record of the form `"<n> min"` (n ≥ 1) with a status and delay that agree is consistent |
| LiveApp.LiveTrain.Refresh | js/app.js:439-447 | one train's ETA, status and delay are updated in place to `Refreshed` of its old state and the draws |
| LiveApp.RefreshAll | js/app.js:438-448 | every train of the list is refreshed in place with its own draws; the list itself is untouched |
| LiveApp.App.RefreshLiveData | js/app.js:432-448 | offline nothing changes; online each train of the selected line is refreshed with its own draws |
| LiveApp.TrainsFor | js/app.js:411 | the line's trains, or the empty list for a line without live data |
| LiveApp.App.LoadLiveTrains | js/app.js:409-417 | shows the selected line's trains (empty when it has none), stamps the update time and leaves the other state fields |
| LiveApp.App.SwitchLiveLine | js/app.js:420-429 | selects the line, then shows its trains and stamps the update time; the tab and the online flag are unchanged |
| LiveApp.TimeAgo | js/app.js:461-464 | seconds exactly below 60 s, with the floored seconds; otherwise whole minutes of at least 1, floored |
| LiveApp.LastUpdateText | js/app.js:458-466 | nothing is written while there is no update stamp |
| LiveApp.LastUpdateBuckets | js/app.js:461-464 | `Updated Ns ago` with floored seconds under a minute, else `Updated Nm ago` with floored minutes; a stamp from the future gives a negative number of seconds |
| LiveApp.SearchRequest | js/app.js:303-315 | accepted exactly when both trimmed fields are non-empty and differ, yielding the trimmed pair; the missing-station warning exactly when a field is empty |
| LiveApp.AcceptedSearch | js/app.js:303-315 | an accepted pair is two different non-empty names without surrounding white space |
| LiveApp.App.HandleSearch | js/app.js:303-321 | a warning leaves the store alone; an accepted pair is recorded as a recent search and searched |
| Utils.SecondField | js/utils.js:127 | the second `:` field is missing exactly when there is no `:` |
| Utils.DisplayHour | js/utils.js:130 | the hour mod 12, or 12 when that is 0: for a non-negative hour, 1..12 and congruent to it mod 12; 12 for NaN |
| Utils.FormatTime | js/utils.js:125-132 | the text ends in ` PM` exactly when the hour reads as at least 12 |
| Utils.TwelveHourRoundTrip | js/utils.js:129-130 | display hour and suffix give the hour back |
| Utils.FormatTimeOfClock | js/utils.js:125-132 | on an `HH:MM` clock text: the 12-hour hour, the two minute digits unchanged, and the suffix |
| Utils.FormatDurationRoundTrip | js/utils.js:134-141 | the duration text (`Nm`, `Hh`, or `Hh Mm`) reads back as the minutes |
| Utils.NumberOf | js/utils.js:144 | `Number` of a decimal field is its value |
| Utils.TimeUntilMs | js/utils.js:143-154 | the wait is never negative |
| Utils.TimeUntilWithinDay | js/utils.js:143-154 | for an `HH:MM` target, the wait is under a day and reaches the target today or tomorrow |
| Utils.TimeUntilText | js/utils.js:156-162 | `Now` exactly under one minute |
| Utils.TimeUntilReadsBack | js/utils.js:156-162 | from a minute on, the text reads back as the whole minutes left and equals `formatDuration` except on the hour |
| Utils.FormatTrainNumber | js/utils.js:173-175 | length kept; every `-` becomes a space and every other character is upper-cased |
| Utils.FormatTrainNumberIdempotent | js/utils.js:173-175 | formatting twice changes nothing |
| Utils.RgbToHex | js/utils.js:427-429 | `#` followed by the two lower-case hex digits of r, g and b |
| Utils.HexToRgb | js/utils.js:418-425 | null exactly when the text is not an optional `#` and six hex digits; otherwise three bytes |
| Utils.HexRoundTrip | js/utils.js:418-429 | `hexToRgb(rgbToHex(r, g, b))` gives back r, g, b |
| Utils.RgbToHexOfParsed | js/utils.js:418-429 | a parsed colour renders as the lower-case form of its digits |
| Utils.FindNearestStation | js/utils.js:243-264 | none only without stations; otherwise the first station of strictly minimal distance, with its distance rounded to metres |
| Utils.FirstMinimumUnique | js/utils.js:253 | the strict comparison singles out one station |
| Utils.ClassifySwipe | js/utils.js:456-485 | nothing past the allowed time; horizontal first (distance at least the threshold, drift at most 100), left iff dx < 0; otherwise vertical exactly when the distance is at least the threshold and the drift at most 100, up iff dy < 0; thresholds default to 50 px and 300 ms |
| Utils.SwipeMirror | js/utils.js:472-485 | mirroring a movement mirrors the gesture |
| Utils.SetStorageWithExpiry | js/utils.js:279-286 | stores the value with expiry now + ttl |
| Utils.ExpiryValue | js/utils.js:288-306 | the value exactly when an expiring entry is read no later than its expiry; null or undefined otherwise (missing, empty, unparsable, not an expiring record, or expired) |
| Utils.GetStorageWithExpiry | js/utils.js:288-306 | returns `ExpiryValue` and removes the key exactly when its text does not parse, parses to `null`, or holds an expired entry; an empty text or another value is kept |
| Utils.ExpiryRoundTrip | js/utils.js:279-306 | a stored value reads back up to and at its expiry and is dropped on the first read after it |
| Utils.GroupBy | js/utils.js:379-386 | the groups are exactly the occurring keys, each holding its items in the original order |
| Utils.MembersPartition | js/utils.js:379-386 | a group and the other groups together hold every item exactly once |
| Components.SliceTo | js/components.js:54 | `slice(0, n)`: a prefix of length `min(n, len)`, counted from the back when n is negative |
| Components.ArrowsKeepCursor | js/components.js:70-79 | both arrows keep the cursor in range and land on an item whenever there is one |
| Components.ArrowsFromNothing | js/components.js:70-79 | from no focus, ArrowDown picks the first item and ArrowUp the last |
| Components.ArrowsInverse | js/components.js:70-79 | on an item, ArrowUp undoes ArrowDown and the other way round |
| Components.DownTimesCycle | js/components.js:70-74 | ArrowDown visits the items in a cycle: `count` presses come back, fewer do not |
| Components.Highlight | js/components.js:99-103 | only the focused item is highlighted, and only when it exists |
| Components.Autocomplete.constructor | js/components.js:6-19 | no items, no focus, dropdown hidden, with the given options |
| Components.Autocomplete.ShowResults | js/components.js:21-50 | the items are replaced, the focus is reset to -1, and the dropdown shows iff there are results |
| Components.Autocomplete.Search | js/components.js:52-59 | searches only with at least `minChars` characters and keeps at most `maxResults`; otherwise it only hides |
| Components.Autocomplete.Input | js/components.js:62-64 | the trimmed value is searched |
| Components.Autocomplete.Click | js/components.js:35-39 | the input takes the station's name, the dropdown hides, the station is reported |
| Components.Autocomplete.KeyDown | js/components.js:67-89 | the arrows move and highlight the cursor; Enter clicks exactly when the focus is on an existing item; Escape hides; other keys change nothing |
| Components.Autocomplete.ClickOutside | js/components.js:92-96 | hides the dropdown and nothing else |
| Components.DefaultResultsBounded | js/components.js:11-17 | with the defaults, at most 8 results, a prefix of what was found |
| Components.ToastIcon | js/components.js:234-242 | the icon of each known type; the info icon for any other |
| Components.ToastColor | js/components.js:244-252 | the colour of each known type; the info colour for any other |
| Components.ToastFallbacksAgree | js/components.js:234-252 | a toast gets the info icon exactly when it gets the info colour, and exactly when its type is not success, error or warning |
| Components.ToastKindsDistinct | js/components.js:234-252 | the four known types have pairwise different icons and colours |
| Components.FavoriteRequest | js/components.js:596-608 | accepted exactly when both trimmed fields are non-empty and differ; "Please enter both stations" exactly when one is empty |
| Components.AddFavorite | js/components.js:596-622 | a rejected form stores nothing and warns; an accepted one reports success and makes the favourites `AddedFavorites` of the old list with the stamped pair, writing nothing when the pair is saved already and only the favourites key otherwise |
| Components.AddedFavoriteStored | js/components.js:596-616 | an accepted favourite names two different stations and is saved in a list that stays valid |
| Components.RemoveFavorite | js/components.js:624-630 | only a confirmed removal splices the list and shows the info toast |
| Components.FormatDate | js/components.js:642-655 | today exactly for 0 whole days, yesterday for 1, `N days ago` for 2..6 (and for a future time), a calendar date from 7 days on |
| Components.DateText | js/components.js:647-654 | `today`, `yesterday` and `N days ago` (with a minus sign for a future time), and no text exactly for the calendar date |
| Components.FormatDateMonotone | js/components.js:642-655 | as time passes a saved route's label only gets older |
| Components.ReminderDelayAsWritten | js/components.js:800-809 | the reminder lands at departure − 10 minutes on today's clock, or one day later |
| Components.ReminderAsWrittenPositive | js/components.js:800-809 | from a 00:10 departure on, the delay is positive and at most a day |
| Components.ReminderAsWrittenPastMidnight | js/components.js:800-809 | a 00:05 departure at 23:58 gets a negative delay |
| Components.ReminderMinute | js/components.js:803 | the reminder minute of the day, 10 before departure, wrapping round midnight |
| Components.ReminderDelay | js/components.js:800-809 | the intended delay: positive, at most a day, landing on the reminder minute today or tomorrow |
| Components.ReminderAgrees | js/components.js:800-809 | from 00:10 on, the intended delay is the one written |
| Components.SetReminder | js/components.js:793-823 | `setReminder` with the corrected delay (see Findings: as written a departure before 00:10 can give a negative delay): scheduled exactly with notification support and a permission request that does not reject; the two warnings otherwise; the notification titled `Train Reminder` with a body naming the train and departure; the delay is NaN exactly when the time does not parse, and otherwise is `ReminderDelay` of the parsed hour and minute, in (0, 1 day]; the success toast `Reminder set for` the 12-hour departure |
| Components.ReminderForDeparture | js/components.js:800-816 | for an `HH:MM` departure, the reminder fires within a day, exactly 10 minutes before that departure (possibly the next day's) |
| ServiceWorker.Classify | sw.js:78-101 | non-GET is not intercepted; images go cache-first; then `/api/` goes network-first; then static assets by URL or pathname go cache-first; everything else goes network-first |
| ServiceWorker.ImagesBeforeApi | sw.js:88-93 | an image URL under `/api/` is still served cache-first |
| ServiceWorker.Names | sw.js:55 | `caches.keys()`, in cache order |
| ServiceWorker.PutThenMatch | sw.js:112-113 | after `cache.put`, the URL matches the stored response unless an earlier cache already holds it |
| ServiceWorker.PutKeepsUnique | sw.js:112-113 | `put` keeps cache names unique |
| ServiceWorker.Without | sw.js:66 | `caches.delete(name)` removes exactly the caches with that name |
| ServiceWorker.Kept | sw.js:57-67 | the caches that survive activation: those whose name is not `mindicator-…`, or is the static or dynamic cache |
| ServiceWorker.KeptIdempotent | sw.js:57-67 | a second activation deletes nothing |
| ServiceWorker.CacheStorage.Delete | sw.js:66 | reports whether the name existed, and removes its caches |
| ServiceWorker.DeleteOldCaches | sw.js:51-75 | the deletion loop leaves exactly `Kept` of the caches before it |
| ServiceWorker.CleanupDefect | sw.js:314-323 | as written the cleanup throws before deleting anything, even when there are old caches to delete |
| ServiceWorker.OfflineFallback | sw.js:147-180 | a navigation gets the cached offline page if there is one; otherwise a 503, JSON exactly for `/api/` URLs, plain text for the rest |
| ServiceWorker.CacheFirstFetch | sw.js:104-120 | a cached hit is returned without fetching; a miss stores and returns the fetched response whatever its status; a failed fetch returns the fallback |
| ServiceWorker.NetworkFirstFetch | sw.js:123-144 | the fetched response is returned and cached only when ok; a failed fetch returns the cached entry, else the fallback |
| ServiceWorker.HandleFetch | sw.js:78-101 | no response for non-GET, with the caches untouched; otherwise the response and the caches afterwards are exactly those of the strategy `Classify` picks, cache-first or network-first, including the stores on a miss or an ok fetch and the fallbacks offline |
| ServiceWorker.CachedAfterMiss | sw.js:104-120 | after a cache-first miss that fetched a response, the next cache-first request for the URL returns that response and changes nothing, whatever the network does |
| ServiceWorker.NetworkFirstRemembers | sw.js:123-144 | after an ok network-first fetch, an offline network-first request for the URL is answered from the caches, not by the fallback, and with that fetched response when no cache held the URL before; nothing is stored |
| ServiceWorker.NotificationTarget | sw.js:248-267 | `close` opens nothing, `explore` opens `/?tab=live`, anything else opens `/` |
| ServiceWorker.PushActionsDistinct | sw.js:221-232 | the two offered actions lead to different places, both different from a click on the body |

## Left out

- Rendering and DOM wiring are not modelled: every `render`/`show` function, Modal, BottomSheet, Loading, tab switching, settings and themes, and the dropdown's positioning.
- Timers and animation are not modelled: `debounce` (the autocomplete search runs at once), `throttle`, `setInterval`, `setTimeout` delays and the fade and slide effects.
- Randomness is an input: the model takes the draws, not their probabilities (the 10% re-roll, the 80% on-time share and the 20% delayed samples).
- Floating point is left out: the haversine distance is an uninterpreted function into reals, and the `toFixed` kilometre texts are not modelled.
- Locale formatting is not modelled: `toLocaleTimeString` of the sample schedule is a zero-padded `HH:MM` of the minute of the day, `toLocaleDateString` appears only as the `CalendarDate` label, and `Intl.NumberFormat` is not modelled.
- Clocks count milliseconds or minutes from local midnight on a 24-hour day. There is no daylight saving and no calendar.
- Utils.TimeUntilMs: the target is compared to the time of day only, assuming no daylight-saving change within the day.
- Components.ReminderDelay: it is stated on the time of day, for the same reason.
- Components.SetReminder: `nowMs` is the time of day, so the requirement `0 <= nowMs < 86400000` is the model's clock domain, not a demand of the source.
- JavaScript strings: case mapping, `trim` and `parseInt`/`Number` are written for ASCII letters, decimal digits and the usual white space. No other Unicode behaviour is modelled.
- `JSON.parse`/`JSON.stringify` are not modelled: the store holds parsed records. Text that fails to parse is `Unparsable`; the empty text, `null` and the other falsy values each have a record of their own.
- Storage.AddFavorite: it does not model a stored value that parses to a truthy value other than a list (on which `find` throws); every record other than `Routes` is read as `[]`.
- Storage.RemoveFavorite: it does not model a stored truthy non-list under the favourites key; there `favorites.splice` throws a TypeError and nothing is written, while the model writes the splice of `[]`. Components.RemoveFavorite inherits this: the source shows no toast in that case.
- Storage.AddRecentSearch: it does not model a stored truthy non-list under the recent-searches key; there `recent.findIndex` throws a TypeError and nothing is written, while the model writes `AddedRecent` of `[]`. LiveApp.App.HandleSearch inherits this: the source never reaches the search in that case.
- Storage.PreferencesRoundTrip: it does not model a truthy stored value under the preferences key that is not a preferences record (a list, an expiring entry); `JSON.parse(…) || defaults` returns that value as it is, while the model gives the defaults.
- Components.Autocomplete: each instance holds its own list of items. In the app, the `from` and `to` inputs share one dropdown element, and the model does not capture one input's results becoming the other's items.
- Escape's `blur()` of the input is not modelled.
- `searchStations` is the search the autocomplete receives as a function argument; the `bind` is not modelled.
- Service-worker `install` (`cache.addAll`) is not modelled.
- The `push`, `sync` and `periodicsync` handlers are not modelled.
- The `message` handler (`GET_VERSION`) is not modelled.
- `preloadCriticalResources` and `doBackgroundSync` are not modelled. They only fetch or log.
- The Cache API is a sequence of named maps keyed by URL string. Request objects, `Vary` headers, relative-URL resolution and a failing `cache.put` (for example of a 206) are not modelled.
- `new URL(request.url)` is not parsed: the request carries its pathname.
- ServiceWorker.CacheFirstFetch: the unawaited `cache.put` is treated as done before the next request.
- Geolocation, Notification permission prompts, clipboard and Web Share are parameters or not modelled. Notification support and a rejecting permission request are the two booleans of `SetReminder`.
- Station records carry id, name, line and zone. Their facilities and coordinates are not modelled; coordinates only feed the distance, which is a parameter.
- The seed live-train records of `liveTrains` are not reproduced one by one. `SeedEntryConsistent` states the shape they all share.
- `slugify`, `capitalizeWords`, `sortBy`, `formatStationName` and `formatCurrency` are not modelled. They are regex- or locale-driven helpers outside the decision logic.
- Components.ToastIcon: a type that names an inherited `Object.prototype` member (`toString`, `constructor`) is not modelled; `icons[type]` would return that member. The model's tables are maps from strings, which have no prototype chain.
- Components.ToastColor: the same inherited-name case of `colors[type]` is not modelled.
- Components.ToastFallbacksAgree: it holds for the model's tables, which do not have the inherited-name case above.
- Utils.GroupBy: a group that names an inherited `Object.prototype` member (`constructor`, `__proto__`, `toString`) is not modelled; there `result[group].push` throws a TypeError. The model's groups are a map from strings, which has no prototype chain.
- Transit.ScheduleLookup: a train type that names an inherited `Object.prototype` member is not modelled; `lineSchedules[routeKey][trainType]` would return that member. The model's timetables are maps from strings, which have no prototype chain.
- LiveApp.TrainsFor: a line that names an inherited `Object.prototype` member is not modelled; `liveTrains[line]` would return that member. The model's live data is a map from strings, which has no prototype chain.
- Transit.FindStation: it is proved about the registry the caller passes. The seed registry is checked only for the `Dadar`, `CST` and `CG` lookups.

## Findings

| source | as written | input that shows it | evidently intended | confidence | as-written member | corrected member |
|---|---|---|---|---|---|---|
| js/data.js:246 | `getRouteOptions` calls `this.findStation`. It is invoked as `MIndicatorData.routes.getRouteOptions` (js/app.js:474), so `this` is `routes`, which has no such member, and the call throws a TypeError | any pair, e.g. `("CG", "VRR")` | resolve both names through `MIndicatorData.findStation` and return the options | high, not executed | Transit.GetRouteOptionsAsInvoked, Transit.RouteOptionsDefect | Transit.GetRouteOptions, Transit.GetRouteOptionsSpec |
| js/data.js:276 | `calculateDuration(...) + 10` appends the text `10` to a string such as `"15m"` | Churchgate to CST Mumbai gives `"15m10"` | add ten minutes of interchange: `"25m"` | high, not executed | Transit.ViaDadarDurationAsWritten, Transit.InterchangeDurationExample, Transit.InterchangeDurationDefect | Transit.InterchangeDuration, Transit.GetRouteOptions, Transit.GetRouteOptionsSpec |
| sw.js:315 | `const caches = await caches.keys()` reads the new local `caches` inside its own initialiser, so the call throws a ReferenceError. Nothing in sw.js calls `cleanupOldCaches`, so the defect is latent | any cache storage, e.g. one holding `mindicator-v0.9` | delete every old `mindicator-` cache, as activation does | high, not executed | ServiceWorker.CleanupOldCachesAsWritten, ServiceWorker.CleanupDefect | ServiceWorker.DeleteOldCaches |
| js/components.js:803-809 | `setHours(h, m - 10)` for a departure before 00:10 lands on the previous day. The one-day bump then reaches today, which can still be past, and the delay becomes negative | departure `00:05` at 23:58 gives a delay of −3 minutes | the next time the clock shows ten minutes before departure, always ahead of now | medium, not executed | Components.ReminderDelayAsWritten, Components.ReminderAsWrittenPastMidnight | Components.ReminderDelay, Components.ReminderForDeparture, Components.SetReminder |

=== FILE: app.dfy ===
/**
 * The non-rendering logic of `App` in `js/app.js`: the live-train refresh,
 * which rewrites the selected line's train records in place, the search-form
 * check, the "updated … ago" bucketing and the live-line lookup. The
 * `Math.random()` outcomes of one refresh are a `LiveDraw` per train and the
 * clock is a parameter.
 */
module LiveApp {
  import opened JsBuiltins
  import Storage

  // ---------------------------------------------------------------- live train records

  /** The outcomes of the random draws `refreshLiveData` makes for one train. */
  type Die3 = k: nat | k < 3
  type Die10 = k: nat | k < 10

  /**
   * `etaStep` is `Math.floor(Math.random() * 3)`; `reroll` is
   * `Math.random() < 0.1`; `onTime` is `Math.random() < 0.8`; `delayRoll` is
   * `Math.floor(Math.random() * 10)`. The last two are only drawn when
   * `reroll` holds.
   */
  datatype LiveDraw = LiveDraw(etaStep: Die3, reroll: bool, onTime: bool, delayRoll: Die10)

  /** The three fields of a live train that a refresh may change. */
  datatype TrainState = TrainState(nextStationETA: string, status: string, delay: int)

  /** `parseInt(eta.split(' ')[0])`; `None` is NaN. */
  function EtaMinutes(eta: string): Option<int>
  {
    ParseInt(FirstField(eta, ' '))
  }

  /** The ETA text after one refresh: `${Math.max(1, etaMinutes)} min`, `NaN min` when the old one did not parse. */
  function NextEta(eta: string, step: Die3): string
  {
    match EtaMinutes(eta)
    case None => "NaN min"
    case Some(n) => IntToString(Max(1, n + step - 1)) + " min"
  }

  /** A live train's state after one refresh with the draws `d`. */
  function Refreshed(s: TrainState, d: LiveDraw): (r: TrainState)
    ensures r.nextStationETA == NextEta(s.nextStationETA, d.etaStep)
    ensures d.reroll ==> (r.status == "ontime" && r.delay == 0) || (r.status == "delayed" && 2 <= r.delay <= 11)
    ensures d.reroll ==> (r.status == "ontime" <==> d.onTime)
    ensures !d.reroll ==> r.status == s.status && r.delay == s.delay
  {
    var eta := NextEta(s.nextStationETA, d.etaStep);
    if d.reroll then
      var status := if d.onTime then "ontime" else "delayed";
      TrainState(eta, status, if status == "delayed" then d.delayRoll + 2 else 0)
    else
      TrainState(eta, s.status, s.delay)
  }

  /** An ETA of the form `<N> min` with `N` at least 1, which reads back as `N`. */
  predicate WellFormedEta(eta: string)
  {
    var v := EtaMinutes(eta);
    v.Some? && v.value >= 1 && eta == NatToString(v.value) + " min"
  }

  /**
   * The shape the seed data has and every refresh keeps: a well-formed ETA,
   * an on-time train without delay, a delayed one late by 2 to 11 minutes.
   */
  predicate Consistent(s: TrainState)
  {
    && WellFormedEta(s.nextStationETA)
    && (s.status == "ontime" || s.status == "delayed")
    && (s.status == "ontime" ==> s.delay == 0)
    && (s.status == "delayed" ==> 2 <= s.delay <= 11)
  }

  /** `<N> min` reads back as `N`. */
  lemma EtaReadsBack(n: nat)
    ensures EtaMinutes(NatToString(n) + " min") == Some(n)
  {
    var d := NatToString(n);
    NoSeparatorInDigits(d, ' ');
    EtaShape(d);
    SplitAt(d, ' ', "min");
    ParseIntOfNat(n, []);
    assert d + [] == d;
  }

  lemma EtaShape(d: string)
    ensures d + " min" == d + [' '] + "min"
  {
  }

  /**
   * A refresh moves a well-formed ETA of `n` minutes by at most one minute
   * and never below 1, and the result is well formed again.
   */
  lemma NextEtaStep(eta: string, step: Die3)
    requires WellFormedEta(eta)
    ensures var n := EtaMinutes(eta).value;
            && WellFormedEta(NextEta(eta, step))
            && EtaMinutes(NextEta(eta, step)) == Some(Max(1, n + step - 1))
            && n - 1 <= EtaMinutes(NextEta(eta, step)).value <= n + 1
  {
    var n := EtaMinutes(eta).value;
    EtaReadsBack(Max(1, n + step - 1));
  }

  /** Every refresh keeps a consistent train consistent. */
  lemma RefreshKeepsConsistent(s: TrainState, d: LiveDraw)
    requires Consistent(s)
    ensures Consistent(Refreshed(s, d))
  {
    NextEtaStep(s.nextStationETA, d.etaStep);
  }

  /** A live train record of `MIndicatorData.liveTrains`. */
  class LiveTrain {
    const trainNumber: string
    const route: string
    const currentStation: string
    const nextStation: string
    const coaches: int
    const crowdLevel: string
    var nextStationETA: string
    var status: string
    var delay: int

    constructor(trainNumber: string, route: string, currentStation: string, nextStation: string,
                nextStationETA: string, status: string, delay: int, coaches: int, crowdLevel: string)
      ensures this.trainNumber == trainNumber && this.route == route
      ensures this.currentStation == currentStation && this.nextStation == nextStation
      ensures this.coaches == coaches && this.crowdLevel == crowdLevel
      ensures State() == TrainState(nextStationETA, status, delay)
    {
      this.trainNumber := trainNumber;
      this.route := route;
      this.currentStation := currentStation;
      this.nextStation := nextStation;
      this.nextStationETA := nextStationETA;
      this.status := status;
      this.delay := delay;
      this.coaches := coaches;
      this.crowdLevel := crowdLevel;
    }

    function State(): TrainState
      reads this
    {
      TrainState(nextStationETA, status, delay)
    }

    /** The body of the `forEach` callback in `refreshLiveData`, for this train. */
    method Refresh(d: LiveDraw)
      modifies this
      ensures State() == Refreshed(old(State()), d)
    {
      ghost var before := State();
      ghost var after := Refreshed(before, d);
      nextStationETA := NextEta(nextStationETA, d.etaStep);
      if d.reroll {
        status := if d.onTime then "ontime" else "delayed";
        delay := if status == "delayed" then d.delayRoll + 2 else 0;
        assert status == after.status && delay == after.delay;
      }
    }
  }

  /** `MIndicatorData.liveTrains[line] || []` */
  function TrainsFor(liveTrains: map<string, seq<LiveTrain>>, line: string): (r: seq<LiveTrain>)
    ensures line in liveTrains ==> r == liveTrains[line]
    ensures line !in liveTrains ==> r == []
  {
    if line in liveTrains then liveTrains[line] else []
  }

  /** No record occurs twice in a line's list (each is its own object literal). */
  predicate Distinct(trains: seq<LiveTrain>)
  {
    forall i, j :: 0 <= i < j < |trains| ==> trains[i] != trains[j]
  }

  // ---------------------------------------------------------------- last update

  /** How long ago the last update was, in the unit `updateLastUpdateDisplay` picks. */
  datatype Ago = SecondsAgo(seconds: int) | MinutesAgo(minutes: int)

  /** `Math.floor(elapsedMs / 1000)` seconds, shown in whole minutes from 60 seconds on. */
  function TimeAgo(elapsedMs: int): (a: Ago)
    ensures a.SecondsAgo? <==> elapsedMs < 60000
    ensures a.SecondsAgo? ==> a.seconds * 1000 <= elapsedMs < a.seconds * 1000 + 1000
    ensures a.MinutesAgo? ==> a.minutes >= 1 && a.minutes * 60000 <= elapsedMs < a.minutes * 60000 + 60000
  {
    var seconds := elapsedMs / 1000;
    if seconds < 60 then SecondsAgo(seconds)
    else
      FloorOfFloor(elapsedMs);
      MinutesAgo(seconds / 60)
  }

  /** Whole minutes of whole seconds are whole minutes. */
  lemma FloorOfFloor(ms: int)
    ensures (ms / 1000) / 60 == ms / 60000
  {
    var s := ms / 1000;
    var m := s / 60;
    assert ms == 1000 * s + ms % 1000;
    assert s == 60 * m + s % 60;
    assert ms == 60000 * m + (1000 * (s % 60) + ms % 1000);
    assert 0 <= 1000 * (s % 60) + ms % 1000 < 60000;
  }

  function AgoText(a: Ago): string
  {
    match a
    case SecondsAgo(s) => "Updated " + IntToString(s) + "s ago"
    case MinutesAgo(m) => "Updated " + IntToString(m) + "m ago"
  }

  /**
   * `updateLastUpdateDisplay` at clock reading `now`: nothing is written
   * while `lastUpdateTime` is falsy (`null` or 0).
   */
  function LastUpdateText(lastUpdateTime: Option<int>, now: int): (r: Option<string>)
    ensures r.None? <==> lastUpdateTime.None? || lastUpdateTime.value == 0
  {
    if lastUpdateTime.None? || lastUpdateTime.value == 0 then None
    else Some(AgoText(TimeAgo(now - lastUpdateTime.value)))
  }

  /** Under a minute the text counts whole seconds, from then on whole minutes. */
  lemma LastUpdateBuckets(last: int, now: int)
    requires last != 0
    ensures now - last < 60000 ==> LastUpdateText(Some(last), now) == Some("Updated " + IntToString((now - last) / 1000) + "s ago")
    ensures now - last >= 60000 ==> LastUpdateText(Some(last), now) == Some("Updated " + IntToString((now - last) / 60000) + "m ago")
  {
    if now - last >= 60000 {
      FloorOfFloor(now - last);
    }
  }

  // ---------------------------------------------------------------- search form

  /** The two warnings `handleSearch` can show. */
  const MissingStation: string := "Please enter both departure and destination stations"
  const SameStation: string := "Departure and destination cannot be the same"

  /** The check `handleSearch` makes on the two raw input values: the trimmed pair, or the warning shown. */
  function SearchRequest(fromInput: string, toInput: string): (r: Result<(string, string), string>)
    ensures r.Success? <==> Trim(fromInput) != [] && Trim(toInput) != [] && Trim(fromInput) != Trim(toInput)
    ensures r.Success? ==> r.value == (Trim(fromInput), Trim(toInput))
    ensures r.Failure? ==> (r.error == MissingStation <==> Trim(fromInput) == [] || Trim(toInput) == [])
  {
    var from := Trim(fromInput);
    var to := Trim(toInput);
    if from == [] || to == [] then Failure(MissingStation)
    else if from == to then Failure(SameStation)
    else Success((from, to))
  }

  /** Trimmed text is empty or starts and ends with a non-space. */
  lemma TrimmedEnds(s: string)
    ensures Trim(s) != [] ==> !IsJsSpace(Trim(s)[0]) && !IsJsSpace(Trim(s)[|Trim(s)| - 1])
  {
    var t := TrimStart(s);
    var r := TrimEnd(t);
    if r != [] {
      assert r == t[..|r|];
      assert r[0] == t[0];
    }
  }

  /** An accepted search names two different stations, each without surrounding white space. */
  lemma AcceptedSearch(fromInput: string, toInput: string)
    requires SearchRequest(fromInput, toInput).Success?
    ensures var (from, to) := SearchRequest(fromInput, toInput).value;
            && from != [] && to != [] && from != to
            && !IsJsSpace(from[0]) && !IsJsSpace(from[|from| - 1])
            && !IsJsSpace(to[0]) && !IsJsSpace(to[|to| - 1])
  {
    TrimmedEnds(fromInput);
    TrimmedEnds(toInput);
  }

  /** What a search click leads to: a warning toast, or a search for the pair. */
  datatype SearchOutcome = Warned(message: string) | Searched(from: string, to: string)

  // ---------------------------------------------------------------- App

  /** The fields of `App.state` the modelled handlers read and write. */
  class App {
    var currentTab: string
    var selectedLine: string
    var lastUpdateTime: Option<int>
    var isOnline: bool

    constructor(isOnline: bool)
      ensures currentTab == "home" && selectedLine == "western"
      ensures lastUpdateTime.None? && this.isOnline == isOnline
    {
      currentTab := "home";
      selectedLine := "western";
      lastUpdateTime := None;
      this.isOnline := isOnline;
    }

    /**
     * `handleSearch`: warn and stop, or record the recent search (stamped
     * `now`) and hand the trimmed pair to `searchTrains`.
     */
    method HandleSearch(store: Storage.LocalStorage, fromInput: string, toInput: string, now: int)
      returns (outcome: SearchOutcome)
      modifies store
      ensures SearchRequest(fromInput, toInput).Failure? ==>
                outcome == Warned(SearchRequest(fromInput, toInput).error) && store.items == old(store.items)
      ensures SearchRequest(fromInput, toInput).Success? ==>
                var (from, to) := SearchRequest(fromInput, toInput).value;
                && outcome == Searched(from, to)
                && store.items == old(store.items)[Storage.RecentSearchesKey :=
                     Storage.Routes(Storage.AddedRecent(old(Storage.GetRecentSearches(store)), from, to, now))]
    {
      var request := SearchRequest(fromInput, toInput);
      if request.Failure? {
        return Warned(request.error);
      }
      var (from, to) := request.value;
      Storage.AddRecentSearch(store, from, to, now);
      outcome := Searched(from, to);
    }

    /** `loadLiveTrains`: the trains rendered for the selected line, then the update stamp and its text. */
    method LoadLiveTrains(liveTrains: map<string, seq<LiveTrain>>, now: int)
      returns (shown: seq<LiveTrain>, text: Option<string>)
      modifies this
      ensures shown == TrainsFor(liveTrains, selectedLine)
      ensures selectedLine !in liveTrains ==> shown == []
      ensures lastUpdateTime == Some(now) && text == LastUpdateText(Some(now), now)
      ensures currentTab == old(currentTab) && selectedLine == old(selectedLine) && isOnline == old(isOnline)
    {
      shown := TrainsFor(liveTrains, selectedLine);
      lastUpdateTime := Some(now);
      text := LastUpdateText(lastUpdateTime, now);
    }

    /** `switchLiveLine`: select `line`, then load its trains. */
    method SwitchLiveLine(liveTrains: map<string, seq<LiveTrain>>, line: string, now: int)
      returns (shown: seq<LiveTrain>, text: Option<string>)
      modifies this
      ensures selectedLine == line && shown == TrainsFor(liveTrains, line)
      ensures lastUpdateTime == Some(now) && text == LastUpdateText(Some(now), now)
      ensures currentTab == old(currentTab) && isOnline == old(isOnline)
    {
      selectedLine := line;
      shown, text := LoadLiveTrains(liveTrains, now);
    }

    /**
     * `refreshLiveData`: offline, nothing changes; online, each train of the
     * selected line is refreshed in place with its own draws, in list order,
     * and no other record changes.
     */
    method RefreshLiveData(liveTrains: map<string, seq<LiveTrain>>, draw: nat -> LiveDraw)
      requires Distinct(TrainsFor(liveTrains, selectedLine))
      modifies TrainsFor(liveTrains, selectedLine)
      ensures var trains := TrainsFor(liveTrains, selectedLine);
              forall i :: 0 <= i < |trains| ==>
                trains[i].State() == (if isOnline then Refreshed(old(trains[i].State()), draw(i)) else old(trains[i].State()))
    {
      if isOnline {
        RefreshAll(TrainsFor(liveTrains, selectedLine), draw);
      }
    }
  }

  /**
   * The `forEach` of `refreshLiveData`: refresh each train in place with its
   * own draws.
   */
  method RefreshAll(trains: seq<LiveTrain>, draw: nat -> LiveDraw)
    requires Distinct(trains)
    modifies trains
    ensures forall i :: 0 <= i < |trains| ==> trains[i].State() == Refreshed(old(trains[i].State()), draw(i))
  {
    var k := 0;
    while k < |trains|
      invariant 0 <= k <= |trains|
      invariant forall i :: 0 <= i < k ==> trains[i].State() == Refreshed(old(trains[i].State()), draw(i))
      invariant forall i :: k <= i < |trains| ==> trains[i].State() == old(trains[i].State())
    {
      RefreshAt(trains, draw, k);
      k := k + 1;
    }
  }

  /** One step of `RefreshAll`: train `k` is refreshed and every other train keeps its state. */
  method RefreshAt(trains: seq<LiveTrain>, draw: nat -> LiveDraw, k: nat)
    requires Distinct(trains) && k < |trains|
    modifies trains[k]
    ensures trains[k].State() == Refreshed(old(trains[k].State()), draw(k))
    ensures forall i :: 0 <= i < |trains| && i != k ==> trains[i].State() == old(trains[i].State())
  {
    trains[k].Refresh(draw(k));
  }

  /** A refresh keeps every train of a consistent line consistent. */
  lemma RefreshedLineConsistent(before: seq<TrainState>, after: seq<TrainState>, draw: nat -> LiveDraw)
    requires |after| == |before|
    requires forall i :: 0 <= i < |before| ==> Consistent(before[i])
    requires forall i :: 0 <= i < |before| ==> after[i] == Refreshed(before[i], draw(i))
    ensures forall i :: 0 <= i < |after| ==> Consistent(after[i])
  {
    forall i | 0 <= i < |after|
      ensures Consistent(after[i])
    {
      RefreshKeepsConsistent(before[i], draw(i));
    }
  }

  // ---------------------------------------------------------------- seed data

  /** The ETA text `<n> min`, the form every seed record uses. */
  function EtaText(n: nat): string
  {
    NatToString(n) + " min"
  }

  /** A record showing `<n> min` (n at least 1) with a status and delay that agree is consistent. */
  lemma SeedEntryConsistent(n: nat, status: string, delay: int)
    requires n >= 1
    requires (status == "ontime" && delay == 0) || (status == "delayed" && 2 <= delay <= 11)
    ensures Consistent(TrainState(EtaText(n), status, delay))
  {
    EtaReadsBack(n);
  }
}

=== FILE: components.dfy ===
/**
 * The decision logic of the UI components: the autocomplete dropdown with its
 * keyboard cursor, the favourite-route form check, the day labels of saved
 * routes, the reminder delay and the toast icon and colour tables. Rendering,
 * positioning and event wiring are not modelled; the dropdown is the list of
 * stations it shows.
 */
module Components {
  import opened JsBuiltins
  import Transit
  import Storage
  import Utils

  // ---------------------------------------------------------------- autocomplete

  /** The defaults of `Autocomplete.init` when no option overrides them. */
  const DefaultMinChars: int := 2
  const DefaultMaxResults: int := 8

  /** The keys the keydown handler tells apart. */
  datatype Key = ArrowDown | ArrowUp | Enter | Escape | OtherKey

  /** `list.slice(0, end)`: a prefix, counted from the back when `end` is negative. */
  function SliceTo<T>(s: seq<T>, end: int): (r: seq<T>)
    ensures r <= s
    ensures end >= 0 ==> |r| == Min(end, |s|)
    ensures end < 0 ==> |r| == Max(|s| + end, 0)
  {
    if end >= |s| then s
    else if end >= 0 then s[..end]
    else s[..Max(|s| + end, 0)]
  }

  /** ArrowDown: one step on, back to the first item past the last. */
  function Down(focus: int, count: nat): int
  {
    if focus + 1 >= count then 0 else focus + 1
  }

  /** ArrowUp: one step back, round to the last item before the first. */
  function Up(focus: int, count: nat): int
  {
    if focus - 1 < 0 then count - 1 else focus - 1
  }

  /**
   * The cursor is "nothing focused" (-1) or an item; with no items an
   * ArrowDown still leaves it at 0.
   */
  predicate CursorInRange(focus: int, count: nat)
  {
    -1 <= focus <= Max(0, count - 1)
  }

  /** Both arrows keep the cursor in range, and land on an item whenever there is one. */
  lemma ArrowsKeepCursor(focus: int, count: nat)
    requires CursorInRange(focus, count)
    ensures CursorInRange(Down(focus, count), count) && CursorInRange(Up(focus, count), count)
    ensures count > 0 ==> 0 <= Down(focus, count) < count && 0 <= Up(focus, count) < count
  {
  }

  /** From a fresh list ArrowDown picks the first item and ArrowUp the last. */
  lemma ArrowsFromNothing(count: nat)
    requires count > 0
    ensures Down(-1, count) == 0 && Up(-1, count) == count - 1
  {
  }

  /** On an item, ArrowUp undoes ArrowDown and ArrowDown undoes ArrowUp. */
  lemma ArrowsInverse(focus: int, count: nat)
    requires 0 <= focus < count
    ensures Up(Down(focus, count), count) == focus
    ensures Down(Up(focus, count), count) == focus
  {
  }

  /** The cursor after `k` presses of ArrowDown. */
  function DownTimes(focus: int, count: nat, k: nat): int
  {
    if k == 0 then focus else Down(DownTimes(focus, count, k - 1), count)
  }

  /** From an item, `j` presses (at most one round) move `j` places on, wrapping past the last item once. */
  lemma {:induction false} DownTimesWrap(focus: int, count: nat, j: nat)
    requires 0 <= focus < count && j <= count
    ensures DownTimes(focus, count, j) == if focus + j < count then focus + j else focus + j - count
  {
    if j > 0 {
      DownTimesWrap(focus, count, j - 1);
    }
  }

  /** ArrowDown walks the items in a cycle: `count` presses come back to the same item. */
  lemma DownTimesCycle(focus: int, count: nat)
    requires 0 <= focus < count
    ensures DownTimes(focus, count, count) == focus
    ensures forall j | 0 < j < count :: DownTimes(focus, count, j) != focus
  {
    DownTimesWrap(focus, count, count);
    forall j | 0 < j < count
      ensures DownTimes(focus, count, j) != focus
    {
      DownTimesWrap(focus, count, j);
    }
  }

  /** The highlighted item after `setActive(items, focus)`: the focused one, if it exists. */
  function Highlight(focus: int, count: nat): (h: set<int>)
    ensures forall i :: i in h <==> 0 <= i < count && i == focus
  {
    if 0 <= focus < count then {focus} else {}
  }

  /** One `Autocomplete.init` on an input: the closure's state and the input it drives. */
  class Autocomplete {
    const minChars: int
    const maxResults: int
    /** The stations in the dropdown, one per rendered item. */
    var items: seq<Transit.Station>
    var currentFocus: int
    var highlighted: set<int>
    var shown: bool
    var inputValue: string
    /** The stations passed to `onSelect`, in order. */
    var selections: seq<Transit.Station>

    predicate Valid()
      reads this
    {
      && CursorInRange(currentFocus, |items|)
      && forall i | i in highlighted :: i == currentFocus && 0 <= i < |items|
    }

    constructor(minChars: int, maxResults: int, inputValue: string)
      ensures Valid()
      ensures this.minChars == minChars && this.maxResults == maxResults
      ensures items == [] && currentFocus == -1 && highlighted == {} && !shown
      ensures this.inputValue == inputValue && selections == []
    {
      this.minChars := minChars;
      this.maxResults := maxResults;
      items := [];
      currentFocus := -1;
      highlighted := {};
      shown := false;
      this.inputValue := inputValue;
      selections := [];
    }

    /** `showResults`: replace the items, drop the cursor, show the dropdown when there is something in it. */
    method ShowResults(results: seq<Transit.Station>)
      modifies this
      ensures Valid()
      ensures items == results && currentFocus == -1 && highlighted == {}
      ensures shown <==> results != []
      ensures inputValue == old(inputValue) && selections == old(selections)
    {
      items := results;
      currentFocus := -1;
      highlighted := {};
      shown := results != [];
    }

    /**
     * The debounced search on a trimmed query: long enough, show at most
     * `maxResults` of what `search` finds; too short, only hide the dropdown.
     */
    method Search(query: string, search: string -> seq<Transit.Station>)
      requires Valid()
      modifies this
      ensures Valid()
      ensures |query| >= minChars ==>
                && items == SliceTo(search(query), maxResults)
                && currentFocus == -1 && highlighted == {}
                && (shown <==> items != [])
      ensures |query| < minChars ==>
                && !shown && items == old(items)
                && currentFocus == old(currentFocus) && highlighted == old(highlighted)
      ensures inputValue == old(inputValue) && selections == old(selections)
    {
      if |query| >= minChars {
        ShowResults(SliceTo(search(query), maxResults));
      } else {
        shown := false;
      }
    }

    /** The `input` listener: the new text is searched for once trimmed. */
    method Input(value: string, search: string -> seq<Transit.Station>)
      requires Valid()
      modifies this
      ensures Valid()
      ensures inputValue == value && selections == old(selections)
      ensures |Trim(value)| >= minChars ==>
                items == SliceTo(search(Trim(value)), maxResults) && currentFocus == -1
      ensures |Trim(value)| < minChars ==>
                !shown && items == old(items) && currentFocus == old(currentFocus)
    {
      inputValue := value;
      Search(Trim(value), search);
    }

    /** The click listener of item `index`: fill the input, hide, report the station. */
    method Click(index: int)
      requires Valid()
      requires 0 <= index < |items|
      modifies this
      ensures Valid()
      ensures inputValue == old(items)[index].name && !shown
      ensures selections == old(selections) + [old(items)[index]]
      ensures items == old(items) && currentFocus == old(currentFocus) && highlighted == old(highlighted)
    {
      inputValue := items[index].name;
      shown := false;
      selections := selections + [items[index]];
    }

    /**
     * The keydown listener. The arrows move the cursor round the items and
     * highlight it; Enter clicks the focused item when there is one; Escape
     * hides the dropdown; other keys do nothing.
     */
    method KeyDown(key: Key)
      requires Valid()
      modifies this
      ensures Valid()
      ensures items == old(items)
      ensures key == ArrowDown ==>
                && currentFocus == Down(old(currentFocus), |items|)
                && highlighted == Highlight(currentFocus, |items|)
                && shown == old(shown) && inputValue == old(inputValue) && selections == old(selections)
      ensures key == ArrowUp ==>
                && currentFocus == Up(old(currentFocus), |items|)
                && highlighted == Highlight(currentFocus, |items|)
                && shown == old(shown) && inputValue == old(inputValue) && selections == old(selections)
      ensures key == Enter && 0 <= old(currentFocus) < |items| ==>
                && inputValue == items[old(currentFocus)].name && !shown
                && selections == old(selections) + [items[old(currentFocus)]]
                && currentFocus == old(currentFocus) && highlighted == old(highlighted)
      ensures key == Enter && !(0 <= old(currentFocus) < |items|) ==>
                && currentFocus == old(currentFocus) && highlighted == old(highlighted)
                && shown == old(shown) && inputValue == old(inputValue) && selections == old(selections)
      ensures key == Escape ==>
                && !shown && currentFocus == old(currentFocus) && highlighted == old(highlighted)
                && inputValue == old(inputValue) && selections == old(selections)
      ensures key == OtherKey ==>
                && currentFocus == old(currentFocus) && highlighted == old(highlighted)
                && shown == old(shown) && inputValue == old(inputValue) && selections == old(selections)
    {
      match key
      case ArrowDown =>
        ArrowsKeepCursor(currentFocus, |items|);
        currentFocus := Down(currentFocus, |items|);
        highlighted := Highlight(currentFocus, |items|);
      case ArrowUp =>
        ArrowsKeepCursor(currentFocus, |items|);
        currentFocus := Up(currentFocus, |items|);
        highlighted := Highlight(currentFocus, |items|);
      case Enter =>
        if currentFocus > -1 && currentFocus < |items| {
          Click(currentFocus);
        }
      case Escape =>
        shown := false;
      case OtherKey =>
    }

    /** A click outside the input and the dropdown hides the dropdown. */
    method ClickOutside()
      requires Valid()
      modifies this
      ensures Valid()
      ensures !shown && items == old(items) && currentFocus == old(currentFocus)
      ensures highlighted == old(highlighted) && inputValue == old(inputValue) && selections == old(selections)
    {
      shown := false;
    }
  }

  /** With the default options the dropdown never holds more than eight stations. */
  lemma DefaultResultsBounded(found: seq<Transit.Station>)
    ensures |SliceTo(found, DefaultMaxResults)| <= 8
    ensures SliceTo(found, DefaultMaxResults) <= found
  {
  }

  // ---------------------------------------------------------------- toasts

  /** A toast as `Toast.show(message, type)` is asked to show it. */
  datatype Toast = Toast(message: string, kind: string)

  /** `Toast.getIcon`: the icon of a known type, the info icon for any other. */
  function ToastIcon(kind: string): (icon: string)
    ensures kind == "success" ==> icon == "fa-check-circle"
    ensures kind == "error" ==> icon == "fa-exclamation-circle"
    ensures kind == "warning" ==> icon == "fa-exclamation-triangle"
    ensures kind !in {"success", "error", "warning"} ==> icon == "fa-info-circle"
  {
    if kind == "success" then "fa-check-circle"
    else if kind == "error" then "fa-exclamation-circle"
    else if kind == "warning" then "fa-exclamation-triangle"
    else "fa-info-circle"
  }

  /** `Toast.getBackgroundColor`: the colour of a known type, the info colour for any other. */
  function ToastColor(kind: string): (color: string)
    ensures kind == "success" ==> color == "#27AE60"
    ensures kind == "error" ==> color == "#E74C3C"
    ensures kind == "warning" ==> color == "#F39C12"
    ensures kind !in {"success", "error", "warning"} ==> color == "#3498DB"
  {
    if kind == "success" then "#27AE60"
    else if kind == "error" then "#E74C3C"
    else if kind == "warning" then "#F39C12"
    else "#3498DB"
  }

  /** Icon and colour fall back together: a toast gets the info icon exactly when it gets the info colour. */
  lemma ToastFallbacksAgree(kind: string)
    ensures ToastIcon(kind) == ToastIcon("info") <==> ToastColor(kind) == ToastColor("info")
    ensures ToastIcon(kind) == ToastIcon("info") <==> kind !in {"success", "error", "warning"}
  {
  }

  /** Different known types look different: both tables are one-to-one on them. */
  lemma ToastKindsDistinct(a: string, b: string)
    requires a in {"success", "error", "warning", "info"} && b in {"success", "error", "warning", "info"}
    ensures ToastIcon(a) == ToastIcon(b) <==> a == b
    ensures ToastColor(a) == ToastColor(b) <==> a == b
  {
  }

  // ---------------------------------------------------------------- favourites

  const BothStations: string := "Please enter both stations"
  const DifferentStations: string := "From and To stations cannot be the same"
  const FavoriteAdded: string := "Favorite route added!"
  const FavoriteRemoved: string := "Favorite removed"

  /** The check `Favorites.add` makes on the raw form values: the trimmed pair, or the warning shown. */
  function FavoriteRequest(fromInput: string, toInput: string): (r: Result<(string, string), string>)
    ensures r.Success? <==> Trim(fromInput) != [] && Trim(toInput) != [] && Trim(fromInput) != Trim(toInput)
    ensures r.Success? ==> r.value == (Trim(fromInput), Trim(toInput))
    ensures r.Failure? ==> (r.error == BothStations <==> Trim(fromInput) == [] || Trim(toInput) == [])
  {
    var from := Trim(fromInput);
    var to := Trim(toInput);
    if from == [] || to == [] then Failure(BothStations)
    else if from == to then Failure(DifferentStations)
    else Success((from, to))
  }

  /**
   * `Favorites.add`: a warning and nothing stored, or the pair stamped `now`
   * handed to `addFavorite` and a success toast.
   */
  method AddFavorite(store: Storage.LocalStorage, fromInput: string, toInput: string, now: int)
    returns (toast: Toast)
    modifies store
    ensures FavoriteRequest(fromInput, toInput).Failure? ==>
              toast == Toast(FavoriteRequest(fromInput, toInput).error, "warning")
              && store.items == old(store.items)
    ensures FavoriteRequest(fromInput, toInput).Success? ==>
              var (from, to) := FavoriteRequest(fromInput, toInput).value;
              && toast == Toast(FavoriteAdded, "success")
              && Storage.GetFavorites(store) ==
                   Storage.AddedFavorites(old(Storage.GetFavorites(store)), Storage.SavedRoute(from, to, now))
              && (Storage.FindPair(old(Storage.GetFavorites(store)), from, to) != -1 ==> store.items == old(store.items))
              && (Storage.FindPair(old(Storage.GetFavorites(store)), from, to) == -1 ==>
                    store.items == old(store.items)[Storage.FavoritesKey := Storage.Routes(Storage.GetFavorites(store))])
  {
    var request := FavoriteRequest(fromInput, toInput);
    if request.Failure? {
      return Toast(request.error, "warning");
    }
    var (from, to) := request.value;
    Storage.AddFavorite(store, Storage.SavedRoute(from, to, now));
    toast := Toast(FavoriteAdded, "success");
  }

  /** `Favorites.remove`: only a confirmed removal touches the store. */
  method RemoveFavorite(store: Storage.LocalStorage, index: int, confirmed: bool)
    returns (toast: Option<Toast>)
    modifies store
    ensures !confirmed ==> toast.None? && store.items == old(store.items)
    ensures confirmed ==>
              && toast == Some(Toast(FavoriteRemoved, "info"))
              && store.items == old(store.items)[Storage.FavoritesKey :=
                   Storage.Routes(Storage.Spliced(old(Storage.GetFavorites(store)), index))]
  {
    if !confirmed {
      return None;
    }
    Storage.RemoveFavorite(store, index);
    toast := Some(Toast(FavoriteRemoved, "info"));
  }

  /** An added favourite is never empty, never a round trip, and ends up in the list. */
  lemma AddedFavoriteStored(list: seq<Storage.SavedRoute>, fromInput: string, toInput: string, now: int)
    requires Storage.ValidFavorites(list)
    requires FavoriteRequest(fromInput, toInput).Success?
    ensures var (from, to) := FavoriteRequest(fromInput, toInput).value;
            var after := Storage.AddedFavorites(list, Storage.SavedRoute(from, to, now));
            && from != [] && to != [] && from != to
            && Storage.ValidFavorites(after)
            && Storage.FindPair(after, from, to) != -1
  {
    var (from, to) := FavoriteRequest(fromInput, toInput).value;
    Storage.AddedFavoritesValid(list, Storage.SavedRoute(from, to, now));
  }

  // ---------------------------------------------------------------- saved-route dates

  /** What `formatDate` shows; `CalendarDate` is the locale date it leaves to `toLocaleDateString`. */
  datatype DateLabel = Today | Yesterday | DaysAgo(days: int) | CalendarDate(timestamp: int)

  /**
   * `Favorites.formatDate`: the whole days since `timestamp` (floored) pick
   * the label; a timestamp in the future is a negative number of days ago.
   */
  function FormatDate(timestamp: int, nowMs: int): (tag: DateLabel)
    ensures tag == Today <==> 0 <= nowMs - timestamp < 86400000
    ensures tag == Yesterday <==> 86400000 <= nowMs - timestamp < 172800000
    ensures tag.DaysAgo? <==> nowMs - timestamp < 0 || 172800000 <= nowMs - timestamp < 604800000
    ensures tag.DaysAgo? ==>
              && tag.days < 7 && tag.days != 0 && tag.days != 1
              && tag.days * 86400000 <= nowMs - timestamp < (tag.days + 1) * 86400000
    ensures tag.CalendarDate? <==> nowMs - timestamp >= 604800000
    ensures tag.CalendarDate? ==> tag.timestamp == timestamp
  {
    var diffDays := (nowMs - timestamp) / 86400000;
    if diffDays == 0 then Today
    else if diffDays == 1 then Yesterday
    else if diffDays < 7 then DaysAgo(diffDays)
    else CalendarDate(timestamp)
  }

  /** The text of a tag, `None` for the locale-formatted date. */
  function DateText(tag: DateLabel): (r: Option<string>)
    ensures r.None? <==> tag.CalendarDate?
    ensures tag == Today ==> r == Some("today")
    ensures tag == Yesterday ==> r == Some("yesterday")
    ensures tag.DaysAgo? && tag.days >= 0 ==> r == Some(NatToString(tag.days) + " days ago")
    ensures tag.DaysAgo? && tag.days < 0 ==> r == Some("-" + NatToString(-tag.days) + " days ago")
  {
    match tag
    case Today => Some("today")
    case Yesterday => Some("yesterday")
    case DaysAgo(d) => Some(IntToString(d) + " days ago")
    case CalendarDate(_) => None
  }

  /** Saved routes of the last week get a text of their own; labels only grow older as time passes. */
  lemma FormatDateMonotone(timestamp: int, now1: int, now2: int)
    requires timestamp <= now1 <= now2
    ensures var a, b := FormatDate(timestamp, now1), FormatDate(timestamp, now2);
            && (b == Today ==> a == Today)
            && (b == Yesterday ==> a == Today || a == Yesterday)
            && (a.CalendarDate? ==> b.CalendarDate?)
  {
  }

  // ---------------------------------------------------------------- reminders

  /**
   * The delay `setReminder` computes, as written: `departure - 10` minutes on
   * today's clock (`setHours` carries out-of-range fields into the day), moved
   * to the next day when it is not after `nowMs` (the time of day).
   */
  function ReminderDelayAsWritten(hours: int, minutes: int, nowMs: int): (delay: int)
    ensures var target := hours * 3600000 + (minutes - 10) * 60000;
            nowMs + delay == target || nowMs + delay == target + 86400000
  {
    var target := hours * 3600000 + (minutes - 10) * 60000;
    if target <= nowMs then target + 86400000 - nowMs else target - nowMs
  }

  /** For a departure from 00:10 on, the delay as written is positive and at most a day. */
  lemma ReminderAsWrittenPositive(hours: int, minutes: int, nowMs: int)
    requires 10 <= hours * 60 + minutes < 1440 && 0 <= nowMs < 86400000
    ensures 0 < ReminderDelayAsWritten(hours, minutes, nowMs) <= 86400000
  {
  }

  /**
   * For a departure at 00:05 the reminder time is 23:55 of the day before;
   * one day later is still not after 23:58, so the delay is negative and the
   * reminder fires at once.
   */
  lemma ReminderAsWrittenPastMidnight()
    ensures ReminderDelayAsWritten(0, 5, 86280000) == -180000
  {
  }

  /** The reminder time of day, in minutes, for a departure `hours:minutes`. */
  function ReminderMinute(hours: int, minutes: int): (m: int)
    ensures 0 <= m < 1440
    ensures (hours * 60 + minutes - 10 - m) % 1440 == 0
  {
    (hours * 60 + minutes - 10) % 1440
  }

  /**
   * The delay as intended: the next time the clock shows ten minutes before
   * departure, today if that is still ahead, otherwise tomorrow.
   */
  function ReminderDelay(hours: int, minutes: int, nowMs: int): (delay: int)
    requires 0 <= nowMs < 86400000
    ensures 0 < delay <= 86400000
    ensures nowMs + delay == ReminderMinute(hours, minutes) * 60000
            || nowMs + delay == ReminderMinute(hours, minutes) * 60000 + 86400000
  {
    var target := ReminderMinute(hours, minutes) * 60000;
    if target <= nowMs then target + 86400000 - nowMs else target - nowMs
  }

  /** From 00:10 on, the intended delay is the one computed as written. */
  lemma ReminderAgrees(hours: int, minutes: int, nowMs: int)
    requires 10 <= hours * 60 + minutes < 1440 && 0 <= nowMs < 86400000
    ensures ReminderDelay(hours, minutes, nowMs) == ReminderDelayAsWritten(hours, minutes, nowMs)
  {
    var t := hours * 60 + minutes - 10;
    assert 0 <= t < 1440;
    assert ReminderMinute(hours, minutes) == t;
  }

  /** The notification a reminder shows; `delayMs` is `None` when it is NaN. */
  datatype Reminder = Reminder(delayMs: Option<int>, title: string, body: string)

  datatype ReminderOutcome = Refused(toast: Toast) | Scheduled(reminder: Reminder, toast: Toast)

  const NotSupported: string := "Notifications not supported on this device"
  const EnableNotifications: string := "Please enable notifications to set reminders"

  /**
   * `setReminder`: refused without notification support, or when
   * `requestNotificationPermission` rejects (`permitted` false: permission
   * already denied); otherwise, even when a prompt is dismissed, a
   * notification `departs in 10 minutes` after the delay, with the departure
   * split at ':' and read with `Number`. `nowMs` is the time of day.
   */
  function SetReminder(supported: bool, permitted: bool, trainNumber: string, departureTime: string, nowMs: int)
    : (r: ReminderOutcome)
    requires 0 <= nowMs < 86400000
    ensures r.Scheduled? <==> supported && permitted
    ensures !supported ==> r == Refused(Toast(NotSupported, "warning"))
    ensures supported && !permitted ==> r == Refused(Toast(EnableNotifications, "warning"))
    ensures r.Scheduled? ==>
              && r.reminder.body == trainNumber + " departs in 10 minutes at " + departureTime
              && (r.reminder.delayMs.Some? <==>
                    Utils.HoursField(departureTime).Some? && Utils.MinutesField(departureTime).Some?)
              && (r.reminder.delayMs.Some? ==>
                    r.reminder.delayMs.value
                      == ReminderDelay(Utils.HoursField(departureTime).value, Utils.MinutesField(departureTime).value, nowMs)
                    && 0 < r.reminder.delayMs.value <= 86400000)
              && r.reminder.title == "Train Reminder"
              && r.toast == Toast("Reminder set for " + Utils.FormatTime(departureTime), "success")
  {
    if !supported then Refused(Toast(NotSupported, "warning"))
    else if !permitted then Refused(Toast(EnableNotifications, "warning"))
    else
      var hours, minutes := Utils.HoursField(departureTime), Utils.MinutesField(departureTime);
      var delay := if hours.None? || minutes.None? then None
                   else Some(ReminderDelay(hours.value, minutes.value, nowMs));
      Scheduled(Reminder(delay, "Train Reminder", trainNumber + " departs in 10 minutes at " + departureTime),
                Toast("Reminder set for " + Utils.FormatTime(departureTime), "success"))
  }

  /**
   * A reminder for a timetable departure `ClockText(k)` fires within a day,
   * ten minutes before that departure (a departure before 00:10 counts from
   * the next day).
   */
  lemma ReminderForDeparture(k: nat, nowMs: int)
    requires k < 1440 && 0 <= nowMs < 86400000
    ensures var r := SetReminder(true, true, "", ClockText(k), nowMs);
            && r.Scheduled? && r.reminder.delayMs.Some?
            && 0 < r.reminder.delayMs.value <= 86400000
            && nowMs + r.reminder.delayMs.value - (k - 10) * 60000 in {0, 86400000, 172800000}
  {
    Utils.ClockFields(k);
    ReminderOnClock(k, nowMs);
  }

  /** The arithmetic of `ReminderForDeparture`, on the clock fields of minute `k`. */
  lemma ReminderOnClock(k: nat, nowMs: int)
    requires k < 1440 && 0 <= nowMs < 86400000
    ensures nowMs + ReminderDelay(k / 60, k % 60, nowMs) - (k - 10) * 60000 in {0, 86400000, 172800000}
  {
    assert (k / 60) * 60 + k % 60 == k;
    var m := ReminderMinute(k / 60, k % 60);
    assert m == if k >= 10 then k - 10 else k + 1430;
  }
}

=== FILE: js_builtins.dfy ===
/**
 * The JavaScript built-ins the app leans on, modelled on `string` values:
 * case mapping, `includes`, `startsWith`/`endsWith`, `trim`, `split(sep)[0]`,
 * `String(n)`, `padStart`, `parseInt(s, 10)` and the truncating `%` operator.
 * Case mapping covers ASCII letters only (see README, "Left out").
 */
module JsBuiltins {

  datatype Option<T> = None | Some(value: T)

  /** A value, or the exception the JavaScript code throws instead. */
  datatype Result<T, E> = Success(value: T) | Failure(error: E)

  /** The two exception kinds the modelled defects raise. */
  datatype JsError = TypeError(message: string) | ReferenceError(message: string)

  function Max(a: int, b: int): int { if a < b then b else a }
  function Min(a: int, b: int): int { if a < b then a else b }
  function Abs(a: int): nat { if a < 0 then -a else a }

  // ---------------------------------------------------------------- case

  function LowerChar(c: char): char
  {
    if 'A' <= c <= 'Z' then (c as int + 32) as char else c
  }

  function UpperChar(c: char): char
  {
    if 'a' <= c <= 'z' then (c as int - 32) as char else c
  }

  /** `s.toLowerCase()` */
  function ToLower(s: string): (r: string)
    ensures |r| == |s|
    ensures forall i :: 0 <= i < |s| ==> r[i] == LowerChar(s[i])
  {
    seq(|s|, i requires 0 <= i < |s| => LowerChar(s[i]))
  }

  /** `s.toUpperCase()` */
  function ToUpper(s: string): (r: string)
    ensures |r| == |s|
    ensures forall i :: 0 <= i < |s| ==> r[i] == UpperChar(s[i])
  {
    seq(|s|, i requires 0 <= i < |s| => UpperChar(s[i]))
  }

  // ---------------------------------------------------------------- search

  /** `hay.includes(needle)`, scanning start positions left to right. */
  predicate Contains(hay: string, needle: string)
    decreases |hay|
  {
    needle <= hay || (|hay| > 0 && Contains(hay[1..], needle))
  }

  /** The needle occurs in the hay starting at position `i`. */
  predicate OccursAt(hay: string, needle: string, i: int)
  {
    0 <= i && i + |needle| <= |hay| && hay[i..i + |needle|] == needle
  }

  /** `Contains` holds exactly when the needle occurs at some position. */
  lemma {:induction false} ContainsIffOccurs(hay: string, needle: string)
    ensures Contains(hay, needle) <==> exists i :: OccursAt(hay, needle, i)
    decreases |hay|
  {
    if needle <= hay {
      assert OccursAt(hay, needle, 0);
    } else if |hay| > 0 {
      ContainsIffOccurs(hay[1..], needle);
      if Contains(hay[1..], needle) {
        var i :| OccursAt(hay[1..], needle, i);
        assert hay[i + 1..i + 1 + |needle|] == hay[1..][i..i + |needle|];
        assert OccursAt(hay, needle, i + 1);
      } else {
        forall i
          ensures !OccursAt(hay, needle, i)
        {
          if 0 < i && i + |needle| <= |hay| {
            assert hay[i..i + |needle|] == hay[1..][i - 1..i - 1 + |needle|];
            assert !OccursAt(hay[1..], needle, i - 1);
          }
        }
      }
    } else {
      forall i
        ensures !OccursAt(hay, needle, i)
      {
      }
    }
  }

  /** The empty string is contained in every string (as `"x".includes("")`). */
  lemma ContainsEmpty(hay: string)
    ensures Contains(hay, "")
  {
  }

  /** Every string contains itself. */
  lemma ContainsSelf(s: string)
    ensures Contains(s, s)
  {
    assert s <= s;
  }

  /** `s.startsWith(p)` */
  predicate StartsWith(s: string, p: string) { p <= s }

  /** `s.endsWith(p)` */
  predicate EndsWith(s: string, p: string)
  {
    |p| <= |s| && s[|s| - |p|..] == p
  }

  /** Position of the first `c` in `s`, or -1 (`s.indexOf(c)`). */
  function IndexOfChar(s: string, c: char): (r: int)
    ensures -1 <= r < |s|
    ensures r >= 0 ==> s[r] == c && forall j :: 0 <= j < r ==> s[j] != c
    ensures r == -1 ==> forall j :: 0 <= j < |s| ==> s[j] != c
    decreases |s|
  {
    if s == [] then -1
    else if s[0] == c then 0
    else
      var k := IndexOfChar(s[1..], c);
      if k == -1 then -1 else k + 1
  }

  /** `xs.indexOf(x)`: the first position holding `x`, or -1. */
  function IndexOf<T(==)>(xs: seq<T>, x: T): (r: int)
    ensures -1 <= r < |xs|
    ensures r >= 0 ==> xs[r] == x && forall j :: 0 <= j < r ==> xs[j] != x
    ensures r == -1 <==> x !in xs
    decreases |xs|
  {
    if xs == [] then -1
    else if xs[0] == x then 0
    else
      var k := IndexOf(xs[1..], x);
      if k == -1 then -1 else k + 1
  }

  /** `s.split(sep)[0]`: the text before the first separator. */
  function FirstField(s: string, sep: char): string
  {
    var k := IndexOfChar(s, sep);
    if k == -1 then s else s[..k]
  }

  /** The text after the first separator, if there is one. */
  function AfterFirst(s: string, sep: char): Option<string>
  {
    var k := IndexOfChar(s, sep);
    if k == -1 then None else Some(s[k + 1..])
  }

  /** Splitting at a separator that the first part does not contain. */
  lemma SplitAt(a: string, sep: char, b: string)
    requires sep !in a
    ensures FirstField(a + [sep] + b, sep) == a
    ensures AfterFirst(a + [sep] + b, sep) == Some(b)
  {
    var s := a + [sep] + b;
    assert s[|a|] == sep;
    assert forall j :: 0 <= j < |a| ==> s[j] == a[j];
    assert IndexOfChar(s, sep) == |a|;
    assert s[..|a|] == a;
    assert s[|a| + 1..] == b;
  }

  /** A text without the separator is its own first field. */
  lemma FirstFieldWithout(s: string, sep: char)
    requires sep !in s
    ensures FirstField(s, sep) == s
  {
    assert IndexOfChar(s, sep) == -1;
  }

  /** Digits hold no separator that is not a digit. */
  lemma NoSeparatorInDigits(s: string, sep: char)
    requires AllDigits(s) && !IsDigit(sep)
    ensures sep !in s
  {
  }

  // ---------------------------------------------------------------- trim

  /**
   * White space as `String.prototype.trim` sees it: the WhiteSpace
   * (TAB, VT, FF, SP, NBSP, ZWNBSP and every Zs character) and LineTerminator
   * (LF, CR, LS, PS) productions of ECMAScript.
   */
  predicate IsJsSpace(c: char)
  {
    c == ' ' || c == '\t' || c == '\n' || c == '\r' || c == '\U{000B}' || c == '\U{000C}'
    || c == '\U{00A0}' || c == '\U{FEFF}' || c == '\U{1680}'
    || ('\U{2000}' <= c <= '\U{200A}') || c == '\U{2028}' || c == '\U{2029}'
    || c == '\U{202F}' || c == '\U{205F}' || c == '\U{3000}'
  }

  function TrimStart(s: string): (r: string)
    ensures |r| <= |s| && r == s[|s| - |r|..]
    ensures r != [] ==> !IsJsSpace(r[0])
    ensures forall i :: 0 <= i < |s| - |r| ==> IsJsSpace(s[i])
    decreases |s|
  {
    if s != [] && IsJsSpace(s[0]) then TrimStart(s[1..]) else s
  }

  function TrimEnd(s: string): (r: string)
    ensures |r| <= |s| && r == s[..|r|]
    ensures r != [] ==> !IsJsSpace(r[|r| - 1])
    ensures forall i :: |r| <= i < |s| ==> IsJsSpace(s[i])
    decreases |s|
  {
    if s != [] && IsJsSpace(s[|s| - 1]) then TrimEnd(s[..|s| - 1]) else s
  }

  /** `s.trim()` */
  function Trim(s: string): string
  {
    TrimEnd(TrimStart(s))
  }

  /** Digits are not white space: `trim` leaves a text that starts and ends with a digit alone. */
  lemma TrimOfDigits(s: string)
    requires s != [] && IsDigit(s[0]) && IsDigit(s[|s| - 1])
    ensures Trim(s) == s
  {
    TrimStartOfDigit(s);
    TrimEndOfDigit(s);
  }

  lemma TrimStartOfDigit(s: string)
    requires s != [] && IsDigit(s[0])
    ensures TrimStart(s) == s
  {
  }

  lemma TrimEndOfDigit(s: string)
    requires s != [] && IsDigit(s[|s| - 1])
    ensures TrimEnd(s) == s
  {
  }

  /** A text of digits only is its own trimmed form. */
  lemma TrimOfAllDigits(s: string)
    ensures AllDigits(s) ==> Trim(s) == s
  {
    if s != [] && AllDigits(s) {
      TrimOfDigits(s);
    }
  }

  // ---------------------------------------------------------------- numbers

  predicate IsDigit(c: char) { '0' <= c <= '9' }

  predicate AllDigits(s: string)
  {
    forall i :: 0 <= i < |s| ==> IsDigit(s[i])
  }

  function DigitChar(d: nat): (c: char)
    requires d < 10
    ensures IsDigit(c)
  {
    ('0' as int + d) as char
  }

  function DigitValue(c: char): nat
    requires IsDigit(c)
  {
    c as int - '0' as int
  }

  /** `String(n)` for a non-negative integer: its decimal digits. */
  function NatToString(n: nat): (r: string)
    ensures |r| >= 1
    ensures forall i :: 0 <= i < |r| ==> IsDigit(r[i])
    ensures |r| > 1 ==> r[0] != '0'
    decreases n
  {
    if n < 10 then [DigitChar(n)] else NatToString(n / 10) + [DigitChar(n % 10)]
  }

  /** `String(i)` for any integer. */
  function IntToString(i: int): string
  {
    if i < 0 then "-" + NatToString(-i) else NatToString(i)
  }

  /** The value of a string of decimal digits. */
  function DigitsValue(s: string): nat
    requires forall i :: 0 <= i < |s| ==> IsDigit(s[i])
  {
    if s == [] then 0 else DigitsValue(s[..|s| - 1]) * 10 + DigitValue(s[|s| - 1])
  }

  /** The longest prefix of decimal digits. */
  function DigitPrefix(s: string): (r: string)
    ensures r <= s
    ensures forall i :: 0 <= i < |r| ==> IsDigit(r[i])
    ensures |r| < |s| ==> !IsDigit(s[|r|])
    decreases |s|
  {
    if s != [] && IsDigit(s[0]) then [s[0]] + DigitPrefix(s[1..]) else []
  }

  /**
   * `parseInt(s, 10)`: leading white space, an optional sign and the longest
   * run of digits after it; `None` stands for NaN.
   */
  function ParseInt(s: string): Option<int>
  {
    var t := TrimStart(s);
    var negative := |t| > 0 && t[0] == '-';
    var u := if |t| > 0 && (t[0] == '-' || t[0] == '+') then t[1..] else t;
    var d := DigitPrefix(u);
    if d == [] then None
    else if negative then Some(-(DigitsValue(d) as int))
    else Some(DigitsValue(d))
  }

  /** Reading back the digits of `String(n)` gives `n`. */
  lemma {:induction false} DigitsOfNat(n: nat)
    ensures DigitsValue(NatToString(n)) == n
    decreases n
  {
    if n >= 10 {
      DigitsOfNat(n / 10);
      var s := NatToString(n);
      assert s[..|s| - 1] == NatToString(n / 10);
    }
  }

  lemma {:induction false} DigitPrefixOfDigits(d: string, rest: string)
    requires forall i :: 0 <= i < |d| ==> IsDigit(d[i])
    requires rest == [] || !IsDigit(rest[0])
    ensures DigitPrefix(d + rest) == d
    decreases |d|
  {
    if d != [] {
      assert (d + rest)[1..] == d[1..] + rest;
      DigitPrefixOfDigits(d[1..], rest);
    }
  }

  /**
   * `parseInt(String(n) + rest) == n` whenever `rest` does not continue the
   * number: the decimal rendering and `parseInt` are inverse.
   */
  lemma ParseIntOfNat(n: nat, rest: string)
    requires rest == [] || !IsDigit(rest[0])
    ensures ParseInt(NatToString(n) + rest) == Some(n)
  {
    var d := NatToString(n);
    var s := d + rest;
    assert s[0] == d[0] && IsDigit(s[0]);
    assert TrimStart(s) == s;
    assert !(s[0] == '-' || s[0] == '+');
    DigitPrefixOfDigits(d, rest);
    DigitsOfNat(n);
  }

  /** `String(n).padStart(width, c)` */
  function PadStart(s: string, width: nat, c: char): (r: string)
    ensures |r| == Max(width, |s|)
    ensures EndsWith(r, s)
    ensures forall i :: 0 <= i < |r| - |s| ==> r[i] == c
  {
    if |s| >= width then s else seq(width - |s|, _ => c) + s
  }

  /** `parseInt` of a non-empty run of digits is its decimal value. */
  lemma ParseIntOfDigits(s: string)
    requires |s| > 0 && AllDigits(s)
    ensures ParseInt(s) == Some(DigitsValue(s))
  {
    assert TrimStart(s) == s;
    assert !(s[0] == '-' || s[0] == '+');
    DigitPrefixOfDigits(s, []);
    assert s + [] == s;
  }

  /** Reading back a zero-padded `String(n)` gives `n`: leading zeros do not change `parseInt`. */
  lemma {:induction false} ParseIntOfPadded(n: nat, width: nat)
    ensures ParseInt(PadStart(NatToString(n), width, '0')) == Some(n)
  {
    var d := NatToString(n);
    var s := PadStart(d, width, '0');
    var z := s[..|s| - |d|];
    assert s == z + d;
    assert forall i :: 0 <= i < |z| ==> z[i] == '0';
    LeadingZeros(z, d);
    DigitsOfNat(n);
    ParseIntOfDigits(s);
  }

  lemma {:induction false} LeadingZeros(z: string, d: string)
    requires forall i :: 0 <= i < |z| ==> z[i] == '0'
    requires forall i :: 0 <= i < |d| ==> IsDigit(d[i])
    ensures forall i :: 0 <= i < |z + d| ==> IsDigit((z + d)[i])
    ensures DigitsValue(z + d) == DigitsValue(d)
    decreases |d|
  {
    assert forall i :: 0 <= i < |z + d| ==> IsDigit((z + d)[i]) by {
      forall i | 0 <= i < |z + d| ensures IsDigit((z + d)[i]) {
        if i < |z| { assert (z + d)[i] == z[i]; } else { assert (z + d)[i] == d[i - |z|]; }
      }
    }
    if d == [] {
      assert z + d == z;
      ZerosValue(z);
    } else {
      var d' := d[..|d| - 1];
      assert (z + d)[..|z + d| - 1] == z + d';
      LeadingZeros(z, d');
    }
  }

  lemma {:induction false} ZerosValue(z: string)
    requires forall i :: 0 <= i < |z| ==> z[i] == '0'
    ensures DigitsValue(z) == 0
    decreases |z|
  {
    if z != [] {
      ZerosValue(z[..|z| - 1]);
    }
  }

  // ---------------------------------------------------------------- clock text

  /** `String(n).padStart(2, '0')` */
  function Pad2(n: nat): string
  {
    PadStart(NatToString(n), 2, '0')
  }

  /** For `n < 100`, `Pad2` is exactly the two decimal digits of `n`. */
  lemma Pad2Digits(n: nat)
    requires n < 100
    ensures Pad2(n) == [DigitChar(n / 10), DigitChar(n % 10)]
  {
    if n >= 10 {
      assert NatToString(n / 10) == [DigitChar(n / 10)];
    }
  }

  /** Two digits read back as their value. */
  lemma TwoDigitsValue(n: nat)
    requires n < 100
    ensures DigitsValue([DigitChar(n / 10), DigitChar(n % 10)]) == n
  {
    var s := [DigitChar(n / 10), DigitChar(n % 10)];
    assert DigitValue(DigitChar(n / 10)) == n / 10;
    assert DigitValue(DigitChar(n % 10)) == n % 10;
    assert s[..1] == [DigitChar(n / 10)];
    assert s[..1][..0] == [];
    assert DigitsValue(s[..1]) == n / 10;
    assert DigitsValue(s) == (n / 10) * 10 + n % 10;
  }

  /** `Pad2(n)` for `n < 100`: two digits whose value is `n`. */
  lemma Pad2Value(n: nat)
    requires n < 100
    ensures |Pad2(n)| == 2 && AllDigits(Pad2(n))
    ensures DigitsValue(Pad2(n)) == n
  {
    Pad2Digits(n);
    TwoDigitsValue(n);
  }

  /**
   * A minute count rendered as a 24-hour wall-clock time `HH:MM`, wrapping at
   * midnight (the app's `toLocaleTimeString(..., {hour: '2-digit',
   * minute: '2-digit', hour12: false})`).
   */
  function ClockText(minutes: int): string
  {
    var m := minutes % 1440;
    Pad2(m / 60) + ":" + Pad2(m % 60)
  }

  /** Reads `HH:MM` back as a minute of the day. */
  function ParseClock(s: string): Option<nat>
  {
    if |s| == 5 && IsDigit(s[0]) && IsDigit(s[1]) && s[2] == ':' && IsDigit(s[3]) && IsDigit(s[4])
    then Some(DigitsValue(s[..2]) * 60 + DigitsValue(s[3..]))
    else None
  }

  /** `ClockText` and `ParseClock` are inverse: the rendered time is the minute of the day. */
  lemma ClockRoundTrip(minutes: int)
    ensures |ClockText(minutes)| == 5
    ensures ParseClock(ClockText(minutes)) == Some(minutes % 1440)
  {
    var m := minutes % 1440;
    var h := m / 60;
    var mm := m % 60;
    Pad2Value(h);
    Pad2Value(mm);
    ClockParts(Pad2(h), Pad2(mm));
  }

  lemma ClockParts(hh: string, mm: string)
    requires |hh| == 2 && |mm| == 2 && AllDigits(hh) && AllDigits(mm)
    ensures |hh + ":" + mm| == 5
    ensures ParseClock(hh + ":" + mm) == Some(DigitsValue(hh) * 60 + DigitsValue(mm))
  {
    var s := hh + ":" + mm;
    assert s[..2] == hh;
    assert s[3..] == mm;
    assert IsDigit(s[0]) && IsDigit(s[1]) && s[2] == ':' && IsDigit(s[3]) && IsDigit(s[4]);
  }

  /** JavaScript's `a % b`: the remainder takes the sign of the dividend. */
  function JsRem(a: int, b: int): (r: int)
    requires b != 0
    ensures (a - r) % Abs(b) == 0
    ensures Abs(r) < Abs(b)
    ensures a >= 0 ==> r >= 0
    ensures a < 0 ==> r <= 0
  {
    if a < 0 then
      RemainderLeavesMultiple(-a, Abs(b));
      NegatedMultiple(-a - (-a) % Abs(b), Abs(b));
      -((-a) % Abs(b))
    else
      RemainderLeavesMultiple(a, Abs(b));
      a % Abs(b)
  }

  /** Taking away the remainder leaves a multiple of the divisor. */
  lemma RemainderLeavesMultiple(a: int, m: int)
    requires m > 0
    ensures (a - a % m) % m == 0
  {
    var q := a / m;
    assert a - a % m == m * q;
    MultipleMod(q, m);
  }

  /** The negation of a multiple of `m` is a multiple of `m`. */
  lemma NegatedMultiple(x: int, m: int)
    requires m > 0 && x % m == 0
    ensures (-x) % m == 0
  {
    var q := x / m;
    assert x == m * q;
    assert -x == m * (-q);
    MultipleMod(-q, m);
  }

  /** A multiple of `m` leaves no remainder. */
  lemma MultipleMod(q: int, m: int)
    requires m > 0
    ensures (m * q) % m == 0
  {
    var x := m * q;
    var k := q - x / m;
    assert x == m * (x / m) + x % m;
    assert m * k == x % m;
    if k >= 1 {
      AtLeastOnce(m, k);
    } else if k <= -1 {
      assert m * -k == -(m * k);
      AtLeastOnce(m, -k);
    }
  }

  /** `m * k >= m` for a positive `k`, by induction on `k`. */
  lemma {:induction false} AtLeastOnce(m: int, k: int)
    requires m > 0 && k >= 1
    ensures m * k >= m
    decreases k
  {
    if k > 1 {
      AtLeastOnce(m, k - 1);
      assert m * k == m * (k - 1) + m;
    }
  }
}

=== FILE: service_worker.dfy ===
/**
 * The decisions of the service worker: which strategy serves a request,
 * which caches activation deletes, the cache-first and network-first
 * strategies over the cache storage, the offline fallback, and where a
 * notification click leads. The network is the fetch outcome handed in
 * (`None` when `fetch` rejects); URL parsing is left to the caller, which
 * passes the pathname along with the URL.
 */
module ServiceWorker {
  import opened JsBuiltins

  const CacheName: string := "mindicator-v1.0.0"
  const StaticCache: string := "mindicator-static-v1.0.0"
  const DynamicCache: string := "mindicator-dynamic-v1.0.0"
  const OfflinePage: string := "/offline.html"

  /** The files cached at install time, in the order they are listed. */
  const StaticAssets: seq<string> := [
    "/",
    "/index.html",
    "/css/styles.css",
    "/js/app.js",
    "/js/data.js",
    "/js/utils.js",
    "/js/components.js",
    "/manifest.json",
    "https://cdnjs.cloudflare.com/ajax/libs/font-awesome/6.4.0/css/all.min.css",
    "https://fonts.googleapis.com/css2?family=Poppins:wght@300;400;500;600;700&display=swap",
    "/offline.html"
  ]

  /** The parts of a `Request` the worker looks at; `pathname` is that of `new URL(url)`. */
  datatype Request = Request(httpMethod: string, url: string, pathname: string, mode: string)

  datatype Response = Response(status: int, contentType: string, body: string)

  /** `response.ok` */
  predicate Ok(r: Response)
  {
    200 <= r.status <= 299
  }

  // ---------------------------------------------------------------- strategy

  datatype Strategy = CacheFirst | NetworkFirst

  /** `/\.(png|jpg|jpeg|svg|gif|webp)$/i` on the whole URL. */
  predicate IsImageUrl(url: string)
  {
    var u := ToLower(url);
    EndsWith(u, ".png") || EndsWith(u, ".jpg") || EndsWith(u, ".jpeg")
    || EndsWith(u, ".svg") || EndsWith(u, ".gif") || EndsWith(u, ".webp")
  }

  predicate IsApiUrl(url: string)
  {
    Contains(url, "/api/")
  }

  predicate IsStaticAsset(req: Request)
  {
    req.url in StaticAssets || req.pathname in StaticAssets
  }

  /**
   * The fetch listener's choice: nothing for a non-GET request, then images,
   * then API calls, then the static assets, then everything else.
   */
  function Classify(req: Request): (s: Option<Strategy>)
    ensures s.None? <==> req.httpMethod != "GET"
    ensures s == Some(CacheFirst) <==>
              req.httpMethod == "GET" && (IsImageUrl(req.url) || (!IsApiUrl(req.url) && IsStaticAsset(req)))
    ensures s == Some(NetworkFirst) <==>
              req.httpMethod == "GET" && !IsImageUrl(req.url) && (IsApiUrl(req.url) || !IsStaticAsset(req))
  {
    if req.httpMethod != "GET" then None
    else if IsImageUrl(req.url) then Some(CacheFirst)
    else if IsApiUrl(req.url) then Some(NetworkFirst)
    else if IsStaticAsset(req) then Some(CacheFirst)
    else Some(NetworkFirst)
  }

  /** Where the order matters: an image under `/api/` is still served cache-first, any other API call network-first. */
  lemma ImagesBeforeApi(req: Request)
    requires req.httpMethod == "GET" && IsApiUrl(req.url)
    ensures Classify(req) == (if IsImageUrl(req.url) then Some(CacheFirst) else Some(NetworkFirst))
  {
  }

  // ---------------------------------------------------------------- cache storage

  /** One cache of `CacheStorage`: its name and its entries by request URL. */
  datatype NamedCache = NamedCache(name: string, entries: map<string, Response>)

  function Names(cs: seq<NamedCache>): (ns: seq<string>)
    ensures |ns| == |cs| && forall i | 0 <= i < |cs| :: ns[i] == cs[i].name
  {
    if cs == [] then [] else [cs[0].name] + Names(cs[1..])
  }

  /** Every cache's name is among the names. */
  lemma {:induction false} NamesCover(cs: seq<NamedCache>)
    ensures forall c | c in cs :: c.name in Names(cs)
  {
    if cs != [] {
      NamesCover(cs[1..]);
      assert forall c | c in cs :: c == cs[0] || c in cs[1..];
    }
  }

  /** `caches.open` finds a cache by name, so no two caches share one. */
  predicate UniqueNames(cs: seq<NamedCache>)
  {
    forall i, j | 0 <= i < j < |cs| :: cs[i].name != cs[j].name
  }

  /** The first cache (in creation order) holding `url`, or -1. */
  function FirstHolding(cs: seq<NamedCache>, url: string): (k: int)
    ensures -1 <= k < |cs|
    ensures k >= 0 ==> url in cs[k].entries && forall j | 0 <= j < k :: url !in cs[j].entries
    ensures k == -1 <==> forall j | 0 <= j < |cs| :: url !in cs[j].entries
  {
    if cs == [] then -1
    else if url in cs[0].entries then 0
    else
      var k := FirstHolding(cs[1..], url);
      if k == -1 then -1 else k + 1
  }

  /** `caches.match(url)`: the entry of the first cache that holds the URL. */
  function MatchIn(cs: seq<NamedCache>, url: string): (r: Option<Response>)
    ensures r.None? <==> forall j | 0 <= j < |cs| :: url !in cs[j].entries
    ensures r.Some? ==> exists j | 0 <= j < |cs| :: url in cs[j].entries && cs[j].entries[url] == r.value
  {
    var k := FirstHolding(cs, url);
    if k == -1 then None else Some(cs[k].entries[url])
  }

  /**
   * `(await caches.open(name)).put(url, resp)`: the entry goes into the
   * first cache of that name, or into a new cache at the end.
   */
  function PutIn(cs: seq<NamedCache>, name: string, url: string, resp: Response): (r: seq<NamedCache>)
    ensures name !in Names(cs) ==> r == cs + [NamedCache(name, map[url := resp])]
    ensures name in Names(cs) ==> |r| == |cs|
    ensures forall i | 0 <= i < |cs| ::
              r[i].name == cs[i].name
              && (r[i].entries == cs[i].entries || (cs[i].name == name && r[i].entries == cs[i].entries[url := resp]))
  {
    if cs == [] then [NamedCache(name, map[url := resp])]
    else if cs[0].name == name then [cs[0].(entries := cs[0].entries[url := resp])] + cs[1..]
    else [cs[0]] + PutIn(cs[1..], name, url, resp)
  }

  /** After a put the URL is found; a URL found nowhere before is found with the new response; other URLs are untouched. */
  lemma PutThenMatch(cs: seq<NamedCache>, name: string, url: string, resp: Response)
    ensures MatchIn(PutIn(cs, name, url, resp), url).Some?
    ensures MatchIn(cs, url).None? ==> MatchIn(PutIn(cs, name, url, resp), url) == Some(resp)
    ensures forall u | u != url :: MatchIn(PutIn(cs, name, url, resp), u) == MatchIn(cs, u)
  {
    PutMatchAt(cs, name, url, resp, url);
    forall u | u != url
      ensures MatchIn(PutIn(cs, name, url, resp), u) == MatchIn(cs, u)
    {
      PutMatchAt(cs, name, url, resp, u);
    }
  }

  /** `PutThenMatch` for one URL `u`. */
  lemma {:induction false} PutMatchAt(cs: seq<NamedCache>, name: string, url: string, resp: Response, u: string)
    ensures u == url ==> MatchIn(PutIn(cs, name, url, resp), u).Some?
    ensures u == url && MatchIn(cs, u).None? ==> MatchIn(PutIn(cs, name, url, resp), u) == Some(resp)
    ensures u != url ==> MatchIn(PutIn(cs, name, url, resp), u) == MatchIn(cs, u)
  {
    var r := PutIn(cs, name, url, resp);
    if cs != [] {
      MatchCons(r, u);
      MatchCons(cs, u);
      if cs[0].name == name {
        assert r[0].entries == cs[0].entries[url := resp];
        assert r[1..] == cs[1..];
      } else {
        PutMatchAt(cs[1..], name, url, resp, u);
        assert r[0] == cs[0] && r[1..] == PutIn(cs[1..], name, url, resp);
      }
    }
  }

  /** `caches.match` looks at the first cache, then at the rest. */
  lemma MatchCons(cs: seq<NamedCache>, u: string)
    requires cs != []
    ensures MatchIn(cs, u) == (if u in cs[0].entries then Some(cs[0].entries[u]) else MatchIn(cs[1..], u))
  {
    var k := FirstHolding(cs[1..], u);
    if u !in cs[0].entries && k != -1 {
      assert FirstHolding(cs, u) == k + 1;
    }
  }

  /** A put never gives two caches the same name. */
  lemma {:induction false} PutKeepsUnique(cs: seq<NamedCache>, name: string, url: string, resp: Response)
    requires UniqueNames(cs)
    ensures UniqueNames(PutIn(cs, name, url, resp))
  {
    var r := PutIn(cs, name, url, resp);
    if name !in Names(cs) {
      forall i, j | 0 <= i < j < |r|
        ensures r[i].name != r[j].name
      {
        if j == |cs| {
          assert Names(cs)[i] == cs[i].name;
        }
      }
    }
  }

  /** The caches without the one named `name` (`caches.delete(name)`). */
  function Without(cs: seq<NamedCache>, name: string): (r: seq<NamedCache>)
    ensures forall c :: c in r <==> c in cs && c.name != name
    ensures |r| <= |cs|
  {
    if cs == [] then []
    else (if cs[0].name == name then [] else [cs[0]]) + Without(cs[1..], name)
  }

  /** The `activate` filter: a cache of this app that is neither the static nor the dynamic one. */
  predicate IsOldCache(name: string)
  {
    StartsWith(name, "mindicator-") && name != StaticCache && name != DynamicCache
  }

  /**
   * The caches that survive activation, in order: every cache of another
   * app, and the current static and dynamic caches.
   */
  function Kept(cs: seq<NamedCache>): (r: seq<NamedCache>)
    ensures forall c :: c in r <==> c in cs && !IsOldCache(c.name)
    ensures |r| <= |cs|
  {
    if cs == [] then []
    else (if IsOldCache(cs[0].name) then [] else [cs[0]]) + Kept(cs[1..])
  }

  /** A second activation deletes nothing. */
  lemma KeptIdempotent(cs: seq<NamedCache>)
    ensures Kept(Kept(cs)) == Kept(cs)
  {
    KeptNothingOld(Kept(cs));
  }

  /** Without old caches, activation deletes nothing. */
  lemma {:induction false} KeptNothingOld(cs: seq<NamedCache>)
    requires forall c | c in cs :: !IsOldCache(c.name)
    ensures Kept(cs) == cs
  {
    if cs != [] {
      assert cs[0] in cs;
      assert forall c | c in cs[1..] :: c in cs;
      KeptNothingOld(cs[1..]);
    }
  }

  /** The caches left once the names in `scanned` have been examined. */
  function KeptAmong(cs: seq<NamedCache>, scanned: seq<string>): seq<NamedCache>
  {
    if cs == [] then []
    else (if IsOldCache(cs[0].name) && cs[0].name in scanned then [] else [cs[0]]) + KeptAmong(cs[1..], scanned)
  }

  /** Examining one more name deletes that cache if it is old. */
  lemma {:induction false} ScanStep(cs: seq<NamedCache>, scanned: seq<string>, n: string)
    ensures KeptAmong(cs, scanned + [n]) ==
            if IsOldCache(n) then Without(KeptAmong(cs, scanned), n) else KeptAmong(cs, scanned)
  {
    if cs != [] {
      ScanStep(cs[1..], scanned, n);
      var c := cs[0];
      assert (c.name in scanned + [n]) == (c.name in scanned || c.name == n);
      var rest := KeptAmong(cs[1..], scanned);
      var head := if IsOldCache(c.name) && c.name in scanned then [] else [c];
      assert KeptAmong(cs, scanned) == head + rest;
      if IsOldCache(n) {
        WithoutAppend(head, rest, n);
      }
    }
  }

  /** `ScanStep` for the next name of a list of names. */
  lemma ScanNext(cs: seq<NamedCache>, names: seq<string>, i: nat)
    requires i < |names|
    ensures KeptAmong(cs, names[..i + 1]) ==
            if IsOldCache(names[i]) then Without(KeptAmong(cs, names[..i]), names[i]) else KeptAmong(cs, names[..i])
  {
    assert names[..i + 1] == names[..i] + [names[i]];
    ScanStep(cs, names[..i], names[i]);
  }

  lemma WithoutAppend(a: seq<NamedCache>, b: seq<NamedCache>, n: string)
    requires |a| <= 1
    ensures Without(a + b, n) == Without(a, n) + Without(b, n)
  {
    if a != [] {
      var head := if a[0].name == n then [] else [a[0]];
      assert (a + b)[0] == a[0] && (a + b)[1..] == b;
      assert Without(a + b, n) == head + Without(b, n);
      assert a[1..] == [];
      assert Without(a, n) == head by {
        assert Without(a, n) == head + Without([], n);
        assert head + [] == head;
      }
    } else {
      assert a + b == b;
    }
  }

  /** Once every cache's name has been examined, exactly the old caches are gone. */
  lemma {:induction false} ScanAll(cs: seq<NamedCache>, scanned: seq<string>)
    requires forall c | c in cs :: c.name in scanned
    ensures KeptAmong(cs, scanned) == Kept(cs)
  {
    if cs != [] {
      assert cs[0] in cs;
      ScanAll(cs[1..], scanned);
    }
  }

  /** A scan over all the names of the storage leaves exactly the kept caches. */
  lemma ScanDone(cs: seq<NamedCache>, names: seq<string>)
    requires names == Names(cs)
    ensures KeptAmong(cs, names[..|names|]) == Kept(cs)
  {
    assert names[..|names|] == names;
    NamesCover(cs);
    ScanAll(cs, names);
  }

  lemma NothingScanned(cs: seq<NamedCache>)
    ensures KeptAmong(cs, []) == cs
  {
  }

  /** `self.caches`: the named caches in creation order. */
  class CacheStorage {
    var caches: seq<NamedCache>

    constructor(caches: seq<NamedCache>)
      ensures this.caches == caches
    {
      this.caches := caches;
    }

    function Match(url: string): Option<Response>
      reads this
    {
      MatchIn(caches, url)
    }

    /** `caches.keys()` */
    function Keys(): seq<string>
      reads this
    {
      Names(caches)
    }

    method Put(name: string, url: string, resp: Response)
      modifies this
      ensures caches == PutIn(old(caches), name, url, resp)
    {
      caches := PutIn(caches, name, url, resp);
    }

    method Delete(name: string) returns (found: bool)
      modifies this
      ensures found <==> name in old(Keys())
      ensures caches == Without(old(caches), name)
    {
      found := name in Keys();
      caches := Without(caches, name);
    }
  }

  /**
   * The deletion the `activate` listener runs, and the one
   * `cleanupOldCaches` means to run: every cache whose name is old, one name
   * of `caches.keys()` after the other.
   */
  method DeleteOldCaches(storage: CacheStorage)
    modifies storage
    ensures storage.caches == Kept(old(storage.caches))
  {
    var names := storage.Keys();
    ghost var start := storage.caches;
    NothingScanned(start);
    var i := 0;
    while i < |names|
      invariant 0 <= i <= |names|
      invariant storage.caches == KeptAmong(start, names[..i])
    {
      ScanNext(start, names, i);
      DeleteIfOld(storage, names[i]);
      i := i + 1;
    }
    ScanDone(start, names);
  }

  /** One name of the scan: `caches.delete` for an old cache, nothing otherwise. */
  method DeleteIfOld(storage: CacheStorage, name: string)
    modifies storage
    ensures storage.caches == if IsOldCache(name) then Without(old(storage.caches), name) else old(storage.caches)
  {
    if IsOldCache(name) {
      var _ := storage.Delete(name);
    }
  }


  /**
   * `cleanupOldCaches` as written: `const caches = await caches.keys()`
   * reads the local `caches` inside its own initialiser, so the call throws
   * before any cache is touched.
   */
  function CleanupOldCachesAsWritten(cs: seq<NamedCache>): (r: Result<seq<NamedCache>, JsError>)
  {
    Failure(ReferenceError("Cannot access 'caches' before initialization"))
  }

  /** As written the cleanup never deletes anything, even when there are old caches to delete. */
  lemma CleanupDefect(cs: seq<NamedCache>)
    requires exists c | c in cs :: IsOldCache(c.name)
    ensures CleanupOldCachesAsWritten(cs).Failure?
    ensures Kept(cs) != cs
  {
    var c :| c in cs && IsOldCache(c.name);
    assert c !in Kept(cs);
  }

  // ---------------------------------------------------------------- strategies

  const ApiOfflineBody: string :=
    "{\"error\":\"Offline\",\"message\":\"You are currently offline. Some features may not be available.\"}"
  const TextOfflineBody: string := "Offline - This content is not available while offline."

  /**
   * `getOfflineFallback`: the cached offline page for a navigation, else a
   * 503 in JSON for an API call, else a 503 in plain text.
   */
  function OfflineFallback(cs: seq<NamedCache>, req: Request): (r: Response)
    ensures req.mode == "navigate" && MatchIn(cs, OfflinePage).Some? ==> Some(r) == MatchIn(cs, OfflinePage)
    ensures !(req.mode == "navigate" && MatchIn(cs, OfflinePage).Some?) ==>
              && r.status == 503
              && (r.contentType == "application/json" <==> IsApiUrl(req.url))
              && (r.contentType == "application/json" ==> r.body == ApiOfflineBody)
              && (r.contentType != "application/json" ==> r.contentType == "text/plain" && r.body == TextOfflineBody)
  {
    if req.mode == "navigate" && MatchIn(cs, OfflinePage).Some? then MatchIn(cs, OfflinePage).value
    else if IsApiUrl(req.url) then Response(503, "application/json", ApiOfflineBody)
    else Response(503, "text/plain", TextOfflineBody)
  }

  /**
   * `cacheFirst` over the caches `before`, with `fetched` the network's answer
   * (`None` when the fetch fails): a cached response without touching the
   * network; on a miss the fetched response, stored in the dynamic cache
   * whatever its status; the fallback when the fetch fails. `after` is the
   * caches once it is done.
   */
  predicate CacheFirstServes(before: seq<NamedCache>, req: Request, fetched: Option<Response>,
                             resp: Response, after: seq<NamedCache>)
  {
    match MatchIn(before, req.url)
    case Some(cached) => resp == cached && after == before
    case None =>
      match fetched
      case Some(r) => resp == r && after == PutIn(before, DynamicCache, req.url, r)
      case None => resp == OfflineFallback(before, req) && after == before
  }

  /**
   * `networkFirst` over the caches `before`: the fetched response, stored in
   * the dynamic cache only when ok; when the fetch fails, the cached response
   * or else the fallback, with the caches untouched.
   */
  predicate NetworkFirstServes(before: seq<NamedCache>, req: Request, fetched: Option<Response>,
                               resp: Response, after: seq<NamedCache>)
  {
    match fetched
    case Some(r) => resp == r && after == (if Ok(r) then PutIn(before, DynamicCache, req.url, r) else before)
    case None =>
      && after == before
      && resp == (match MatchIn(before, req.url)
                  case Some(cached) => cached
                  case None => OfflineFallback(before, req))
  }

  /** `cacheFirst` on the cache storage. */
  method CacheFirstFetch(storage: CacheStorage, req: Request, fetched: Option<Response>) returns (resp: Response)
    modifies storage
    ensures CacheFirstServes(old(storage.caches), req, fetched, resp, storage.caches)
  {
    var cached := storage.Match(req.url);
    if cached.Some? {
      return cached.value;
    }
    if fetched.None? {
      return OfflineFallback(storage.caches, req);
    }
    storage.Put(DynamicCache, req.url, fetched.value);
    resp := fetched.value;
  }

  /** `networkFirst` on the cache storage. */
  method NetworkFirstFetch(storage: CacheStorage, req: Request, fetched: Option<Response>) returns (resp: Response)
    modifies storage
    ensures NetworkFirstServes(old(storage.caches), req, fetched, resp, storage.caches)
  {
    if fetched.Some? {
      if Ok(fetched.value) {
        storage.Put(DynamicCache, req.url, fetched.value);
      }
      return fetched.value;
    }
    var cached := storage.Match(req.url);
    if cached.Some? {
      return cached.value;
    }
    resp := OfflineFallback(storage.caches, req);
  }

  /**
   * The fetch listener: `None` leaves the request to the browser; otherwise
   * the response of the strategy `Classify` picks, with that strategy's
   * effect on the caches.
   */
  method HandleFetch(storage: CacheStorage, req: Request, fetched: Option<Response>) returns (resp: Option<Response>)
    modifies storage
    ensures resp.None? <==> req.httpMethod != "GET"
    ensures resp.None? ==> storage.caches == old(storage.caches)
    ensures Classify(req) == Some(CacheFirst) ==>
              resp.Some? && CacheFirstServes(old(storage.caches), req, fetched, resp.value, storage.caches)
    ensures Classify(req) == Some(NetworkFirst) ==>
              resp.Some? && NetworkFirstServes(old(storage.caches), req, fetched, resp.value, storage.caches)
  {
    match Classify(req)
    case None =>
      return None;
    case Some(CacheFirst) =>
      var r := CacheFirstFetch(storage, req, fetched);
      return Some(r);
    case Some(NetworkFirst) =>
      var r := NetworkFirstFetch(storage, req, fetched);
      return Some(r);
  }

  /** A page once fetched cache-first is served from the cache from then on, whatever the network does. */
  lemma CachedAfterMiss(cs: seq<NamedCache>, req: Request, fetched: Response, resp: Response, after: seq<NamedCache>,
                        later: Option<Response>, resp2: Response, after2: seq<NamedCache>)
    requires MatchIn(cs, req.url).None?
    requires CacheFirstServes(cs, req, Some(fetched), resp, after)
    requires CacheFirstServes(after, req, later, resp2, after2)
    ensures resp2 == fetched && after2 == after
  {
    PutThenMatch(cs, DynamicCache, req.url, fetched);
  }

  /**
   * Offline, a network-first request that once succeeded with an ok response
   * is served from the cache, not the fallback: with that response when no
   * cache held the URL before.
   */
  lemma NetworkFirstRemembers(cs: seq<NamedCache>, req: Request, earlier: Response, resp1: Response,
                              after1: seq<NamedCache>, resp2: Response, after2: seq<NamedCache>)
    requires Ok(earlier)
    requires NetworkFirstServes(cs, req, Some(earlier), resp1, after1)
    requires NetworkFirstServes(after1, req, None, resp2, after2)
    ensures after2 == after1 && MatchIn(after1, req.url) == Some(resp2)
    ensures MatchIn(cs, req.url).None? ==> resp2 == earlier
  {
    PutThenMatch(cs, DynamicCache, req.url, earlier);
  }

  // ---------------------------------------------------------------- notifications

  /** The actions the push notification offers. */
  const PushActions: seq<string> := ["explore", "close"]

  /**
   * `notificationclick`: the notification closes, then `explore` opens the
   * live tab, `close` opens nothing and anything else (a click on the body
   * has the empty action) opens the app.
   */
  function NotificationTarget(action: string): (url: Option<string>)
    ensures url.None? <==> action == "close"
    ensures url == Some("/?tab=live") <==> action == "explore"
    ensures url.Some? && action != "explore" ==> url == Some("/")
  {
    if action == "explore" then Some("/?tab=live")
    else if action == "close" then None
    else Some("/")
  }

  /** Each offered action has its own outcome, different from a click on the body. */
  lemma PushActionsDistinct()
    ensures forall a | a in PushActions :: NotificationTarget(a) != NotificationTarget("")
    ensures NotificationTarget(PushActions[0]) != NotificationTarget(PushActions[1])
  {
  }
}

=== FILE: storage.dfy ===
/**
 * `StorageManager` of `js/data.js`: favourite routes, recent searches and
 * preferences kept in `localStorage` as JSON. The store is a map from key to
 * the value its JSON text parses to; the list operations are pure functions
 * on the parsed list, and the methods read, transform and write back.
 */
module Storage {
  import opened JsBuiltins

  const FavoritesKey: string := "mindicator_favorites"
  const PreferencesKey: string := "mindicator_preferences"
  const RecentSearchesKey: string := "mindicator_recent_searches"

  const MaxFavorites: nat := 10
  const MaxRecentSearches: nat := 5

  /** A favourite route or a recent search: `{from, to, timestamp}`. */
  datatype SavedRoute = SavedRoute(from: string, to: string, timestamp: int)

  datatype Preferences = Preferences(theme: string, notifications: bool, defaultLine: string, language: string)

  const DefaultPreferences: Preferences := Preferences("light", true, "western", "en")

  /**
   * What the JSON text under a key parses to: `Unparsable` for text that
   * `JSON.parse` rejects, `EmptyText` for the empty string, `NullJson` for
   * `null` and `FalsyJson` for the other falsy values (`0`, `false`, `""`).
   */
  datatype Record =
    | Unparsable
    | EmptyText
    | NullJson
    | FalsyJson
    | Routes(routes: seq<SavedRoute>)
    | Prefs(prefs: Preferences)
    | Expiring(value: string, expiry: int)

  /** `window.localStorage`. */
  class LocalStorage {
    var items: map<string, Record>

    constructor()
      ensures items == map[]
    {
      items := map[];
    }

    /** `localStorage.setItem(key, JSON.stringify(...))` */
    method SetItem(key: string, record: Record)
      modifies this
      ensures items == old(items)[key := record]
    {
      items := items[key := record];
    }

    /** `localStorage.removeItem(key)` */
    method RemoveItem(key: string)
      modifies this
      ensures items == old(items) - {key}
    {
      items := items - {key};
    }
  }

  /** `JSON.parse(localStorage.getItem(key)) || []`, and `[]` when parsing throws. */
  function RoutesAt(items: map<string, Record>, key: string): (r: seq<SavedRoute>)
    ensures key in items && items[key].Routes? ==> r == items[key].routes
    ensures key !in items || !items[key].Routes? ==> r == []
  {
    if key in items && items[key].Routes? then items[key].routes else []
  }

  /** `getPreferences`: the stored preferences, or the defaults when none can be read. */
  function PreferencesIn(items: map<string, Record>): Preferences
  {
    if PreferencesKey in items && items[PreferencesKey].Prefs? then items[PreferencesKey].prefs
    else DefaultPreferences
  }

  // ---------------------------------------------------------------- pairs

  predicate SamePair(r: SavedRoute, from: string, to: string)
  {
    r.from == from && r.to == to
  }

  /** `list.findIndex(r => r.from === from && r.to === to)` */
  function FindPair(list: seq<SavedRoute>, from: string, to: string): (k: int)
    ensures -1 <= k < |list|
    ensures k >= 0 ==> SamePair(list[k], from, to) && forall j :: 0 <= j < k ==> !SamePair(list[j], from, to)
    ensures k == -1 <==> forall j :: 0 <= j < |list| ==> !SamePair(list[j], from, to)
    decreases |list|
  {
    if list == [] then -1
    else if SamePair(list[0], from, to) then 0
    else
      var k := FindPair(list[1..], from, to);
      if k == -1 then -1 else k + 1
  }

  /** No two entries share their (from, to) pair. */
  predicate UniquePairs(list: seq<SavedRoute>)
  {
    forall i, j :: 0 <= i < j < |list| ==> !SamePair(list[j], list[i].from, list[i].to)
  }

  /** What the favourites list always satisfies: at most 10 entries, pairs unique. */
  predicate ValidFavorites(list: seq<SavedRoute>)
  {
    |list| <= MaxFavorites && UniquePairs(list)
  }

  /** What the recent-search list always satisfies: at most 5 entries, pairs unique. */
  predicate ValidRecent(list: seq<SavedRoute>)
  {
    |list| <= MaxRecentSearches && UniquePairs(list)
  }

  /** Every subsequence obtained by deleting an element or truncating keeps pairs unique. */
  lemma UniquePairsPrefix(list: seq<SavedRoute>, n: nat)
    requires UniquePairs(list) && n <= |list|
    ensures UniquePairs(list[..n])
  {
    assert forall i :: 0 <= i < n ==> list[..n][i] == list[i];
  }

  lemma UniquePairsDelete(list: seq<SavedRoute>, k: nat)
    requires UniquePairs(list) && k < |list|
    ensures UniquePairs(list[..k] + list[k + 1..])
  {
    var r := list[..k] + list[k + 1..];
    forall i, j | 0 <= i < j < |r| ensures !SamePair(r[j], r[i].from, r[i].to) {
      var i' := if i < k then i else i + 1;
      var j' := if j < k then j else j + 1;
      assert r[i] == list[i'] && r[j] == list[j'];
    }
  }

  // ---------------------------------------------------------------- favourites

  /**
   * The favourites after `addFavorite(fav)`: unchanged when the pair is
   * already saved; otherwise `fav` in front of the old list, cut to 10.
   */
  function AddedFavorites(list: seq<SavedRoute>, fav: SavedRoute): (r: seq<SavedRoute>)
    ensures FindPair(list, fav.from, fav.to) != -1 ==> r == list
    ensures FindPair(list, fav.from, fav.to) == -1 ==>
              && |r| == Min(MaxFavorites, |list| + 1)
              && r[0] == fav
              && r[1..] == list[..|r| - 1]
  {
    if FindPair(list, fav.from, fav.to) != -1 then list
    else
      var all := [fav] + list;
      all[..Min(MaxFavorites, |all|)]
  }

  /**
   * Adding a favourite keeps the list valid and always leaves the pair saved;
   * a new pair lands at the front.
   */
  lemma AddedFavoritesValid(list: seq<SavedRoute>, fav: SavedRoute)
    requires ValidFavorites(list)
    ensures ValidFavorites(AddedFavorites(list, fav))
    ensures FindPair(AddedFavorites(list, fav), fav.from, fav.to) != -1
  {
    var r := AddedFavorites(list, fav);
    if FindPair(list, fav.from, fav.to) == -1 {
      var all := [fav] + list;
      forall i, j | 0 <= i < j < |all| ensures !SamePair(all[j], all[i].from, all[i].to) {
        if i == 0 { assert all[j] == list[j - 1]; } else { assert all[i] == list[i - 1] && all[j] == list[j - 1]; }
      }
      UniquePairsPrefix(all, |r|);
      assert SamePair(r[0], fav.from, fav.to);
    }
  }

  /** The position `splice(index, 1)` starts at, for a list of `len` entries. */
  function SpliceStart(index: int, len: nat): (k: nat)
    ensures k <= len
    ensures 0 <= index < len ==> k == index
    ensures index < 0 && index + len >= 0 ==> k == len + index
    ensures index + len < 0 ==> k == 0
    ensures index >= len ==> k == len
  {
    if index < 0 then Max(len + index, 0) else Min(index, len)
  }

  /**
   * The list after `list.splice(index, 1)`: the entry at the start position
   * removed; an index at or past the end removes nothing, one before the
   * start removes the first entry.
   */
  function Spliced(list: seq<SavedRoute>, index: int): (r: seq<SavedRoute>)
    ensures index < |list| && list != [] ==>
              var k := SpliceStart(index, |list|);
              |r| == |list| - 1 && r == list[..k] + list[k + 1..]
    ensures index >= |list| || list == [] ==> r == list
  {
    var k := SpliceStart(index, |list|);
    if k < |list| then list[..k] + list[k + 1..] else list
  }

  /** Removing a favourite keeps the list valid and removes exactly one entry when the index is in range. */
  lemma SplicedValid(list: seq<SavedRoute>, index: int)
    requires ValidFavorites(list)
    ensures ValidFavorites(Spliced(list, index))
    ensures multiset(Spliced(list, index)) <= multiset(list)
    ensures 0 <= index < |list| ==> multiset(Spliced(list, index)) + multiset{list[index]} == multiset(list)
  {
    var k := SpliceStart(index, |list|);
    if k < |list| {
      UniquePairsDelete(list, k);
      assert list == list[..k] + [list[k]] + list[k + 1..];
    }
  }

  /** `StorageManager.getFavorites` */
  function GetFavorites(store: LocalStorage): seq<SavedRoute>
    reads store
  {
    RoutesAt(store.items, FavoritesKey)
  }

  /**
   * `StorageManager.addFavorite`: writes the list back only when the pair
   * was not saved yet, and then keeps the first 10.
   */
  method AddFavorite(store: LocalStorage, fav: SavedRoute)
    modifies store
    ensures GetFavorites(store) == AddedFavorites(old(GetFavorites(store)), fav)
    ensures FindPair(old(GetFavorites(store)), fav.from, fav.to) != -1 ==> store.items == old(store.items)
    ensures FindPair(old(GetFavorites(store)), fav.from, fav.to) == -1 ==>
              store.items == old(store.items)[FavoritesKey := Routes(AddedFavorites(old(GetFavorites(store)), fav))]
  {
    var favorites := GetFavorites(store);
    var saved := FindPair(favorites, fav.from, fav.to) != -1;
    if !saved {
      var all := [fav] + favorites;
      store.SetItem(FavoritesKey, Routes(all[..Min(MaxFavorites, |all|)]));
    }
  }

  /** `StorageManager.removeFavorite`: splices and always writes the list back. */
  method RemoveFavorite(store: LocalStorage, index: int)
    modifies store
    ensures store.items == old(store.items)[FavoritesKey := Routes(Spliced(old(GetFavorites(store)), index))]
  {
    var favorites := GetFavorites(store);
    store.SetItem(FavoritesKey, Routes(Spliced(favorites, index)));
  }

  // ---------------------------------------------------------------- recent searches

  /** The list with the first entry for the pair spliced out, if there is one. */
  function WithoutPair(list: seq<SavedRoute>, from: string, to: string): (rest: seq<SavedRoute>)
    ensures var k := FindPair(list, from, to);
            && (k == -1 ==> rest == list)
            && (k != -1 ==> |rest| == |list| - 1 && rest[..k] == list[..k] && rest[k..] == list[k + 1..])
  {
    var k := FindPair(list, from, to);
    if k == -1 then list else list[..k] + list[k + 1..]
  }

  /**
   * The recent searches after `addRecentSearch({from, to})` at time `now`:
   * the old entry for the pair, if any, is dropped, the new one goes in
   * front, and the list is cut to 5.
   */
  function AddedRecent(list: seq<SavedRoute>, from: string, to: string, now: int): (r: seq<SavedRoute>)
    ensures 1 <= |r| <= MaxRecentSearches
    ensures r[0] == SavedRoute(from, to, now)
    ensures var rest := WithoutPair(list, from, to);
            |r| == Min(MaxRecentSearches, |rest| + 1) && r[1..] == rest[..|r| - 1]
  {
    var all := [SavedRoute(from, to, now)] + WithoutPair(list, from, to);
    all[..Min(MaxRecentSearches, |all|)]
  }

  /**
   * Recording a search keeps the list valid, and the searched pair then
   * occurs exactly once, at the front, provided the old list had unique pairs.
   */
  lemma AddedRecentValid(list: seq<SavedRoute>, from: string, to: string, now: int)
    requires UniquePairs(list)
    ensures ValidRecent(AddedRecent(list, from, to, now))
    ensures var r := AddedRecent(list, from, to, now);
            forall i :: 1 <= i < |r| ==> !SamePair(r[i], from, to)
  {
    var rest := WithoutPair(list, from, to);
    PairRemoved(list, from, to);
    var x := SavedRoute(from, to, now);
    FrontPrefixValid(x, rest, Min(MaxRecentSearches, |rest| + 1));
    assert AddedRecent(list, from, to, now) == ([x] + rest)[..Min(MaxRecentSearches, |rest| + 1)];
  }

  /** A prefix of `x` in front of a list of unique pairs without `x`'s pair has unique pairs, `x`'s only in front. */
  lemma FrontPrefixValid(x: SavedRoute, rest: seq<SavedRoute>, n: nat)
    requires UniquePairs(rest) && forall j :: 0 <= j < |rest| ==> !SamePair(rest[j], x.from, x.to)
    requires 1 <= n <= |rest| + 1
    ensures var r := ([x] + rest)[..n];
            UniquePairs(r) && forall i :: 1 <= i < |r| ==> !SamePair(r[i], x.from, x.to)
  {
    var all := [x] + rest;
    UniquePairsCons(x, rest);
    UniquePairsPrefix(all, n);
    var r := all[..n];
    forall i | 1 <= i < |r| ensures !SamePair(r[i], x.from, x.to) {
      assert r[i] == rest[i - 1];
    }
  }

  /** With its (first) occurrence of a pair removed, a list of unique pairs holds that pair no more. */
  lemma PairRemoved(list: seq<SavedRoute>, from: string, to: string)
    requires UniquePairs(list)
    ensures var rest := WithoutPair(list, from, to);
            UniquePairs(rest) && forall j :: 0 <= j < |rest| ==> !SamePair(rest[j], from, to)
  {
    var k := FindPair(list, from, to);
    if k != -1 {
      var rest := list[..k] + list[k + 1..];
      UniquePairsDelete(list, k);
      forall j | 0 <= j < |rest| ensures !SamePair(rest[j], from, to) {
        if j < k {
          assert rest[j] == list[j];
        } else {
          assert rest[j] == list[j + 1];
          assert !SamePair(list[j + 1], list[k].from, list[k].to);
        }
      }
    }
  }

  /** An entry whose pair the list lacks can go in front. */
  lemma UniquePairsCons(x: SavedRoute, rest: seq<SavedRoute>)
    requires UniquePairs(rest) && forall j :: 0 <= j < |rest| ==> !SamePair(rest[j], x.from, x.to)
    ensures UniquePairs([x] + rest)
  {
    var all := [x] + rest;
    forall i, j | 0 <= i < j < |all| ensures !SamePair(all[j], all[i].from, all[i].to) {
      assert all[j] == rest[j - 1];
      if i > 0 { assert all[i] == rest[i - 1]; }
    }
  }

  /** `StorageManager.getRecentSearches` */
  function GetRecentSearches(store: LocalStorage): seq<SavedRoute>
    reads store
  {
    RoutesAt(store.items, RecentSearchesKey)
  }

  /** `StorageManager.addRecentSearch`, stamping the entry with the clock reading `now`. */
  method AddRecentSearch(store: LocalStorage, from: string, to: string, now: int)
    modifies store
    ensures store.items == old(store.items)[RecentSearchesKey := Routes(AddedRecent(old(GetRecentSearches(store)), from, to, now))]
  {
    var recent := GetRecentSearches(store);
    var at := FindPair(recent, from, to);
    if at != -1 {
      recent := recent[..at] + recent[at + 1..];
    }
    recent := [SavedRoute(from, to, now)] + recent;
    store.SetItem(RecentSearchesKey, Routes(recent[..Min(MaxRecentSearches, |recent|)]));
  }

  // ---------------------------------------------------------------- preferences

  /** `StorageManager.getPreferences` */
  function GetPreferences(store: LocalStorage): Preferences
    reads store
  {
    PreferencesIn(store.items)
  }

  /** `StorageManager.savePreferences` */
  method SavePreferences(store: LocalStorage, preferences: Preferences)
    modifies store
    ensures store.items == old(store.items)[PreferencesKey := Prefs(preferences)]
    ensures GetPreferences(store) == preferences
  {
    store.SetItem(PreferencesKey, Prefs(preferences));
  }

  /**
   * Saved preferences read back unchanged; with nothing readable saved, the
   * defaults (light theme, notifications on, western line, English) apply.
   */
  lemma PreferencesRoundTrip(items: map<string, Record>, p: Preferences)
    ensures PreferencesIn(items[PreferencesKey := Prefs(p)]) == p
    ensures PreferencesKey !in items || !items[PreferencesKey].Prefs? ==>
              PreferencesIn(items) == Preferences("light", true, "western", "en")
    ensures PreferencesIn(items - {PreferencesKey}) == DefaultPreferences
  {
  }
}

=== FILE: transit.dfy ===
/**
 * The in-memory transit data layer of `js/data.js` (`MIndicatorData`):
 * the station registry and its lookups, the zone fare table, the schedule
 * store with its synthetic fallback generator, and the route-option
 * heuristic. The registry and the schedule tables are explicit values passed
 * to every query; the clock and the random source are parameters.
 */
module Transit {
  import opened JsBuiltins

  // ================================================================ stations

  datatype Line = Western | Central | Harbour

  /** The key of the line in `MIndicatorData.stations` (also `station.line`). */
  function LineName(l: Line): string
  {
    match l
    case Western => "western"
    case Central => "central"
    case Harbour => "harbour"
  }

  /** A station record; facilities and coordinates are not part of the model. */
  datatype Station = Station(id: string, name: string, line: Line, zone: int)

  /** `MIndicatorData.stations`: one list per line. */
  datatype Registry = Registry(western: seq<Station>, central: seq<Station>, harbour: seq<Station>)

  /** `this.stations[line]` */
  function StationsOn(reg: Registry, l: Line): seq<Station>
  {
    match l
    case Western => reg.western
    case Central => reg.central
    case Harbour => reg.harbour
  }

  /** Every station in the order `for (const line in this.stations)` visits them. */
  function AllStations(reg: Registry): seq<Station>
  {
    reg.western + reg.central + reg.harbour
  }

  /** The station lists of `js/data.js`. */
  function Seed(): Registry
  {
    Registry(WesternStations(), CentralStations(), HarbourStations())
  }

  function WesternStations(): seq<Station>
  {
    [ Station("CG", "Churchgate", Western, 1),
      Station("MAR", "Marine Lines", Western, 1),
      Station("CST", "Charni Road", Western, 1),
      Station("GRD", "Grant Road", Western, 1),
      Station("BSR", "Mumbai Central", Western, 1),
      Station("MAH", "Mahalaxmi", Western, 1),
      Station("LPR", "Lower Parel", Western, 1),
      Station("ELP", "Elphinstone Road", Western, 1),
      Station("DDR", "Dadar", Western, 1),
      Station("MTN", "Matunga Road", Western, 1),
      Station("MAH2", "Mahim", Western, 1),
      Station("BND", "Bandra", Western, 1),
      Station("KHR", "Khar Road", Western, 1),
      Station("STB", "Santacruz", Western, 1),
      Station("VLP", "Vile Parle", Western, 1),
      Station("AND", "Andheri", Western, 2),
      Station("JOG", "Jogeshwari", Western, 2),
      Station("RAM", "Ram Mandir", Western, 2),
      Station("GOR", "Goregaon", Western, 2),
      Station("MLD", "Malad", Western, 2),
      Station("KDV", "Kandivali", Western, 2),
      Station("BHY", "Borivali", Western, 2),
      Station("DHN", "Dahisar", Western, 3),
      Station("MRA", "Mira Road", Western, 3),
      Station("BHP", "Bhayander", Western, 3),
      Station("NAI", "Naigaon", Western, 3),
      Station("VAS", "Vasai Road", Western, 3),
      Station("NLR", "Nalasopara", Western, 3),
      Station("VRR", "Virar", Western, 3) ]
  }

  function CentralStations(): seq<Station>
  {
    [ Station("CSTM", "CST Mumbai", Central, 1),
      Station("SAN", "Sandhurst Road", Central, 1),
      Station("MAJ", "Masjid", Central, 1),
      Station("BYC", "Byculla", Central, 1),
      Station("CHN", "Chinchpokli", Central, 1),
      Station("CLA", "Curry Road", Central, 1),
      Station("PTN", "Parel", Central, 1),
      Station("DDR2", "Dadar", Central, 1),
      Station("MTG", "Matunga", Central, 1),
      Station("SIO", "Sion", Central, 1),
      Station("KDL", "Kurla", Central, 1),
      Station("VDR", "Vidyavihar", Central, 1),
      Station("GHT", "Ghatkopar", Central, 1),
      Station("VKD", "Vikhroli", Central, 2),
      Station("KJT", "Kanjurmarg", Central, 2),
      Station("BND2", "Bhandup", Central, 2),
      Station("NHV", "Nahur", Central, 2),
      Station("MLV", "Mulund", Central, 2),
      Station("THN", "Thane", Central, 2),
      Station("KLY", "Kalyan", Central, 3) ]
  }

  function HarbourStations(): seq<Station>
  {
    [ Station("CSTM2", "CST Mumbai", Harbour, 1),
      Station("SAN2", "Sandhurst Road", Harbour, 1),
      Station("DOC", "Dockyard Road", Harbour, 1),
      Station("REY", "Reay Road", Harbour, 1),
      Station("COT", "Cotton Green", Harbour, 1),
      Station("SEW", "Sewri", Harbour, 1),
      Station("WAD", "Wadala Road", Harbour, 1),
      Station("GTB", "GTB Nagar", Harbour, 1),
      Station("CHB", "Chunabhatti", Harbour, 1),
      Station("KDL2", "Kurla", Harbour, 1),
      Station("TNH", "Tilak Nagar", Harbour, 1),
      Station("CHT", "Chembur", Harbour, 1),
      Station("GVD", "Govandi", Harbour, 1),
      Station("MNK", "Mankhurd", Harbour, 1),
      Station("VPD", "Vashi", Harbour, 2),
      Station("SNP", "Sanpada", Harbour, 2),
      Station("JUI", "Juinagar", Harbour, 2),
      Station("NRL", "Nerul", Harbour, 2),
      Station("BLD", "Belapur CBD", Harbour, 2),
      Station("KHR2", "Kharghar", Harbour, 3),
      Station("PNV", "Panvel", Harbour, 3) ]
  }

  // ================================================================ findStation

  /** The `find` predicate of `findStation`: name contains the query, or the id equals it, ignoring case. */
  predicate Matches(s: Station, query: string)
  {
    Contains(ToLower(s.name), ToLower(query)) || ToLower(s.id) == ToLower(query)
  }

  /** `list.find(s => Matches(s, query))`, as the index of the match. */
  function FindIndex(ss: seq<Station>, query: string): (r: Option<nat>)
    ensures r.Some? ==> r.value < |ss| && Matches(ss[r.value], query)
    ensures r.Some? ==> forall j :: 0 <= j < r.value ==> !Matches(ss[j], query)
    ensures r.None? ==> forall j :: 0 <= j < |ss| ==> !Matches(ss[j], query)
    decreases |ss|
  {
    if ss == [] then None
    else if Matches(ss[0], query) then Some(0)
    else match FindIndex(ss[1..], query)
      case None => None
      case Some(k) => Some(k + 1)
  }

  function FindOnLine(reg: Registry, l: Line, query: string): Option<Station>
  {
    match FindIndex(StationsOn(reg, l), query)
    case Some(k) => Some(StationsOn(reg, l)[k])
    case None => None
  }

  /** `findStation`: the lines are scanned western, central, harbour, each in list order. */
  function FindStation(reg: Registry, query: string): Option<Station>
  {
    match FindOnLine(reg, Western, query)
    case Some(s) => Some(s)
    case None =>
      match FindOnLine(reg, Central, query)
      case Some(s) => Some(s)
      case None => FindOnLine(reg, Harbour, query)
  }

  /** The first match of a scan over `a + b` is the first in `a`, else the first in `b`. */
  lemma FindIndexAppend(a: seq<Station>, b: seq<Station>, query: string)
    ensures FindIndex(a + b, query) ==
            match FindIndex(a, query)
            case Some(k) => Some(k)
            case None => match FindIndex(b, query)
              case Some(k) => Some(|a| + k)
              case None => None
  {
    var ab := a + b;
    match FindIndex(a, query)
    case Some(k) =>
      assert ab[k] == a[k];
      FindIndexIsFirst(ab, query, k);
    case None =>
      match FindIndex(b, query)
      case Some(k) =>
        assert ab[|a| + k] == b[k];
        forall j | 0 <= j < |a| + k ensures !Matches(ab[j], query) {
          if j < |a| { assert ab[j] == a[j]; } else { assert ab[j] == b[j - |a|]; }
        }
        FindIndexIsFirst(ab, query, |a| + k);
      case None =>
        forall j | 0 <= j < |ab| ensures !Matches(ab[j], query) {
          if j < |a| { assert ab[j] == a[j]; } else { assert ab[j] == b[j - |a|]; }
        }
        FindIndexNone(ab, query);
  }

  /** `FindIndex` is determined by its contract: it returns the first match. */
  lemma {:induction false} FindIndexIsFirst(ss: seq<Station>, query: string, k: nat)
    requires k < |ss| && Matches(ss[k], query)
    requires forall j :: 0 <= j < k ==> !Matches(ss[j], query)
    ensures FindIndex(ss, query) == Some(k)
    decreases k
  {
    if k > 0 {
      assert !Matches(ss[0], query);
      FindIndexIsFirst(ss[1..], query, k - 1);
    }
  }

  lemma {:induction false} FindIndexNone(ss: seq<Station>, query: string)
    requires forall j :: 0 <= j < |ss| ==> !Matches(ss[j], query)
    ensures FindIndex(ss, query) == None
    decreases |ss|
  {
    if ss != [] {
      assert !Matches(ss[0], query);
      FindIndexNone(ss[1..], query);
    }
  }

  /**
   * `findStation` returns the first station, in the scan order western,
   * central, harbour and list order within a line, that matches the query;
   * it returns nothing exactly when no station matches.
   */
  lemma {:induction false} FindStationIsFirstMatch(reg: Registry, query: string)
    ensures FindStation(reg, query).None? <==>
            forall j :: 0 <= j < |AllStations(reg)| ==> !Matches(AllStations(reg)[j], query)
    ensures FindStation(reg, query).Some? ==>
            exists k :: 0 <= k < |AllStations(reg)| && AllStations(reg)[k] == FindStation(reg, query).value
                     && Matches(AllStations(reg)[k], query)
                     && forall j :: 0 <= j < k ==> !Matches(AllStations(reg)[j], query)
  {
    var all := AllStations(reg);
    FindIndexAppend(reg.western, reg.central, query);
    FindIndexAppend(reg.western + reg.central, reg.harbour, query);
    assert all == (reg.western + reg.central) + reg.harbour;
    match FindIndex(all, query)
    case Some(k) =>
      if k < |reg.western| {
        assert all[k] == reg.western[k];
      } else if k < |reg.western| + |reg.central| {
        assert all[k] == reg.central[k - |reg.western|];
      } else {
        assert all[k] == reg.harbour[k - |reg.western| - |reg.central|];
      }
    case None =>
  }

  /** Every station's id and every station's name resolve to some station. */
  lemma {:induction false} FindStationResolvesRegistered(reg: Registry, k: nat)
    requires k < |AllStations(reg)|
    ensures FindStation(reg, AllStations(reg)[k].id).Some?
    ensures FindStation(reg, AllStations(reg)[k].name).Some?
  {
    var s := AllStations(reg)[k];
    ContainsSelf(ToLower(s.name));
    assert Matches(s, s.id) && Matches(s, s.name);
    FindStationIsFirstMatch(reg, s.id);
    FindStationIsFirstMatch(reg, s.name);
  }

  /**
   * A needle is not contained in the hay when no position where it would
   * still fit starts with its first two characters.
   */
  lemma {:induction false} NotContainsFirstPair(hay: string, needle: string)
    requires |needle| >= 2
    requires forall i :: 0 <= i <= |hay| - |needle| ==> hay[i] != needle[0] || hay[i + 1] != needle[1]
    ensures !Contains(hay, needle)
    decreases |hay|
  {
    if |hay| >= |needle| {
      assert !(needle <= hay) by {
        assert hay[0] != needle[0] || hay[1] != needle[1];
      }
      NotContainsFirstPair(hay[1..], needle);
    } else {
      NotContainsShort(hay, needle);
    }
  }

  /** A needle longer than the hay is not contained in it. */
  lemma {:induction false} NotContainsShort(hay: string, needle: string)
    requires |hay| < |needle|
    ensures !Contains(hay, needle)
    decreases |hay|
  {
    if hay != [] {
      NotContainsShort(hay[1..], needle);
    }
  }

  /**
   * A station does not match a query of two or more characters when its
   * name holds the query's first two characters (ignoring case) at no
   * position where the query would fit, and its id differs from the query in
   * length or in the first character.
   */
  lemma NameMismatch(s: Station, query: string)
    requires |query| >= 2
    requires forall i :: 0 <= i <= |s.name| - |query| ==>
               LowerChar(s.name[i]) != LowerChar(query[0]) || LowerChar(s.name[i + 1]) != LowerChar(query[1])
    requires |s.id| != |query| || (|query| > 0 && LowerChar(s.id[0]) != LowerChar(query[0]))
    ensures !Matches(s, query)
  {
    NotContainsFirstPair(ToLower(s.name), ToLower(query));
    if |s.id| == |query| {
      assert ToLower(s.id)[0] != ToLower(query)[0];
    }
  }

  /** `"Dadar"` resolves to the western line's Dadar (`DDR`), not the central line's `DDR2`. */
  lemma FindStationDadar()
    ensures FindStation(Seed(), "Dadar") == Some(Station("DDR", "Dadar", Western, 1))
  {
    var w := WesternStations();
    WesternToDadar();
    NotDadarBefore(w[..9]);
    forall j | 0 <= j < 8 ensures !Matches(w[j], "Dadar") {
      assert w[j] == w[..9][j];
      NoLetterD(w[j]);
    }
    assert ToLower("Dadar") == "dadar";
    ContainsSelf("dadar");
    assert Matches(w[8], "Dadar");
    FindIndexIsFirst(w, "Dadar", 8);
  }

  /** The western line up to Dadar. */
  lemma WesternToDadar()
    ensures |WesternStations()| >= 9
    ensures WesternStations()[..9] == [
      Station("CG", "Churchgate", Western, 1),
      Station("MAR", "Marine Lines", Western, 1),
      Station("CST", "Charni Road", Western, 1),
      Station("GRD", "Grant Road", Western, 1),
      Station("BSR", "Mumbai Central", Western, 1),
      Station("MAH", "Mahalaxmi", Western, 1),
      Station("LPR", "Lower Parel", Western, 1),
      Station("ELP", "Elphinstone Road", Western, 1),
      Station("DDR", "Dadar", Western, 1)]
  {
  }

  /** No `d` (either case) where a five-letter word could start. */
  predicate NoDadarStart(name: string)
  {
    forall i :: 0 <= i <= |name| - 5 ==> name[i] != 'd' && name[i] != 'D'
  }

  /**
   * A station whose name has no `d` (either case) where `"dadar"` could
   * start, and whose id is not five characters long, does not match `"Dadar"`.
   */
  lemma NoLetterD(s: Station)
    requires NoDadarStart(s.name)
    requires |s.id| != 5
    ensures !Matches(s, "Dadar")
  {
    NameMismatch(s, "Dadar");
  }

  /** None of the eight western stations before Dadar could match `"Dadar"`. */
  lemma NotDadarBefore(p: seq<Station>)
    requires p == WesternStations()[..9]
    ensures |p| == 9
    ensures forall j :: 0 <= j < 8 ==> NoDadarStart(p[j].name) && |p[j].id| != 5
  {
    WesternToDadar();
    NamesWithoutDadarStart();
  }

  lemma NamesWithoutDadarStart()
    ensures NoDadarStart("Churchgate") && NoDadarStart("Marine Lines")
    ensures NoDadarStart("Charni Road") && NoDadarStart("Grant Road")
    ensures NoDadarStart("Mumbai Central") && NoDadarStart("Mahalaxmi")
    ensures NoDadarStart("Lower Parel") && NoDadarStart("Elphinstone Road")
  {
  }

  /** `"CST"` resolves to Charni Road, whose id is `CST`, before CST Mumbai is reached. */
  lemma FindStationCst()
    ensures FindStation(Seed(), "CST") == Some(Station("CST", "Charni Road", Western, 1))
  {
    var w := WesternStations();
    WesternToDadar();
    NamesWithoutCstStart();
    forall j | 0 <= j < 2 ensures !Matches(w[j], "CST") {
      assert w[j] == w[..9][j];
      NameMismatch(w[j], "CST");
    }
    assert w[2] == w[..9][2];
    assert ToLower("CST") == "cst";
    assert Matches(w[2], "CST");
    FindIndexIsFirst(w, "CST", 2);
  }

  /** Neither `Churchgate` nor `Marine Lines` holds `cs` (either case) where `cst` could start. */
  lemma NamesWithoutCstStart()
    ensures forall i :: 0 <= i <= |"Churchgate"| - 3 ==>
              LowerChar("Churchgate"[i]) != LowerChar('C') || LowerChar("Churchgate"[i + 1]) != LowerChar('S')
    ensures forall i :: 0 <= i <= |"Marine Lines"| - 3 ==>
              LowerChar("Marine Lines"[i]) != LowerChar('C') || LowerChar("Marine Lines"[i + 1]) != LowerChar('S')
  {
  }

  // ================================================================ searchStations

  /** Index of the first station named `name`, or -1 (`self.findIndex(s => s.name === name)`). */
  function FirstIndexNamed(ss: seq<Station>, name: string): (r: int)
    ensures -1 <= r < |ss|
    ensures r >= 0 ==> ss[r].name == name && forall j :: 0 <= j < r ==> ss[j].name != name
    ensures r == -1 ==> forall j :: 0 <= j < |ss| ==> ss[j].name != name
    decreases |ss|
  {
    if ss == [] then -1
    else if ss[0].name == name then 0
    else
      var k := FirstIndexNamed(ss[1..], name);
      if k == -1 then -1 else k + 1
  }

  /** Some station of `ss` is named `name`. */
  predicate HasName(ss: seq<Station>, name: string)
  {
    FirstIndexNamed(ss, name) != -1
  }

  lemma HasNameAt(ss: seq<Station>, j: nat)
    requires j < |ss|
    ensures HasName(ss, ss[j].name)
  {
  }

  /** `filter` by name over a station list */
  function NameFilter(ss: seq<Station>, lowerQuery: string): (r: seq<Station>)
    ensures forall i :: 0 <= i < |r| ==> r[i] in ss && Contains(ToLower(r[i].name), lowerQuery)
    ensures forall s :: s in ss && Contains(ToLower(s.name), lowerQuery) ==> s in r
    decreases |ss|
  {
    if ss == [] then []
    else
      var rest := NameFilter(ss[..|ss| - 1], lowerQuery);
      var last := ss[|ss| - 1];
      assert ss == ss[..|ss| - 1] + [last];
      if Contains(ToLower(last.name), lowerQuery) then rest + [last] else rest
  }

  /**
   * The de-duplication of `searchStations` over the first `n` results, as the
   * indices it keeps: in increasing order, exactly the `k < n` that are the
   * index of the first station with the name of `ss[k]`.
   */
  function KeptIndices(ss: seq<Station>, n: nat): (idx: seq<nat>)
    requires n <= |ss|
    ensures forall i :: 0 <= i < |idx| ==> idx[i] < n && FirstIndexNamed(ss, ss[idx[i]].name) == idx[i]
    ensures forall i, j :: 0 <= i < j < |idx| ==> idx[i] < idx[j]
    ensures forall k :: 0 <= k < n && FirstIndexNamed(ss, ss[k].name) == k ==> k in idx
    decreases n
  {
    if n == 0 then []
    else
      var prev := KeptIndices(ss, n - 1);
      if FirstIndexNamed(ss, ss[n - 1].name) == n - 1 then prev + [n - 1] else prev
  }

  /**
   * Each station of `r` is the first station of `ss` with its name, and `r`
   * lists them in the order of `ss`.
   */
  predicate FirstsInScanOrder(ss: seq<Station>, r: seq<Station>)
  {
    && (forall i :: 0 <= i < |r| ==> 0 <= FirstIndexNamed(ss, r[i].name) && ss[FirstIndexNamed(ss, r[i].name)] == r[i])
    && (forall i, j :: 0 <= i < j < |r| ==> FirstIndexNamed(ss, r[i].name) < FirstIndexNamed(ss, r[j].name))
  }

  /**
   * `results.filter((s, i, self) => i === self.findIndex(t => t.name === s.name))`:
   * pairwise distinct names, every kept station comes from the input, every
   * input name is kept, and the kept stations are the first of their names,
   * in input order.
   */
  function FirstByName(ss: seq<Station>): (r: seq<Station>)
    ensures DistinctNames(r)
    ensures forall i :: 0 <= i < |r| ==> r[i] in ss
    ensures forall k :: 0 <= k < |ss| ==> HasName(r, ss[k].name)
    ensures FirstsInScanOrder(ss, r)
  {
    var idx := KeptIndices(ss, |ss|);
    var r := seq(|idx|, i requires 0 <= i < |idx| => ss[idx[i]]);
    KeptDistinct(ss, idx, r);
    KeptCoverAll(ss, idx, r);
    KeptFirst(ss, idx, r);
    r
  }

  lemma KeptFirst(ss: seq<Station>, idx: seq<nat>, r: seq<Station>)
    requires forall i :: 0 <= i < |idx| ==> idx[i] < |ss| && FirstIndexNamed(ss, ss[idx[i]].name) == idx[i]
    requires |r| == |idx| && forall i :: 0 <= i < |r| ==> r[i] == ss[idx[i]]
    requires forall i, j :: 0 <= i < j < |idx| ==> idx[i] < idx[j]
    ensures forall i :: 0 <= i < |r| ==> r[i] in ss
    ensures FirstsInScanOrder(ss, r)
  {
    assert forall i :: 0 <= i < |r| ==> FirstIndexNamed(ss, r[i].name) == idx[i];
  }

  lemma KeptCoverAll(ss: seq<Station>, idx: seq<nat>, r: seq<Station>)
    requires forall k :: 0 <= k < |ss| && FirstIndexNamed(ss, ss[k].name) == k ==> k in idx
    requires |r| == |idx| && forall i :: 0 <= i < |r| ==> idx[i] < |ss| && r[i] == ss[idx[i]]
    ensures forall k :: 0 <= k < |ss| ==> HasName(r, ss[k].name)
  {
    forall k | 0 <= k < |ss| ensures HasName(r, ss[k].name) {
      KeptCovers(ss, idx, r, k);
    }
  }

  lemma KeptDistinct(ss: seq<Station>, idx: seq<nat>, r: seq<Station>)
    requires forall i :: 0 <= i < |idx| ==> idx[i] < |ss| && FirstIndexNamed(ss, ss[idx[i]].name) == idx[i]
    requires forall i, j :: 0 <= i < j < |idx| ==> idx[i] < idx[j]
    requires |r| == |idx| && forall i :: 0 <= i < |r| ==> r[i] == ss[idx[i]]
    ensures forall i, j :: 0 <= i < j < |r| ==> r[i].name != r[j].name
  {
    forall i, j | 0 <= i < j < |r| ensures r[i].name != r[j].name {
      assert FirstIndexNamed(ss, r[i].name) == idx[i];
      assert FirstIndexNamed(ss, r[j].name) == idx[j];
    }
  }

  lemma KeptCovers(ss: seq<Station>, idx: seq<nat>, r: seq<Station>, k: nat)
    requires k < |ss|
    requires forall k :: 0 <= k < |ss| && FirstIndexNamed(ss, ss[k].name) == k ==> k in idx
    requires |r| == |idx| && forall i :: 0 <= i < |r| ==> idx[i] < |ss| && r[i] == ss[idx[i]]
    ensures HasName(r, ss[k].name)
  {
    var f := FirstIndexNamed(ss, ss[k].name);
    assert ss[f].name == ss[k].name;
    assert FirstIndexNamed(ss, ss[f].name) == f;
    var i :| 0 <= i < |idx| && idx[i] == f;
    HasNameAt(r, i);
  }

  /** The matches of every line, in line order, duplicates included. */
  function Matching(reg: Registry, lowerQuery: string): (r: seq<Station>)
    ensures AllMatch(reg, lowerQuery, r)
    ensures forall s :: s in AllStations(reg) && Contains(ToLower(s.name), lowerQuery) ==> s in r
  {
    NameFilter(reg.western, lowerQuery) + NameFilter(reg.central, lowerQuery) + NameFilter(reg.harbour, lowerQuery)
  }

  /** `searchStations`: case-insensitive name search, first occurrence per name, at most 8. */
  function SearchStations(reg: Registry, query: string): seq<Station>
  {
    if |query| < 2 then []
    else
      FirstEight(FirstByName(Matching(reg, ToLower(query))))
  }

  /** `slice(0, 8)`. */
  function FirstEight(u: seq<Station>): seq<Station>
  {
    if |u| <= 8 then u else u[..8]
  }

  /** No two stations of `r` share a name. */
  predicate DistinctNames(r: seq<Station>)
  {
    forall i, j :: 0 <= i < j < |r| ==> r[i].name != r[j].name
  }

  /** Every station of `r` is registered and its lower-cased name contains `lq`. */
  predicate AllMatch(reg: Registry, lq: string, r: seq<Station>)
  {
    forall i :: 0 <= i < |r| ==> r[i] in AllStations(reg) && Contains(ToLower(r[i].name), lq)
  }

  /** Every registered station whose lower-cased name contains `lq` has its name in `r`. */
  predicate CoversMatches(reg: Registry, lq: string, r: seq<Station>)
  {
    forall s :: s in AllStations(reg) && Contains(ToLower(s.name), lq) ==> HasName(r, s.name)
  }

  /**
   * `searchStations(q)` is empty for queries shorter than 2 characters;
   * otherwise it holds at most 8 stations with pairwise distinct names, every
   * one a registered station whose name contains `q` ignoring case, and when
   * fewer than 8 are returned every matching name is among them.
   */
  lemma SearchStationsSpec(reg: Registry, query: string)
    ensures var r := SearchStations(reg, query);
            && (|query| < 2 ==> r == [])
            && |r| <= 8
            && DistinctNames(r)
            && AllMatch(reg, ToLower(query), r)
            && (|query| >= 2 && |r| < 8 ==> CoversMatches(reg, ToLower(query), r))
  {
    if |query| >= 2 {
      var lq := ToLower(query);
      var results := Matching(reg, lq);
      CutSound(reg, lq, results, FirstByName(results));
    }
  }

  /** The facts of `SearchStationsSpec`, for the de-duplicated matches `u` of `results`. */
  lemma CutSound(reg: Registry, lq: string, results: seq<Station>, u: seq<Station>)
    requires AllMatch(reg, lq, results)
    requires forall s :: s in AllStations(reg) && Contains(ToLower(s.name), lq) ==> s in results
    requires DistinctNames(u)
    requires forall i :: 0 <= i < |u| ==> u[i] in results
    requires forall k :: 0 <= k < |results| ==> HasName(u, results[k].name)
    ensures var r := FirstEight(u);
            && |r| <= 8
            && DistinctNames(r)
            && AllMatch(reg, lq, r)
            && (|r| < 8 ==> CoversMatches(reg, lq, r))
  {
    UniqueSound(reg, lq, results, u);
    if |u| < 8 {
      UniqueComplete(reg, lq, results, u);
    } else {
      PrefixKeeps(reg, lq, u, 8);
    }
  }

  /**
   * Which stations `searchStations(q)` keeps: scanning the matches line by
   * line (`m`), each result is the first match of its name and the results
   * keep the scan order; when 8 are returned, they are the 8 names met first.
   */
  lemma SearchStationsScanOrder(reg: Registry, query: string)
    requires |query| >= 2
    ensures var r := SearchStations(reg, query);
            var m := Matching(reg, ToLower(query));
            && FirstsInScanOrder(m, r)
            && (|r| == 8 ==>
                  forall k :: 0 <= k < |m| && FirstIndexNamed(m, m[k].name) <= FirstIndexNamed(m, r[7].name) ==>
                    HasName(r, m[k].name))
  {
    var results := Matching(reg, ToLower(query));
    CutKeepsFirsts(results, FirstByName(results));
  }

  /** Cutting the first-by-name list to 8 keeps the scan order and the 8 names met first. */
  lemma CutKeepsFirsts(ss: seq<Station>, u: seq<Station>)
    requires FirstsInScanOrder(ss, u)
    requires forall k :: 0 <= k < |ss| ==> HasName(u, ss[k].name)
    ensures var r := FirstEight(u);
            && FirstsInScanOrder(ss, r)
            && (|r| == 8 ==>
                  forall k :: 0 <= k < |ss| && FirstIndexNamed(ss, ss[k].name) <= FirstIndexNamed(ss, r[7].name) ==>
                    HasName(r, ss[k].name))
  {
    if |u| >= 8 {
      PrefixFirsts(ss, u, 8);
      PrefixComplete(ss, u, 8);
      assert u[..8][7] == u[7];
      if |u| == 8 {
        assert u[..8] == u;
      }
    }
  }

  /** A prefix of a first-by-name list is one too. */
  lemma PrefixFirsts(ss: seq<Station>, u: seq<Station>, n: nat)
    requires n <= |u|
    requires FirstsInScanOrder(ss, u)
    ensures FirstsInScanOrder(ss, u[..n])
  {
    assert forall i :: 0 <= i < n ==> u[..n][i] == u[i];
  }

  /** A non-empty prefix of the first-by-name list holds every name met no later than its last station. */
  lemma PrefixComplete(ss: seq<Station>, u: seq<Station>, n: nat)
    requires 0 < n <= |u|
    requires FirstsInScanOrder(ss, u)
    requires forall k :: 0 <= k < |ss| ==> HasName(u, ss[k].name)
    ensures forall k :: 0 <= k < |ss| && FirstIndexNamed(ss, ss[k].name) <= FirstIndexNamed(ss, u[n - 1].name) ==>
              HasName(u[..n], ss[k].name)
  {
    forall k | 0 <= k < |ss| && FirstIndexNamed(ss, ss[k].name) <= FirstIndexNamed(ss, u[n - 1].name)
      ensures HasName(u[..n], ss[k].name)
    {
      PrefixHolds(ss, u, n, k);
    }
  }

  lemma PrefixHolds(ss: seq<Station>, u: seq<Station>, n: nat, k: nat)
    requires 0 < n <= |u| && k < |ss|
    requires FirstsInScanOrder(ss, u)
    requires HasName(u, ss[k].name)
    requires FirstIndexNamed(ss, ss[k].name) <= FirstIndexNamed(ss, u[n - 1].name)
    ensures HasName(u[..n], ss[k].name)
  {
    var i := FirstIndexNamed(u, ss[k].name);
    assert u[i].name == ss[k].name;
    assert i < n;
    assert u[..n][i] == u[i];
    HasNameAt(u[..n], i);
  }

  lemma PrefixKeeps(reg: Registry, lq: string, u: seq<Station>, n: nat)
    requires n <= |u| && DistinctNames(u) && AllMatch(reg, lq, u)
    ensures DistinctNames(u[..n]) && AllMatch(reg, lq, u[..n])
  {
    assert forall i :: 0 <= i < n ==> u[..n][i] == u[i];
  }

  lemma UniqueSound(reg: Registry, lq: string, results: seq<Station>, unique: seq<Station>)
    requires AllMatch(reg, lq, results)
    requires forall i :: 0 <= i < |unique| ==> unique[i] in results
    ensures AllMatch(reg, lq, unique)
  {
    forall i | 0 <= i < |unique|
      ensures unique[i] in AllStations(reg) && Contains(ToLower(unique[i].name), lq)
    {
      var k :| 0 <= k < |results| && results[k] == unique[i];
    }
  }

  lemma UniqueComplete(reg: Registry, lq: string, results: seq<Station>, unique: seq<Station>)
    requires forall s :: s in AllStations(reg) && Contains(ToLower(s.name), lq) ==> s in results
    requires forall k :: 0 <= k < |results| ==> HasName(unique, results[k].name)
    ensures CoversMatches(reg, lq, unique)
  {
    forall s | s in AllStations(reg) && Contains(ToLower(s.name), lq)
      ensures HasName(unique, s.name)
    {
      var k :| 0 <= k < |results| && results[k] == s;
    }
  }

  // ================================================================ fares

  datatype TicketClass = Second | First

  datatype FareRow = FareRow(second: int, first: int)

  /** `fareChart.zones`, keyed by the ordered zone pair (min, max). */
  const FareZones: map<(int, int), FareRow> :=
    map[(1, 1) := FareRow(5, 25), (1, 2) := FareRow(10, 50), (1, 3) := FareRow(15, 75),
        (2, 2) := FareRow(5, 25), (2, 3) := FareRow(10, 50), (3, 3) := FareRow(5, 25)]

  /**
   * `fareChart.calculateFare`: the fare of the unordered zone pair; a pair
   * missing from the table costs 0. Within zones 1..3 the table is the
   * formula 5 (second class) or 25 (first class) per zone spanned.
   */
  function CalculateFare(fromZone: int, toZone: int, ticketClass: TicketClass): (r: int)
    ensures (Min(fromZone, toZone), Max(fromZone, toZone)) !in FareZones ==> r == 0
    ensures 1 <= fromZone <= 3 && 1 <= toZone <= 3 ==>
              r == (if ticketClass == First then 25 else 5) * (Abs(fromZone - toZone) + 1)
    ensures r >= 0
  {
    var key := (Min(fromZone, toZone), Max(fromZone, toZone));
    if key in FareZones then
      match ticketClass
      case Second => FareZones[key].second
      case First => FareZones[key].first
    else 0
  }

  /** The fare does not depend on the direction of travel. */
  lemma FareSymmetric(a: int, b: int, ticketClass: TicketClass)
    ensures CalculateFare(a, b, ticketClass) == CalculateFare(b, a, ticketClass)
  {
  }

  lemma FareExamples()
    ensures CalculateFare(1, 3, Second) == 15 && CalculateFare(1, 3, First) == 75
    ensures CalculateFare(3, 1, Second) == 15 && CalculateFare(1, 4, Second) == 0
  {
  }

  // ================================================================ schedules

  datatype Status = OnTime | Delayed

  datatype ScheduleEntry = Entry(departure: string, arrival: string, duration: string,
                                 platform: int, trainNumber: string, status: Status)

  /** The trains of one `from-to` key, by category (`slow`, `fast`, `ladies`). */
  type Timetable = map<string, seq<ScheduleEntry>>

  /** `MIndicatorData.schedules`: per line, the timetables keyed `from-to`. */
  type ScheduleTable = map<Line, map<string, Timetable>>

  /** `timetable[category] || []` */
  function Category(tt: Timetable, category: string): seq<ScheduleEntry>
  {
    if category in tt then tt[category] else []
  }

  /** The timetables of `js/data.js`, one per `from-to` key. */
  function SeedSchedules(): ScheduleTable
  {
    map[Western := map["CG-VRR" := ChurchgateVirar(), "CG-BHY" := ChurchgateBorivali()],
        Central := map["CSTM-KLY" := CstmKalyan()],
        Harbour := map["CSTM-PNV" := CstmPanvel()]]
  }

  function ChurchgateVirar(): Timetable
  {
    map[
      "slow" := [
        Entry("05:27", "08:42", "3h 15m", 2, "WR-S-001", OnTime),
        Entry("05:35", "08:50", "3h 15m", 3, "WR-S-002", OnTime),
        Entry("05:43", "08:58", "3h 15m", 2, "WR-S-003", OnTime),
        Entry("05:51", "09:06", "3h 15m", 3, "WR-S-004", OnTime),
        Entry("05:59", "09:14", "3h 15m", 2, "WR-S-005", OnTime),
        Entry("06:07", "09:22", "3h 15m", 3, "WR-S-006", OnTime),
        Entry("06:15", "09:30", "3h 15m", 2, "WR-S-007", OnTime),
        Entry("06:23", "09:38", "3h 15m", 3, "WR-S-008", OnTime),
        Entry("06:31", "09:46", "3h 15m", 2, "WR-S-009", Delayed),
        Entry("06:39", "09:54", "3h 15m", 3, "WR-S-010", OnTime) ],
      "fast" := [
        Entry("06:27", "07:42", "1h 15m", 3, "WR-F-001", OnTime),
        Entry("06:38", "07:53", "1h 15m", 3, "WR-F-002", OnTime),
        Entry("06:49", "08:04", "1h 15m", 3, "WR-F-003", OnTime),
        Entry("07:00", "08:15", "1h 15m", 3, "WR-F-004", OnTime),
        Entry("07:11", "08:26", "1h 15m", 3, "WR-F-005", OnTime),
        Entry("07:22", "08:37", "1h 15m", 3, "WR-F-006", Delayed),
        Entry("07:33", "08:48", "1h 15m", 3, "WR-F-007", OnTime),
        Entry("07:44", "08:59", "1h 15m", 3, "WR-F-008", OnTime),
        Entry("07:55", "09:10", "1h 15m", 3, "WR-F-009", OnTime),
        Entry("08:06", "09:21", "1h 15m", 3, "WR-F-010", OnTime) ],
      "ladies" := [
        Entry("09:55", "11:10", "1h 15m", 2, "WR-L-001", OnTime),
        Entry("16:43", "17:58", "1h 15m", 2, "WR-L-002", OnTime) ] ]
  }

  function ChurchgateBorivali(): Timetable
  {
    map[
      "slow" := [
        Entry("05:32", "06:47", "1h 15m", 2, "WR-S-B01", OnTime),
        Entry("05:40", "06:55", "1h 15m", 3, "WR-S-B02", OnTime),
        Entry("05:48", "07:03", "1h 15m", 2, "WR-S-B03", OnTime) ],
      "fast" := [
        Entry("06:32", "07:17", "45m", 3, "WR-F-B01", OnTime),
        Entry("06:43", "07:28", "45m", 3, "WR-F-B02", OnTime) ] ]
  }

  function CstmKalyan(): Timetable
  {
    map[
      "slow" := [
        Entry("05:25", "07:40", "2h 15m", 4, "CR-S-001", OnTime),
        Entry("05:33", "07:48", "2h 15m", 5, "CR-S-002", OnTime),
        Entry("05:41", "07:56", "2h 15m", 4, "CR-S-003", OnTime) ],
      "fast" := [
        Entry("06:25", "07:20", "55m", 5, "CR-F-001", OnTime),
        Entry("06:36", "07:31", "55m", 5, "CR-F-002", OnTime) ] ]
  }

  function CstmPanvel(): Timetable
  {
    map[
      "slow" := [
        Entry("05:30", "07:15", "1h 45m", 6, "HR-S-001", OnTime),
        Entry("05:38", "07:23", "1h 45m", 7, "HR-S-002", OnTime) ],
      "fast" := [
        Entry("06:30", "07:35", "1h 05m", 7, "HR-F-001", OnTime) ] ]
  }

  /**
   * The explicit part of `getSchedule` for the from-station's line and the
   * key `fromId-toId`: `None` when the table has no such key (the caller
   * then generates samples), otherwise the requested category, or
   * `slow ++ fast ++ ladies` for `all`.
   */
  function ScheduleLookup(table: ScheduleTable, line: Line, routeKey: string, trainType: string)
    : (r: Option<seq<ScheduleEntry>>)
    ensures r.None? <==> line !in table || routeKey !in table[line]
    ensures r.Some? && trainType == "all" ==>
              var tt := table[line][routeKey];
              var slow, fast := Category(tt, "slow"), Category(tt, "fast");
              && |r.value| == |slow| + |fast| + |Category(tt, "ladies")|
              && r.value[..|slow|] == slow
              && r.value[|slow|..|slow| + |fast|] == fast
              && r.value[|slow| + |fast|..] == Category(tt, "ladies")
    ensures r.Some? && trainType != "all" ==>
              (trainType !in table[line][routeKey] ==> r.value == [])
              && (trainType in table[line][routeKey] ==> r.value == table[line][routeKey][trainType])
  {
    if line !in table || routeKey !in table[line] then None
    else
      var tt := table[line][routeKey];
      if trainType == "all" then
        Some(Category(tt, "slow") + Category(tt, "fast") + Category(tt, "ladies"))
      else Some(Category(tt, trainType))
  }

  // ---------------------------------------------------------------- samples

  type Die6 = k: nat | k < 6

  /**
   * The two `Math.random()` draws of one generated train:
   * `Math.floor(Math.random() * 6)` and `Math.random() > 0.8`.
   */
  datatype SampleDraw = SampleDraw(platformRoll: Die6, delayed: bool)

  /** Minutes of travel of a generated train: 30 for `fast`, 45 otherwise. */
  function TravelTime(trainType: string): nat
  {
    if trainType == "fast" then 30 else 45
  }

  /** `s.charAt(0)` */
  function CharAt0(s: string): string
  {
    if s == [] then "" else [s[0]]
  }

  /** The `trainNumber` of the `i`-th generated train. */
  function SampleTrainNumber(line: Line, trainType: string, i: nat): string
  {
    ToUpper(LineName(line)) + "-" + ToUpper(CharAt0(trainType)) + "-" + PadStart(NatToString(i + 1), 3, '0')
  }

  /** The departure of the `i`-th generated train: 15·i minutes after `nowMinute` (local wall-clock minutes). */
  function DepartureMinute(nowMinute: int, i: nat): int
  {
    nowMinute + i * 15
  }

  /** `departure + travelTime` */
  function ArrivalMinute(nowMinute: int, i: nat, trainType: string): int
  {
    DepartureMinute(nowMinute, i) + TravelTime(trainType)
  }

  /** The `i`-th generated train. */
  function SampleEntry(line: Line, trainType: string, nowMinute: int, i: nat, d: SampleDraw): ScheduleEntry
  {
    var travelTime := TravelTime(trainType);
    Entry(ClockText(DepartureMinute(nowMinute, i)), ClockText(ArrivalMinute(nowMinute, i, trainType)),
          NatToString(travelTime) + "m",
          d.platformRoll + 1, SampleTrainNumber(line, trainType, i),
          if d.delayed then Delayed else OnTime)
  }

  /** The first `n` generated trains. */
  function SamplesUpTo(line: Line, trainType: string, nowMinute: int, draw: nat -> SampleDraw, n: nat)
    : (r: seq<ScheduleEntry>)
    ensures |r| == n
    ensures forall i :: 0 <= i < n ==> r[i] == SampleEntry(line, trainType, nowMinute, i, draw(i))
  {
    Tabulate(i => SampleEntry(line, trainType, nowMinute, i, draw(i)), n)
  }

  /** `[f(0), ..., f(n - 1)]`, built by appending as a counting loop does. */
  function Tabulate<T>(f: nat -> T, n: nat): (r: seq<T>)
    ensures |r| == n
    ensures forall i :: 0 <= i < n ==> r[i] == f(i)
  {
    if n == 0 then [] else Tabulate(f, n - 1) + [f(n - 1)]
  }

  /** What `generateSampleSchedule` returns, for the clock and the draws given. */
  function SampleSchedule(reg: Registry, fromId: string, toId: string, trainType: string,
                          nowMinute: int, draw: nat -> SampleDraw): seq<ScheduleEntry>
  {
    match (FindStation(reg, fromId), FindStation(reg, toId))
    case (Some(f), Some(_)) => SamplesUpTo(f.line, trainType, nowMinute, draw, 10)
    case _ => []
  }

  /**
   * `generateSampleSchedule`: ten trains 15 minutes apart from now, each with
   * a platform and a delay flag drawn from `draw(i)`; nothing when either
   * station does not resolve.
   */
  method GenerateSampleSchedule(reg: Registry, fromId: string, toId: string, trainType: string,
                                nowMinute: int, draw: nat -> SampleDraw)
    returns (schedule: seq<ScheduleEntry>)
    ensures schedule == SampleSchedule(reg, fromId, toId, trainType, nowMinute, draw)
  {
    schedule := [];
    var fromStation := FindStation(reg, fromId);
    var toStation := FindStation(reg, toId);
    if fromStation.None? || toStation.None? {
      assert SampleSchedule(reg, fromId, toId, trainType, nowMinute, draw) == [];
      return;
    }
    var line := fromStation.value.line;
    for i := 0 to 10
      invariant schedule == SamplesUpTo(line, trainType, nowMinute, draw, i)
    {
      var entry := SampleEntry(line, trainType, nowMinute, i, draw(i));
      schedule := schedule + [entry];
    }
    assert SampleSchedule(reg, fromId, toId, trainType, nowMinute, draw) == SamplesUpTo(line, trainType, nowMinute, draw, 10);
  }

  /** `String(k)` has at most two digits below 100, so padding to 3 gives exactly 3 characters. */
  lemma ShortNumber(k: nat)
    requires k < 100
    ensures |NatToString(k)| <= 2
  {
  }

  /** A train number `LINE-...` that ends in the three-digit `i + 1`. */
  predicate NumberedTrain(tn: string, line: Line, i: nat)
  {
    && StartsWith(tn, ToUpper(LineName(line)) + "-")
    && |tn| >= 3
    && ParseInt(tn[|tn| - 3..]) == Some(i + 1)
  }

  /** The train number of the `i`-th generated train ends in the three-digit `i + 1`. */
  lemma SampleTrainNumberSpec(line: Line, trainType: string, i: nat)
    requires i < 99
    ensures NumberedTrain(SampleTrainNumber(line, trainType, i), line, i)
  {
    ShortNumber(i + 1);
    ConcatEnds(ToUpper(LineName(line)), ToUpper(CharAt0(trainType)), PadStart(NatToString(i + 1), 3, '0'));
    ParseIntOfPadded(i + 1, 3);
  }

  /** The first and last parts of a train number, when the last has three characters. */
  lemma ConcatEnds(a: string, b: string, s: string)
    requires |s| == 3
    ensures var t := a + "-" + b + "-" + s; StartsWith(t, a + "-") && |t| >= 3 && t[|t| - 3..] == s
  {
    var t := a + "-" + b + "-" + s;
    assert t[..|a| + 1] == a + "-";
    assert t[|t| - 3..] == s;
  }



  /**
   * What the `i`-th generated train promises: it departs 15·i minutes after
   * now and arrives 30 (`fast`) or 45 minutes after that, both read back as
   * minutes of the day; its duration is that travel time; its platform is
   * in 1..6; its number is `LINE-` ... followed by the three-digit `i + 1`.
   */
  predicate GeneratedTrain(e: ScheduleEntry, line: Line, trainType: string, nowMinute: int, i: nat)
  {
    && ParseClock(e.departure) == Some(DepartureMinute(nowMinute, i) % 1440)
    && ParseClock(e.arrival) == Some(ArrivalMinute(nowMinute, i, trainType) % 1440)
    && ParseInt(e.duration) == Some(TravelTime(trainType))
    && 1 <= e.platform <= 6
    && NumberedTrain(e.trainNumber, line, i)
  }

  lemma SampleEntrySpec(line: Line, trainType: string, nowMinute: int, i: nat, d: SampleDraw)
    requires i < 99
    ensures GeneratedTrain(SampleEntry(line, trainType, nowMinute, i, d), line, trainType, nowMinute, i)
  {
    SampleTrainNumberSpec(line, trainType, i);
    SampleClocks(line, trainType, nowMinute, i, d);
    SampleDuration(line, trainType, nowMinute, i, d);
  }

  lemma SampleClocks(line: Line, trainType: string, nowMinute: int, i: nat, d: SampleDraw)
    ensures var e := SampleEntry(line, trainType, nowMinute, i, d);
            && ParseClock(e.departure) == Some(DepartureMinute(nowMinute, i) % 1440)
            && ParseClock(e.arrival) == Some(ArrivalMinute(nowMinute, i, trainType) % 1440)
  {
    ClockRoundTrip(DepartureMinute(nowMinute, i));
    ClockRoundTrip(ArrivalMinute(nowMinute, i, trainType));
  }

  lemma SampleDuration(line: Line, trainType: string, nowMinute: int, i: nat, d: SampleDraw)
    ensures ParseInt(SampleEntry(line, trainType, nowMinute, i, d).duration) == Some(TravelTime(trainType))
  {
    ParseIntOfNat(TravelTime(trainType), "m");
  }

  /**
   * The generated schedule has ten trains exactly when both stations
   * resolve, and none otherwise; train `i` is as `GeneratedTrain` says, on
   * the from-station's line.
   */
  lemma {:induction false} SampleScheduleSpec(reg: Registry, fromId: string, toId: string, trainType: string,
                                              nowMinute: int, draw: nat -> SampleDraw)
    ensures var r := SampleSchedule(reg, fromId, toId, trainType, nowMinute, draw);
            && (FindStation(reg, fromId).None? || FindStation(reg, toId).None? ==> r == [])
            && (FindStation(reg, fromId).Some? && FindStation(reg, toId).Some? ==>
                  && |r| == 10
                  && forall i :: 0 <= i < 10 ==>
                       GeneratedTrain(r[i], FindStation(reg, fromId).value.line, trainType, nowMinute, i))
  {
    var from := FindStation(reg, fromId);
    if from.Some? && FindStation(reg, toId).Some? {
      var line := from.value.line;
      var r := SamplesUpTo(line, trainType, nowMinute, draw, 10);
      forall i | 0 <= i < 10 ensures GeneratedTrain(r[i], line, trainType, nowMinute, i) {
        SampleEntrySpec(line, trainType, nowMinute, i, draw(i));
      }
    }
  }

  /** Generated train numbers are pairwise distinct. */
  lemma SampleTrainNumbersDistinct(reg: Registry, fromId: string, toId: string, trainType: string,
                                   nowMinute: int, draw: nat -> SampleDraw)
    ensures var r := SampleSchedule(reg, fromId, toId, trainType, nowMinute, draw);
            forall i, j :: 0 <= i < j < |r| ==> r[i].trainNumber != r[j].trainNumber
  {
    SampleScheduleSpec(reg, fromId, toId, trainType, nowMinute, draw);
    var r := SampleSchedule(reg, fromId, toId, trainType, nowMinute, draw);
    forall i, j | 0 <= i < j < |r| ensures r[i].trainNumber != r[j].trainNumber {
      var line := FindStation(reg, fromId).value.line;
      assert GeneratedTrain(r[i], line, trainType, nowMinute, i);
      assert GeneratedTrain(r[j], line, trainType, nowMinute, j);
    }
  }

  /**
   * `getSchedule`: nothing when the from-station does not resolve; the
   * explicit timetable of its line under the raw key `fromId-toId` when
   * there is one; generated samples otherwise.
   */
  method GetSchedule(reg: Registry, table: ScheduleTable, fromId: string, toId: string, trainType: string,
                     nowMinute: int, draw: nat -> SampleDraw)
    returns (r: seq<ScheduleEntry>)
    ensures FindStation(reg, fromId).None? ==> r == []
    ensures FindStation(reg, fromId).Some? ==>
              match ScheduleLookup(table, FindStation(reg, fromId).value.line, fromId + "-" + toId, trainType)
              case Some(entries) => r == entries
              case None => r == SampleSchedule(reg, fromId, toId, trainType, nowMinute, draw)
  {
    var from := FindStation(reg, fromId);
    if from.None? {
      return [];
    }
    var routeKey := fromId + "-" + toId;
    var explicit := ScheduleLookup(table, from.value.line, routeKey, trainType);
    if explicit.None? {
      r := GenerateSampleSchedule(reg, fromId, toId, trainType, nowMinute, draw);
    } else {
      r := explicit.value;
    }
  }

  /**
   * On the seed data: `CG` resolves to Churchgate on the western line, whose
   * `CG-VRR` timetable has 22 trains in all and 2 ladies' specials; the key
   * is the raw query text, so the names `Churchgate-Virar` find no timetable.
   */
  lemma SeedScheduleExamples()
    ensures FindStation(Seed(), "CG") == Some(Station("CG", "Churchgate", Western, 1))
    ensures var r := ScheduleLookup(SeedSchedules(), Western, "CG-VRR", "all"); r.Some? && |r.value| == 22
    ensures ScheduleLookup(SeedSchedules(), Western, "CG-VRR", "ladies").Some?
    ensures |ScheduleLookup(SeedSchedules(), Western, "CG-VRR", "ladies").value| == 2
    ensures ScheduleLookup(SeedSchedules(), Western, "CG-BHY", "ladies") == Some([])
    ensures ScheduleLookup(SeedSchedules(), Western, "Churchgate-Virar", "all") == None
  {
    FindStationCg();
    ChurchgateVirarLookups();
    OtherWesternLookups();
  }

  lemma FindStationCg()
    ensures FindStation(Seed(), "CG") == Some(Station("CG", "Churchgate", Western, 1))
  {
    var reg := Seed();
    assert Matches(reg.western[0], "CG");
    FindIndexIsFirst(reg.western, "CG", 0);
  }

  lemma ChurchgateVirarLookups()
    ensures var r := ScheduleLookup(SeedSchedules(), Western, "CG-VRR", "all"); r.Some? && |r.value| == 22
    ensures ScheduleLookup(SeedSchedules(), Western, "CG-VRR", "ladies").Some?
    ensures |ScheduleLookup(SeedSchedules(), Western, "CG-VRR", "ladies").value| == 2
  {
    var western := SeedSchedules()[Western];
    assert "CG-VRR" in western && western["CG-VRR"] == ChurchgateVirar();
    var cv := ChurchgateVirar();
    assert |Category(cv, "slow")| == 10 && |Category(cv, "fast")| == 10 && |Category(cv, "ladies")| == 2;
  }

  lemma OtherWesternLookups()
    ensures ScheduleLookup(SeedSchedules(), Western, "CG-BHY", "ladies") == Some([])
    ensures ScheduleLookup(SeedSchedules(), Western, "Churchgate-Virar", "all") == None
  {
    var western := SeedSchedules()[Western];
    assert "CG-BHY" in western && western["CG-BHY"] == ChurchgateBorivali();
    assert "ladies" !in ChurchgateBorivali();
    assert "Churchgate-Virar" != "CG-VRR" && "Churchgate-Virar" != "CG-BHY";
    assert "Churchgate-Virar" !in western;
  }

  // ================================================================ routes

  datatype RouteStep = RouteStep(instruction: string, from: string, to: string, duration: string, trainType: string)

  /** A route option; `kind` is the record's `type` field. */
  datatype RouteOption = RouteOption(id: string, kind: string, duration: string, cost: int,
                                     changes: nat, steps: seq<RouteStep>)

  /**
   * The minutes of `calculateDuration`: three per position between the two
   * stations, each taken in its own line's list (-1 for a station missing
   * from it), and at least 15.
   */
  function DurationMinutes(reg: Registry, f: Station, t: Station): (r: nat)
    ensures r >= 15
  {
    Max(15, 3 * Abs(IndexOf(StationsOn(reg, f.line), f) - IndexOf(StationsOn(reg, t.line), t)))
  }

  /** `${minutes}m` */
  function MinutesText(minutes: nat): string
  {
    NatToString(minutes) + "m"
  }

  /** `MinutesText` reads back as its minutes. */
  lemma MinutesTextRoundTrip(minutes: nat)
    ensures ParseInt(MinutesText(minutes)) == Some(minutes)
    ensures ParseInt(MinutesText(minutes) + "10") == Some(minutes)
  {
    ParseIntOfNat(minutes, "m");
    SuffixM10(NatToString(minutes));
    ParseIntOfNat(minutes, "m10");
  }

  lemma SuffixM10(x: string)
    ensures (x + "m") + "10" == x + "m10"
  {
  }

  /** `calculateDuration`: the minutes followed by `m`. */
  function CalculateDuration(reg: Registry, f: Station, t: Station): string
  {
    MinutesText(DurationMinutes(reg, f, t))
  }

  /** `calculateCost`: the second-class fare between the two stations' zones. */
  function CalculateCost(f: Station, t: Station): int
  {
    CalculateFare(f.zone, t.zone, Second)
  }

  /**
   * `calculateDuration` reads back as at least 15 minutes, does not depend
   * on the direction, and for two stations of one line without repeated
   * entries is 3 minutes per position between them.
   */
  lemma CalculateDurationSpec(reg: Registry, f: Station, t: Station)
    ensures ParseInt(CalculateDuration(reg, f, t)) == Some(DurationMinutes(reg, f, t))
    ensures DurationMinutes(reg, f, t) >= 15
    ensures CalculateDuration(reg, f, t) == CalculateDuration(reg, t, f)
  {
    MinutesTextRoundTrip(DurationMinutes(reg, f, t));
  }

  lemma DurationOnLine(reg: Registry, l: Line, i: nat, j: nat)
    requires i < |StationsOn(reg, l)| && j < |StationsOn(reg, l)|
    requires forall a, b :: 0 <= a < b < |StationsOn(reg, l)| ==> StationsOn(reg, l)[a] != StationsOn(reg, l)[b]
    requires StationsOn(reg, l)[i].line == l && StationsOn(reg, l)[j].line == l
    ensures DurationMinutes(reg, StationsOn(reg, l)[i], StationsOn(reg, l)[j]) == Max(15, 3 * Abs(i - j))
  {
  }

  /** The single option for two stations on one line. */
  function DirectOption(reg: Registry, f: Station, t: Station): RouteOption
  {
    RouteOption("direct", "Direct", CalculateDuration(reg, f, t), CalculateCost(f, t), 0,
      [RouteStep("Take " + LineName(f.line) + " line train from " + f.name, f.name, t.name,
                 CalculateDuration(reg, f, t), "Local")])
  }

  /** The single option for stations on two lines, changing at Dadar, with the total `duration` given. */
  function ViaDadarOption(f: Station, t: Station, duration: string): RouteOption
  {
    RouteOption("via-dadar", "Via Dadar", duration, CalculateCost(f, t), 1,
      [RouteStep("Take " + LineName(f.line) + " line train from " + f.name + " to Dadar", f.name, "Dadar",
                 "25m", "Local"),
       RouteStep("Change at Dadar (Platform change: 3 min)", "Dadar", "Dadar", "3m", "Walk"),
       RouteStep("Take " + LineName(t.line) + " line train from Dadar to " + t.name, "Dadar", t.name,
                 "30m", "Local")])
  }

  /**
   * The via-Dadar duration as written: `calculateDuration(...) + 10` with a
   * string on the left is concatenation, so `"15m"` becomes `"15m10"`.
   */
  function ViaDadarDurationAsWritten(reg: Registry, f: Station, t: Station): string
  {
    CalculateDuration(reg, f, t) + "10"
  }

  /** The intended via-Dadar duration: ten minutes of interchange added to the minutes. */
  function InterchangeDuration(reg: Registry, f: Station, t: Station): string
  {
    MinutesText(DurationMinutes(reg, f, t) + 10)
  }

  /**
   * As written, the interchange time never reaches the minutes: the text
   * reads back as the direct duration. The intended duration reads back as
   * ten minutes more.
   */
  lemma InterchangeDurationDefect(reg: Registry, f: Station, t: Station)
    ensures ParseInt(ViaDadarDurationAsWritten(reg, f, t)) == Some(DurationMinutes(reg, f, t))
    ensures ParseInt(InterchangeDuration(reg, f, t)) == Some(DurationMinutes(reg, f, t) + 10)
  {
    AsWrittenReadsBack(DurationMinutes(reg, f, t), ViaDadarDurationAsWritten(reg, f, t));
    IntendedReadsBack(DurationMinutes(reg, f, t), InterchangeDuration(reg, f, t));
  }

  lemma AsWrittenReadsBack(n: nat, s: string)
    requires s == MinutesText(n) + "10"
    ensures ParseInt(s) == Some(n)
  {
    MinutesTextRoundTrip(n);
  }

  lemma IntendedReadsBack(n: nat, s: string)
    requires s == MinutesText(n + 10)
    ensures ParseInt(s) == Some(n + 10)
  {
    MinutesTextRoundTrip(n + 10);
  }

  /** Churchgate to CST Mumbai, as written, shows `15m10`. */
  lemma InterchangeDurationExample()
    ensures Seed().western[0].name == "Churchgate" && Seed().central[0].name == "CST Mumbai"
    ensures ViaDadarDurationAsWritten(Seed(), Seed().western[0], Seed().central[0]) == "15m10"
  {
    SeedFirstStations();
    FirstStationsDuration(Seed());
    FifteenM10();
  }

  lemma SeedFirstStations()
    ensures Seed().western != [] && Seed().western[0] == Station("CG", "Churchgate", Western, 1)
    ensures Seed().central != [] && Seed().central[0] == Station("CSTM", "CST Mumbai", Central, 1)
  {
  }

  lemma FifteenM10()
    ensures MinutesText(15) + "10" == "15m10"
  {
    assert NatToString(15) == "15";
  }

  /** The first stations of two lines are 15 minutes apart. */
  lemma FirstStationsDuration(reg: Registry)
    requires reg.western != [] && reg.central != []
    requires reg.western[0].line == Western && reg.central[0].line == Central
    ensures ViaDadarDurationAsWritten(reg, reg.western[0], reg.central[0]) == MinutesText(15) + "10"
  {
    var cg := reg.western[0];
    var cstm := reg.central[0];
    assert IndexOf(StationsOn(reg, cg.line), cg) == 0;
    assert IndexOf(StationsOn(reg, cstm.line), cstm) == 0;
  }

  /** The one option for two resolved stations. */
  function RouteOptionFor(reg: Registry, f: Station, t: Station): RouteOption
  {
    if f.line == t.line then DirectOption(reg, f, t)
    else ViaDadarOption(f, t, InterchangeDuration(reg, f, t))
  }

  /**
   * `routes.getRouteOptions` as intended: both names resolved through the
   * registry's `findStation`; a direct option on one line; otherwise a
   * three-step option changing at Dadar, with the interchange time added.
   */
  function GetRouteOptions(reg: Registry, from: string, to: string): seq<RouteOption>
  {
    match (FindStation(reg, from), FindStation(reg, to))
    case (Some(f), Some(t)) => [RouteOptionFor(reg, f, t)]
    case _ => []
  }

  /**
   * What the option between `f` and `t` promises: the second-class fare as
   * its cost; direct (no change, one step) on a shared line and via Dadar
   * (one change, steps of 25, 3 and 30 minutes) across lines; a duration
   * reading back as the station distance, plus 10 across lines; steps that
   * lead from `f` to `t`, each starting where the previous one ends.
   */
  predicate RouteOptionOk(reg: Registry, o: RouteOption, f: Station, t: Station)
  {
    && o.cost == CalculateFare(f.zone, t.zone, Second)
    && (f.line == t.line ==>
          && o.kind == "Direct" && o.changes == 0 && |o.steps| == 1
          && ParseInt(o.duration) == Some(DurationMinutes(reg, f, t)))
    && (f.line != t.line ==>
          && o.kind == "Via Dadar" && o.changes == 1 && |o.steps| == 3
          && o.steps[0].duration == "25m" && o.steps[1].duration == "3m" && o.steps[2].duration == "30m"
          && ParseInt(o.duration) == Some(DurationMinutes(reg, f, t) + 10))
    && |o.steps| >= 1
    && o.steps[0].from == f.name && o.steps[|o.steps| - 1].to == t.name
    && forall k :: 0 <= k < |o.steps| - 1 ==> o.steps[k].to == o.steps[k + 1].from
  }

  lemma RouteOptionForSpec(reg: Registry, f: Station, t: Station)
    ensures RouteOptionOk(reg, RouteOptionFor(reg, f, t), f, t)
  {
    if f.line == t.line {
      DirectOptionOk(reg, f, t);
    } else {
      ViaDadarOptionOk(reg, f, t);
    }
  }

  lemma DirectOptionOk(reg: Registry, f: Station, t: Station)
    requires f.line == t.line
    ensures RouteOptionOk(reg, DirectOption(reg, f, t), f, t)
  {
    CalculateDurationSpec(reg, f, t);
  }

  lemma ViaDadarOptionOk(reg: Registry, f: Station, t: Station)
    requires f.line != t.line
    ensures RouteOptionOk(reg, ViaDadarOption(f, t, InterchangeDuration(reg, f, t)), f, t)
  {
    var d := InterchangeDuration(reg, f, t);
    IntendedReadsBack(DurationMinutes(reg, f, t), d);
    ViaDadarSteps(f, t, d);
  }

  lemma ViaDadarSteps(f: Station, t: Station, d: string)
    ensures var o := ViaDadarOption(f, t, d);
            && o.kind == "Via Dadar" && o.changes == 1 && |o.steps| == 3 && o.duration == d
            && o.steps[0].duration == "25m" && o.steps[1].duration == "3m" && o.steps[2].duration == "30m"
            && o.steps[0].from == f.name && o.steps[2].to == t.name
            && forall k :: 0 <= k < 2 ==> o.steps[k].to == o.steps[k + 1].from
  {
    var o := ViaDadarOption(f, t, d);
    assert o.steps[0].to == "Dadar" == o.steps[1].from;
    assert o.steps[1].to == "Dadar" == o.steps[2].from;
  }

  /**
   * The options are empty exactly when a station does not resolve;
   * otherwise there is one option, as `RouteOptionOk` says, for the two
   * resolved stations.
   */
  lemma {:induction false} GetRouteOptionsSpec(reg: Registry, from: string, to: string)
    ensures var r := GetRouteOptions(reg, from, to);
            (r == [] <==> FindStation(reg, from).None? || FindStation(reg, to).None?)
    ensures var r := GetRouteOptions(reg, from, to);
            r != [] ==> |r| == 1 && RouteOptionOk(reg, r[0], FindStation(reg, from).value, FindStation(reg, to).value)
  {
    var f := FindStation(reg, from);
    var t := FindStation(reg, to);
    if f.Some? && t.Some? {
      RouteOptionForSpec(reg, f.value, t.value);
    }
  }

  /**
   * `routes.getRouteOptions` as invoked by the app, as a method of
   * `MIndicatorData.routes`: `this` is the `routes` object, which has no
   * `findStation`, so every call throws.
   */
  function GetRouteOptionsAsInvoked(from: string, to: string): (r: Result<seq<RouteOption>, JsError>)
  {
    Failure(TypeError("this.findStation is not a function"))
  }

  /**
   * The invoked function yields no options for any pair of names, while
   * the intended one yields an option for every pair of registered stations.
   */
  lemma RouteOptionsDefect(reg: Registry, i: nat, j: nat)
    requires i < |AllStations(reg)| && j < |AllStations(reg)|
    ensures var from := AllStations(reg)[i].id;
            var to := AllStations(reg)[j].id;
            GetRouteOptionsAsInvoked(from, to).Failure? && |GetRouteOptions(reg, from, to)| == 1
  {
    FindStationResolvesRegistered(reg, i);
    FindStationResolvesRegistered(reg, j);
  }
}

=== FILE: utils.dfy ===
/**
 * The decision and formatting helpers of `js/utils.js` (`Utils`). Clock
 * readings, the user's position and the haversine distance are parameters.
 */
module Utils {
  import opened JsBuiltins
  import Transit
  import Storage

  // ---------------------------------------------------------------- formatTime

  /** `s.split(sep)[1]`; `None` is `undefined`, when `s` holds no separator. */
  function SecondField(s: string, sep: char): (r: Option<string>)
    ensures r.None? <==> sep !in s
  {
    match AfterFirst(s, sep)
    case None => None
    case Some(rest) => Some(FirstField(rest, sep))
  }

  /** `hour % 12 || 12`: zero and NaN (`None`) are both falsy. */
  function DisplayHour(hour: Option<int>): (d: int)
    ensures hour.None? ==> d == 12
    ensures hour.Some? && hour.value >= 0 ==> 1 <= d <= 12 && d % 12 == hour.value % 12
  {
    match hour
    case None => 12
    case Some(h) => var r := JsRem(h, 12); if r == 0 then 12 else r
  }

  /** `hour >= 12 ? 'PM' : 'AM'`; NaN compares false. */
  function Meridiem(hour: Option<int>): string
  {
    if hour.Some? && hour.value >= 12 then "PM" else "AM"
  }

  /**
   * `Utils.formatTime`: a 24-hour `HH:MM` as `H:MM AM|PM`. The minutes text
   * passes through untouched (`undefined` when there is no colon).
   */
  function FormatTime(timeString: string): (r: string)
    ensures var hour := ParseInt(FirstField(timeString, ':'));
            EndsWith(r, " PM") <==> hour.Some? && hour.value >= 12
  {
    var hour := ParseInt(FirstField(timeString, ':'));
    var minutes := match SecondField(timeString, ':') case None => "undefined" case Some(m) => m;
    MeridiemSuffix(IntToString(DisplayHour(hour)) + ":" + minutes, Meridiem(hour));
    IntToString(DisplayHour(hour)) + ":" + minutes + " " + Meridiem(hour)
  }

  lemma MeridiemSuffix(prefix: string, meridiem: string)
    requires meridiem == "AM" || meridiem == "PM"
    ensures EndsWith(prefix + " " + meridiem, " PM") <==> meridiem == "PM"
  {
    var r := prefix + " " + meridiem;
    assert r[|r| - 3..] == " " + meridiem;
    assert (" AM")[1] != (" PM")[1];
  }

  /** `formatTime` of `a:b` for two-digit fields: `a` read as the hour, `b` kept. */
  lemma FormatTimeOfFields(a: string, b: string)
    requires |a| == 2 && AllDigits(a) && |b| == 2 && AllDigits(b)
    ensures FormatTime(a + ":" + b) == IntToString(DisplayHour(ParseInt(a))) + ":" + b + " " + Meridiem(ParseInt(a))
  {
    ClockSplit(a, b);
  }

  /** Reading a twelve-hour display back: the hour of the day it stands for. */
  function TwentyFourHour(displayHour: int, pm: bool): int
  {
    displayHour % 12 + (if pm then 12 else 0)
  }

  /** The twelve-hour display loses nothing: display hour and suffix give back the hour. */
  lemma TwelveHourRoundTrip(h: int)
    requires 0 <= h < 24
    ensures TwentyFourHour(DisplayHour(Some(h)), Meridiem(Some(h)) == "PM") == h
  {
  }

  /**
   * On a clock text `HH:MM` (as the schedules show), `formatTime` gives the
   * twelve-hour hour, the two minute digits and the suffix.
   */
  lemma FormatTimeOfClock(minutes: int)
    ensures var m := minutes % 1440;
            var h := m / 60;
            FormatTime(ClockText(minutes))
            == NatToString(if h % 12 == 0 then 12 else h % 12) + ":" + Pad2(m % 60) + " " + (if h >= 12 then "PM" else "AM")
  {
    var m := minutes % 1440;
    var h := m / 60;
    ClockTextParts(minutes);
    FormatTimeOfFields(Pad2(h), Pad2(m % 60));
    Pad2ParseInt(h);
    assert DisplayHour(Some(h)) == if h % 12 == 0 then 12 else h % 12;
  }

  lemma Pad2ParseInt(n: nat)
    requires n < 100
    ensures ParseInt(Pad2(n)) == Some(n)
  {
    Pad2Value(n);
    ParseIntOfDigits(Pad2(n));
  }

  /** A clock text is two two-digit fields around a colon. */
  lemma ClockTextParts(minutes: int)
    ensures var m := minutes % 1440;
            && ClockText(minutes) == Pad2(m / 60) + ":" + Pad2(m % 60)
            && |Pad2(m / 60)| == 2 && AllDigits(Pad2(m / 60))
            && |Pad2(m % 60)| == 2 && AllDigits(Pad2(m % 60))
  {
    var m := minutes % 1440;
    Pad2Value(m / 60);
    Pad2Value(m % 60);
  }

  /** Splitting `a:b` at the colon, for two-digit fields. */
  lemma ClockSplit(a: string, b: string)
    requires |a| == 2 && AllDigits(a) && |b| == 2 && AllDigits(b)
    ensures FirstField(a + ":" + b, ':') == a
    ensures SecondField(a + ":" + b, ':') == Some(b)
  {
    NoSeparatorInDigits(a, ':');
    NoSeparatorInDigits(b, ':');
    SplitAt(a, ':', b);
    FirstFieldWithout(b, ':');
  }

  // ---------------------------------------------------------------- formatDuration

  /** `Utils.formatDuration`: `Nm` under an hour, else `Hh Mm`, or `Hh` on the hour. */
  function FormatDuration(minutes: int): string
  {
    if minutes < 60 then IntToString(minutes) + "m"
    else
      var hours := minutes / 60;
      var mins := minutes % 60;
      if mins > 0 then NatToString(hours) + "h " + NatToString(mins) + "m" else NatToString(hours) + "h"
  }

  /** Reads a duration text `Nm`, `Hh` or `Hh Mm` back as minutes. */
  function ParseDuration(s: string): Option<nat>
  {
    var hk := IndexOfChar(s, 'h');
    if hk == -1 then ParseMinutes(s) else ParseHours(s[..hk], s[hk + 1..])
  }

  /** `Nm` */
  function ParseMinutes(s: string): Option<nat>
  {
    if |s| >= 2 && s[|s| - 1] == 'm' && AllDigits(s[..|s| - 1]) then Some(DigitsValue(s[..|s| - 1])) else None
  }

  /** `Hh` (an empty `rest`) or `Hh Mm`, split at the `h`. */
  function ParseHours(hs: string, rest: string): Option<nat>
  {
    if hs == [] || !AllDigits(hs) then None
    else if rest == [] then Some(60 * DigitsValue(hs))
    else if |rest| >= 3 && rest[0] == ' ' && rest[|rest| - 1] == 'm' && AllDigits(rest[1..|rest| - 1])
    then Some(60 * DigitsValue(hs) + DigitsValue(rest[1..|rest| - 1]))
    else None
  }

  lemma ParseMinutesText(d: string)
    requires |d| >= 1 && AllDigits(d)
    ensures ParseDuration(d + "m") == Some(DigitsValue(d))
  {
    var s := d + "m";
    assert s[..|s| - 1] == d;
    NoSeparatorInDigits(d, 'h');
    assert IndexOfChar(s, 'h') == -1 by {
      assert forall j :: 0 <= j < |s| ==> s[j] != 'h';
    }
  }

  /** A text that starts with the digits `hd` and then `h` is read by `ParseHours`. */
  lemma HoursPrefix(s: string, hd: string)
    requires |hd| >= 1 && AllDigits(hd) && |s| > |hd|
    requires s[..|hd|] == hd && s[|hd|] == 'h'
    ensures ParseDuration(s) == ParseHours(hd, s[|hd| + 1..])
  {
    assert forall j :: 0 <= j < |hd| ==> s[j] == hd[j];
    assert IndexOfChar(s, 'h') == |hd|;
  }

  lemma ParseHoursText(hd: string)
    requires |hd| >= 1 && AllDigits(hd)
    ensures ParseDuration(hd + "h") == Some(60 * DigitsValue(hd))
  {
    var s := hd + "h";
    assert s[..|hd|] == hd;
    HoursPrefix(s, hd);
    assert s[|hd| + 1..] == [];
  }

  lemma ParseHoursMinutesText(hd: string, md: string)
    requires |hd| >= 1 && AllDigits(hd) && |md| >= 1 && AllDigits(md)
    ensures ParseDuration(hd + "h " + md + "m") == Some(60 * DigitsValue(hd) + DigitsValue(md))
  {
    var s := hd + "h " + md + "m";
    HoursMinutesShape(hd, md);
    HoursPrefix(s, hd);
    MinutesTail(hd, md, s[|hd| + 1..]);
  }

  lemma HoursMinutesShape(hd: string, md: string)
    ensures var s := hd + "h " + md + "m";
            && |s| > |hd| && s[..|hd|] == hd && s[|hd|] == 'h'
            && s[|hd| + 1..] == " " + md + "m"
  {
    var s := hd + "h " + md + "m";
    assert s[..|hd|] == hd;
    assert s[|hd| + 1..] == " " + md + "m";
  }

  lemma MinutesTail(hd: string, md: string, tail: string)
    requires |hd| >= 1 && AllDigits(hd) && |md| >= 1 && AllDigits(md)
    requires tail == " " + md + "m"
    ensures ParseHours(hd, tail) == Some(60 * DigitsValue(hd) + DigitsValue(md))
  {
    assert tail[1..|tail| - 1] == md;
  }

  /** `ParseDuration` inverts `formatDuration` on every non-negative minute count. */
  lemma FormatDurationRoundTrip(minutes: nat)
    ensures ParseDuration(FormatDuration(minutes)) == Some(minutes)
  {
    if minutes < 60 {
      ParseMinutesText(NatToString(minutes));
      DigitsOfNat(minutes);
    } else {
      DigitsOfNat(minutes / 60);
      if minutes % 60 > 0 {
        DigitsOfNat(minutes % 60);
        ParseHoursMinutesText(NatToString(minutes / 60), NatToString(minutes % 60));
      } else {
        ParseHoursText(NatToString(minutes / 60));
      }
    }
  }

  // ---------------------------------------------------------------- getTimeUntil

  const MinuteMs: nat := 60000
  const DayMs: nat := 86400000

  /** `Number(field)` on a decimal field; `None` (NaN) for anything but decimal digits. The empty field is 0. */
  function NumberOf(field: string): (r: Option<nat>)
    ensures AllDigits(field) ==> r == Some(DigitsValue(field))
  {
    TrimOfAllDigits(field);
    var t := Trim(field);
    if AllDigits(t) then Some(DigitsValue(t)) else None
  }

  /** `Number` of the text before the first colon. */
  function HoursField(t: string): Option<nat>
  {
    NumberOf(FirstField(t, ':'))
  }

  /** `Number` of the text between the first and second colons; `undefined` (NaN) when there is no colon. */
  function MinutesField(t: string): Option<nat>
  {
    match SecondField(t, ':')
    case None => None
    case Some(f) => NumberOf(f)
  }

  /**
   * Milliseconds from `nowMs` (time of day) to the next `HH:MM`: today's if it
   * has not passed, else tomorrow's. `None` when the target time is NaN.
   */
  function TimeUntilMs(targetTime: string, nowMs: nat): (r: Option<int>)
    requires nowMs < DayMs
    ensures r.Some? ==> r.value >= 0
  {
    WaitUntil(HoursField(targetTime), MinutesField(targetTime), nowMs)
  }

  /** The wait until `hours:minutes`; NaN (`None`) when either field is NaN. */
  function WaitUntil(hours: Option<nat>, minutes: Option<nat>, nowMs: nat): (r: Option<int>)
    requires nowMs < DayMs
    ensures r.Some? ==> r.value >= 0
  {
    if hours.None? || minutes.None? then None
    else Some(Wait(hours.value * 3600000 + minutes.value * 60000, nowMs))
  }

  /** The text `getTimeUntil` shows for a difference in milliseconds. */
  function TimeUntilText(diffMs: Option<int>): (r: string)
    requires diffMs.Some? ==> diffMs.value >= 0
    ensures r == "Now" <==> diffMs.Some? && diffMs.value < MinuteMs
  {
    match diffMs
    case None => assert "NaNh NaNm"[1] != "Now"[1]; "NaNh NaNm"
    case Some(ms) =>
      var diffMinutes := ms / MinuteMs;
      if diffMinutes < 1 then "Now"
      else
        var r := if diffMinutes < 60 then NatToString(diffMinutes) + "m"
                 else NatToString(diffMinutes / 60) + "h " + NatToString(diffMinutes % 60) + "m";
        assert r[|r| - 1] == 'm' && "Now"[2] == 'w';
        r
  }

  /** `Utils.getTimeUntil(targetTime)` with the clock reading `nowMs` (milliseconds since midnight). */
  function GetTimeUntil(targetTime: string, nowMs: nat): string
    requires nowMs < DayMs
  {
    TimeUntilText(TimeUntilMs(targetTime, nowMs))
  }

  /** `Number` of a two-digit field is its value. */
  lemma NumberOfPad2(x: nat)
    requires x < 100
    ensures NumberOf(Pad2(x)) == Some(x)
  {
    Pad2Value(x);
    TrimOfDigits(Pad2(x));
  }

  lemma ClockFields(k: nat)
    requires k < 1440
    ensures HoursField(ClockText(k)) == Some(k / 60)
    ensures MinutesField(ClockText(k)) == Some(k % 60)
  {
    ClockTextOfMinute(k);
    FieldsOfClock(ClockText(k), k / 60, k % 60);
  }

  lemma ClockTextOfMinute(k: nat)
    requires k < 1440
    ensures ClockText(k) == Pad2(k / 60) + ":" + Pad2(k % 60)
  {
    assert k % 1440 == k;
  }

  lemma FieldsOfClock(s: string, h: nat, mm: nat)
    requires h < 24 && mm < 60 && s == Pad2(h) + ":" + Pad2(mm)
    ensures HoursField(s) == Some(h)
    ensures MinutesField(s) == Some(mm)
  {
    Pad2Shape(h);
    Pad2Shape(mm);
    ClockSplit(Pad2(h), Pad2(mm));
  }

  lemma Pad2Shape(x: nat)
    requires x < 100
    ensures |Pad2(x)| == 2 && AllDigits(Pad2(x))
    ensures NumberOf(Pad2(x)) == Some(x)
  {
    Pad2Value(x);
    NumberOfPad2(x);
  }

  /**
   * For a target time of the day, the wait is under a day, and it is the
   * distance forward on the 24-hour clock.
   */
  lemma TimeUntilWithinDay(k: nat, nowMs: nat)
    requires k < 1440 && nowMs < DayMs
    ensures var r := TimeUntilMs(ClockText(k), nowMs);
            && r.Some? && 0 <= r.value < DayMs
            && (nowMs + r.value == k * 60000 || nowMs + r.value == k * 60000 + DayMs)
  {
    TimeUntilClock(k, nowMs);
    ForwardOnClock(k * 60000, nowMs);
  }

  /** The wait until a rendered minute of the day is the wait until that minute in milliseconds. */
  lemma TimeUntilClock(k: nat, nowMs: nat)
    requires k < 1440 && nowMs < DayMs
    ensures TimeUntilMs(ClockText(k), nowMs) == Some(Wait(k * 60000, nowMs))
  {
    ClockMs(k);
    ClockFields(k);
    WaitUntilFields(k / 60, k % 60, nowMs, k * 60000);
  }

  lemma WaitUntilFields(h: nat, m: nat, nowMs: nat, target: int)
    requires nowMs < DayMs && target == h * 3600000 + m * 60000
    ensures WaitUntil(Some(h), Some(m), nowMs) == Some(Wait(target, nowMs))
  {
  }

  /** The wait from `nowMs` until `target`, rolling over to the next day when `target` has passed. */
  function Wait(target: int, nowMs: int): int
  {
    if target < nowMs then target + 86400000 - nowMs else target - nowMs
  }

  /** Minute `k` of the day, in milliseconds, is under a day. */
  lemma ClockMs(k: nat)
    requires k < 1440
    ensures (k / 60) * 3600000 + (k % 60) * 60000 == k * 60000 < 86400000
  {
    var h := k / 60;
    var m := k % 60;
    assert k == 60 * h + m;
    assert h * 3600000 + m * 60000 == 60000 * (60 * h + m);
  }

  lemma ForwardOnClock(target: int, nowMs: int)
    requires 0 <= target < DayMs && 0 <= nowMs < DayMs
    ensures 0 <= Wait(target, nowMs) < DayMs
    ensures nowMs + Wait(target, nowMs) == target || nowMs + Wait(target, nowMs) == target + DayMs
  {
  }

  /**
   * From a minute on, the wait reads back (through `ParseDuration`) as the
   * whole minutes left; it agrees with `formatDuration` except on the hour,
   * where it keeps a `0m`.
   */
  lemma TimeUntilReadsBack(ms: nat)
    requires ms >= MinuteMs
    ensures ParseDuration(TimeUntilText(Some(ms))) == Some(ms / MinuteMs)
    ensures (ms / MinuteMs) % 60 != 0 ==> TimeUntilText(Some(ms)) == FormatDuration(ms / MinuteMs)
  {
    var d := ms / MinuteMs;
    TimeUntilTextOf(ms);
    if d < 60 {
      FormatDurationRoundTrip(d);
    } else {
      HoursMinutesReadsBack(d);
    }
  }

  lemma TimeUntilTextOf(ms: nat)
    requires ms >= MinuteMs
    ensures var d := ms / MinuteMs;
            TimeUntilText(Some(ms))
            == if d < 60 then FormatDuration(d) else NatToString(d / 60) + "h " + NatToString(d % 60) + "m"
  {
  }

  lemma HoursMinutesReadsBack(d: nat)
    requires d >= 60
    ensures ParseDuration(NatToString(d / 60) + "h " + NatToString(d % 60) + "m") == Some(d)
    ensures d % 60 != 0 ==> FormatDuration(d) == NatToString(d / 60) + "h " + NatToString(d % 60) + "m"
  {
    DigitsOfNat(d / 60);
    DigitsOfNat(d % 60);
    ParseHoursMinutesText(NatToString(d / 60), NatToString(d % 60));
  }

  // ---------------------------------------------------------------- formatTrainNumber

  /** `Utils.formatTrainNumber`: every `-` becomes a space, then upper case. */
  function FormatTrainNumber(trainNumber: string): (r: string)
    ensures |r| == |trainNumber|
    ensures forall i :: 0 <= i < |r| ==> r[i] == if trainNumber[i] == '-' then ' ' else UpperChar(trainNumber[i])
  {
    ToUpper(seq(|trainNumber|, i requires 0 <= i < |trainNumber| => if trainNumber[i] == '-' then ' ' else trainNumber[i]))
  }

  /** A formatted train number has no `-` and no lower-case letter left, so formatting it again changes nothing. */
  lemma FormatTrainNumberIdempotent(trainNumber: string)
    ensures var r := FormatTrainNumber(trainNumber);
            && (forall i :: 0 <= i < |r| ==> r[i] != '-' && !('a' <= r[i] <= 'z'))
            && FormatTrainNumber(r) == r
  {
  }

  // ---------------------------------------------------------------- colours

  type Byte = x: int | 0 <= x < 256

  datatype Rgb = Rgb(r: int, g: int, b: int)

  predicate IsHexDigit(c: char)
  {
    IsDigit(c) || 'a' <= c <= 'f' || 'A' <= c <= 'F'
  }

  function HexValue(c: char): (v: nat)
    requires IsHexDigit(c)
    ensures v < 16
  {
    if IsDigit(c) then c as int - '0' as int
    else if 'a' <= c <= 'f' then c as int - 'a' as int + 10
    else c as int - 'A' as int + 10
  }

  /** The lower-case digit `toString(16)` writes for `d`. */
  function HexDigit(d: nat): (c: char)
    requires d < 16
    ensures IsHexDigit(c) && HexValue(c) == d
  {
    if d < 10 then ('0' as int + d) as char else ('a' as int + d - 10) as char
  }

  /** `n.toString(16)` */
  function NatToHex(n: nat): (r: string)
    ensures |r| >= 1
    decreases n
  {
    if n < 16 then [HexDigit(n)] else NatToHex(n / 16) + [HexDigit(n % 16)]
  }

  function HexByte(x: Byte): string
  {
    [HexDigit(x / 16), HexDigit(x % 16)]
  }

  /** Division by 16 is determined by quotient and remainder. */
  lemma DivMod16(x: int, q: int, r: int)
    requires 0 <= r < 16 && x == 16 * q + r
    ensures x / 16 == q && x % 16 == r
  {
  }

  /** Appending a byte: `(256 * q + x).toString(16)` is `q.toString(16)` and then the two digits of `x`. */
  lemma NatToHexShift(n: nat, q: nat, x: Byte)
    requires q >= 1 && n == 256 * q + x
    ensures NatToHex(n) == NatToHex(q) + HexByte(x)
  {
    DivMod16(n, 16 * q + x / 16, x % 16);
    DivMod16(16 * q + x / 16, q, x / 16);
  }

  /** `(1 << 24) + (r << 16) + (g << 8) + b` in hexadecimal: a `1`, then the three bytes. */
  lemma NatToHexOfColour(r: Byte, g: Byte, b: Byte)
    ensures NatToHex(16777216 + r * 65536 + g * 256 + b) == "1" + HexByte(r) + HexByte(g) + HexByte(b)
  {
    var one: nat := 1;
    var a := 256 + r;
    var c := 65536 + r * 256 + g;
    NatToHexShift(a, one, r);
    NatToHexShift(c, a, g);
    NatToHexShift(16777216 + r * 65536 + g * 256 + b, c, b);
    assert NatToHex(one) == "1";
  }

  /** `Utils.rgbToHex`: `#rrggbb` in lower case, via `(1 << 24) + (r << 16) + (g << 8) + b`. */
  function RgbToHex(r: Byte, g: Byte, b: Byte): (hex: string)
    ensures hex == "#" + HexByte(r) + HexByte(g) + HexByte(b)
  {
    var text := NatToHex(16777216 + r * 65536 + g * 256 + b);
    NatToHexOfColour(r, g, b);
    assert text[1..] == HexByte(r) + HexByte(g) + HexByte(b);
    "#" + text[1..]
  }

  /** Six hexadecimal digits, in either case. */
  predicate IsHexBody(s: string)
  {
    |s| == 6 && forall i :: 0 <= i < 6 ==> IsHexDigit(s[i])
  }

  /** The shape `/^#?([a-f\d]{2})([a-f\d]{2})([a-f\d]{2})$/i` accepts. */
  predicate HexColorForm(s: string)
  {
    IsHexBody(s) || (|s| == 7 && s[0] == '#' && IsHexBody(s[1..]))
  }

  /** The digits after an optional leading `#`. */
  function HexBody(hex: string): string
  {
    if |hex| > 0 && hex[0] == '#' then hex[1..] else hex
  }

  /** `parseInt(pair, 16)` for two hexadecimal digits. */
  function PairValue(hi: char, lo: char): (v: nat)
    requires IsHexDigit(hi) && IsHexDigit(lo)
    ensures v < 256
  {
    HexValue(hi) * 16 + HexValue(lo)
  }

  /** `Utils.hexToRgb`: `None` (null) unless the text is an optional `#` and six hex digits. */
  function HexToRgb(hex: string): (c: Option<Rgb>)
    ensures c.None? <==> !HexColorForm(hex)
    ensures c.Some? ==> 0 <= c.value.r < 256 && 0 <= c.value.g < 256 && 0 <= c.value.b < 256
  {
    var body := HexBody(hex);
    if IsHexBody(body)
    then Some(Rgb(PairValue(body[0], body[1]), PairValue(body[2], body[3]), PairValue(body[4], body[5])))
    else None
  }

  /** `hexToRgb(rgbToHex(r, g, b))` gives back `r, g, b`. */
  lemma HexRoundTrip(r: Byte, g: Byte, b: Byte)
    ensures HexToRgb(RgbToHex(r, g, b)) == Some(Rgb(r, g, b))
  {
    var hex := RgbToHex(r, g, b);
    assert HexBody(hex) == HexByte(r) + HexByte(g) + HexByte(b);
  }

  /** The other way round: a parsed colour renders as the lower-case form of its digits. */
  lemma RgbToHexOfParsed(hex: string)
    requires HexToRgb(hex).Some?
    ensures var c := HexToRgb(hex).value;
            RgbToHex(c.r, c.g, c.b) == "#" + ToLower(HexBody(hex))
  {
    var body := HexBody(hex);
    HexBytePair(body[0], body[1]);
    HexBytePair(body[2], body[3]);
    HexBytePair(body[4], body[5]);
    var lower := ToLower(body);
    assert lower == [LowerChar(body[0]), LowerChar(body[1])] + [LowerChar(body[2]), LowerChar(body[3])]
                    + [LowerChar(body[4]), LowerChar(body[5])];
  }

  lemma HexDigitOfValue(c: char)
    requires IsHexDigit(c)
    ensures HexDigit(HexValue(c)) == LowerChar(c)
  {
  }

  /** Two digits parsed and rendered again come out in lower case. */
  lemma HexBytePair(hi: char, lo: char)
    requires IsHexDigit(hi) && IsHexDigit(lo)
    ensures HexByte(PairValue(hi, lo)) == [LowerChar(hi), LowerChar(lo)]
  {
    DivMod16(PairValue(hi, lo), HexValue(hi), HexValue(lo));
    HexDigitOfValue(hi);
    HexDigitOfValue(lo);
  }

  // ---------------------------------------------------------------- findNearestStation

  /** A station with its distance from the user rounded to metres. */
  datatype NearestStation = NearestStation(station: Transit.Station, distance: int)

  /** `Math.round`: halves go up. */
  function Round(x: real): int
  {
    (x + 0.5).Floor
  }

  /** `k` is the first position whose distance no other station beats. */
  predicate IsFirstMinimum(stations: seq<Transit.Station>, distanceKm: Transit.Station -> real, k: int)
  {
    && 0 <= k < |stations|
    && (forall j :: 0 <= j < |stations| ==> distanceKm(stations[k]) <= distanceKm(stations[j]))
    && (forall j :: 0 <= j < k ==> distanceKm(stations[j]) > distanceKm(stations[k]))
  }

  /** There is only one first minimum. */
  lemma FirstMinimumUnique(stations: seq<Transit.Station>, distanceKm: Transit.Station -> real, k1: int, k2: int)
    requires IsFirstMinimum(stations, distanceKm, k1) && IsFirstMinimum(stations, distanceKm, k2)
    ensures k1 == k2
  {
    NothingNearer(stations, distanceKm, k1, k2);
    NothingNearer(stations, distanceKm, k2, k1);
  }

  lemma NothingNearer(stations: seq<Transit.Station>, distanceKm: Transit.Station -> real, k: int, j: int)
    requires IsFirstMinimum(stations, distanceKm, k) && 0 <= j < |stations|
    ensures distanceKm(stations[k]) <= distanceKm(stations[j])
    ensures j < k ==> distanceKm(stations[j]) > distanceKm(stations[k])
  {
  }

  /**
   * `Utils.findNearestStation`: walks western, central, harbour stations in
   * order and keeps a station only when it is strictly nearer. `distanceKm`
   * is the haversine distance from the user's position to each station.
   */
  method FindNearestStation(reg: Transit.Registry, distanceKm: Transit.Station -> real)
    returns (nearest: Option<NearestStation>)
    ensures nearest.None? <==> Transit.AllStations(reg) == []
    ensures nearest.Some? ==>
              exists k :: IsFirstMinimum(Transit.AllStations(reg), distanceKm, k)
                       && nearest.value == NearestStation(Transit.AllStations(reg)[k], Round(distanceKm(Transit.AllStations(reg)[k]) * 1000.0))
  {
    var stations := Transit.AllStations(reg);
    nearest := None;
    var minDistance: real := 0.0;
    ghost var best := 0;
    var i := 0;
    while i < |stations|
      invariant 0 <= i <= |stations|
      invariant nearest.None? <==> i == 0
      invariant i > 0 ==> IsFirstMinimum(stations[..i], distanceKm, best)
      invariant i > 0 ==> minDistance == distanceKm(stations[best])
      invariant i > 0 ==> nearest == Some(NearestStation(stations[best], Round(minDistance * 1000.0)))
    {
      var distance := distanceKm(stations[i]);
      if nearest.None? || distance < minDistance {
        minDistance := distance;
        nearest := Some(NearestStation(stations[i], Round(distance * 1000.0)));
        best := i;
      }
      i := i + 1;
    }
    assert stations[..i] == stations;
  }

  // ---------------------------------------------------------------- swipes

  datatype Swipe = NoSwipe | SwipeLeft | SwipeRight | SwipeUp | SwipeDown

  /** `option || fallback`: an absent or zero option takes the fallback. */
  function OrDefault(option: Option<int>, fallback: int): int
  {
    if option.None? || option.value == 0 then fallback else option.value
  }

  /**
   * The gesture the `touchend` handler of `Utils.addTouchSupport` reports for
   * a touch of `elapsed` ms that moved by `(dx, dy)`; `threshold` and
   * `allowedTime` default to 50 px and 300 ms.
   */
  function ClassifySwipe(elapsed: int, dx: int, dy: int, threshold: Option<int>, allowedTime: Option<int>): (s: Swipe)
    ensures elapsed > OrDefault(allowedTime, 300) ==> s == NoSwipe
    ensures (s == SwipeLeft || s == SwipeRight) <==>
              elapsed <= OrDefault(allowedTime, 300) && Abs(dx) >= OrDefault(threshold, 50) && Abs(dy) <= 100
    ensures (s == SwipeUp || s == SwipeDown) <==>
              elapsed <= OrDefault(allowedTime, 300)
              && !(Abs(dx) >= OrDefault(threshold, 50) && Abs(dy) <= 100)
              && Abs(dy) >= OrDefault(threshold, 50) && Abs(dx) <= 100
    ensures s == SwipeLeft ==> dx < 0
    ensures s == SwipeRight ==> dx >= 0
    ensures s == SwipeUp ==> dy < 0
    ensures s == SwipeDown ==> dy >= 0
  {
    var t := OrDefault(threshold, 50);
    if elapsed > OrDefault(allowedTime, 300) then NoSwipe
    else if Abs(dx) >= t && Abs(dy) <= 100 then (if dx < 0 then SwipeLeft else SwipeRight)
    else if Abs(dy) >= t && Abs(dx) <= 100 then (if dy < 0 then SwipeUp else SwipeDown)
    else NoSwipe
  }

  function MirrorHorizontal(s: Swipe): Swipe
  {
    match s
    case SwipeLeft => SwipeRight
    case SwipeRight => SwipeLeft
    case _ => s
  }

  function MirrorVertical(s: Swipe): Swipe
  {
    match s
    case SwipeUp => SwipeDown
    case SwipeDown => SwipeUp
    case _ => s
  }

  /** Mirroring a movement mirrors the gesture. */
  lemma SwipeMirror(elapsed: int, dx: int, dy: int, threshold: Option<int>, allowedTime: Option<int>)
    requires dx != 0 && dy != 0
    ensures ClassifySwipe(elapsed, -dx, dy, threshold, allowedTime) == MirrorHorizontal(ClassifySwipe(elapsed, dx, dy, threshold, allowedTime))
    ensures ClassifySwipe(elapsed, dx, -dy, threshold, allowedTime) == MirrorVertical(ClassifySwipe(elapsed, dx, dy, threshold, allowedTime))
  {
  }

  // ---------------------------------------------------------------- storage with expiry

  /** `Utils.setStorageWithExpiry` at clock reading `now`. */
  method SetStorageWithExpiry(store: Storage.LocalStorage, key: string, value: string, ttl: int, now: int)
    modifies store
    ensures store.items == old(store.items)[key := Storage.Expiring(value, now + ttl)]
  {
    store.SetItem(key, Storage.Expiring(value, now + ttl));
  }

  /**
   * Whether `getStorageWithExpiry` removes the key: in its `catch`, for text
   * that does not parse or parses to `null` (whose `.expiry` throws), or when
   * read after the expiry. An empty text returns before parsing, and any
   * other value has no expiry to compare.
   */
  predicate ExpiryDrops(items: map<string, Storage.Record>, key: string, now: int)
  {
    key in items && (items[key].Unparsable? || items[key].NullJson? || (items[key].Expiring? && now > items[key].expiry))
  }

  /**
   * What `getStorageWithExpiry` returns; `None` is null, or `undefined` for
   * a stored value that carries no expiry.
   */
  function ExpiryValue(items: map<string, Storage.Record>, key: string, now: int): (r: Option<string>)
    ensures key !in items ==> r.None? && !ExpiryDrops(items, key, now)
    ensures ExpiryDrops(items, key, now) ==> r.None?
    ensures r.Some? <==> key in items && items[key].Expiring? && now <= items[key].expiry
  {
    if key !in items then None
    else match items[key]
      case Expiring(value, expiry) => if now > expiry then None else Some(value)
      case _ => None
  }

  /** `Utils.getStorageWithExpiry` at clock reading `now`. */
  method GetStorageWithExpiry(store: Storage.LocalStorage, key: string, now: int) returns (value: Option<string>)
    modifies store
    ensures value == ExpiryValue(old(store.items), key, now)
    ensures store.items == if ExpiryDrops(old(store.items), key, now) then old(store.items) - {key} else old(store.items)
  {
    if key !in store.items {
      return None;
    }
    match store.items[key]
    case EmptyText =>
      value := None;
    case Unparsable =>
      store.RemoveItem(key);
      value := None;
    case NullJson =>
      store.RemoveItem(key);
      value := None;
    case Expiring(v, expiry) =>
      if now > expiry {
        store.RemoveItem(key);
        value := None;
      } else {
        value := Some(v);
      }
    case _ =>
      value := None;
  }

  /**
   * A value stored with a time-to-live reads back until the expiry instant
   * (inclusive) and is dropped on the first read after it.
   */
  lemma ExpiryRoundTrip(items: map<string, Storage.Record>, key: string, value: string, ttl: int, setAt: int, readAt: int)
    ensures var written := items[key := Storage.Expiring(value, setAt + ttl)];
            && (ExpiryValue(written, key, readAt) == if readAt <= setAt + ttl then Some(value) else None)
            && (ExpiryDrops(written, key, readAt) <==> readAt > setAt + ttl)
  {
  }

  // ---------------------------------------------------------------- groupBy

  /** The items of group `g`, in their original order. */
  function Members<T>(items: seq<T>, groupOf: T -> string, g: string): (r: seq<T>)
    ensures |r| <= |items|
    ensures forall k :: 0 <= k < |r| ==> groupOf(r[k]) == g
    decreases |items|
  {
    if items == [] then []
    else
      var last := items[|items| - 1];
      Members(items[..|items| - 1], groupOf, g) + (if groupOf(last) == g then [last] else [])
  }

  /** The items of every other group. */
  function Others<T>(items: seq<T>, groupOf: T -> string, g: string): (r: seq<T>)
    ensures forall k :: 0 <= k < |r| ==> groupOf(r[k]) != g
    decreases |items|
  {
    if items == [] then []
    else
      var last := items[|items| - 1];
      Others(items[..|items| - 1], groupOf, g) + (if groupOf(last) != g then [last] else [])
  }

  /** Group `g` and the other groups together hold every item exactly once. */
  lemma {:induction false} MembersPartition<T>(items: seq<T>, groupOf: T -> string, g: string)
    ensures multiset(Members(items, groupOf, g)) + multiset(Others(items, groupOf, g)) == multiset(items)
    decreases |items|
  {
    if items != [] {
      var init := items[..|items| - 1];
      MembersPartition(init, groupOf, g);
      assert items == init + [items[|items| - 1]];
    }
  }

  /** The groups that occur among the items. */
  function GroupNames<T>(items: seq<T>, groupOf: T -> string): (r: set<string>)
    ensures forall g :: g in r <==> exists i :: 0 <= i < |items| && groupOf(items[i]) == g
    decreases |items|
  {
    if items == [] then {}
    else
      var init := items[..|items| - 1];
      var r := GroupNames(init, groupOf) + {groupOf(items[|items| - 1])};
      assert forall i :: 0 <= i < |init| ==> init[i] == items[i];
      r
  }

  /** `groups` is `groupBy` of the first `n` items. */
  ghost predicate GroupedUpTo<T>(groups: map<string, seq<T>>, items: seq<T>, groupOf: T -> string, n: nat)
    requires n <= |items|
  {
    && groups.Keys == GroupNames(items[..n], groupOf)
    && forall g :: g in groups ==> groups[g] == Members(items[..n], groupOf, g)
  }

  /** `Utils.groupBy(array, key)`: `groupOf` reads the grouping property of an item. */
  method GroupBy<T>(items: seq<T>, groupOf: T -> string) returns (groups: map<string, seq<T>>)
    ensures groups.Keys == GroupNames(items, groupOf)
    ensures forall g :: g in groups ==> groups[g] == Members(items, groupOf, g)
  {
    groups := map[];
    for i := 0 to |items|
      invariant GroupedUpTo(groups, items, groupOf, i)
    {
      var item := items[i];
      var group := groupOf(item);
      var members := if group in groups then groups[group] else [];
      GroupedStep(groups, items, groupOf, i);
      groups := groups[group := members + [item]];
    }
    assert items[..|items|] == items;
  }

  /** Pushing the next item onto its group (created empty if new) keeps the grouping exact. */
  lemma GroupedStep<T>(groups: map<string, seq<T>>, items: seq<T>, groupOf: T -> string, i: nat)
    requires i < |items| && GroupedUpTo(groups, items, groupOf, i)
    ensures var group := groupOf(items[i]);
            var members := if group in groups then groups[group] else [];
            GroupedUpTo(groups[group := members + [items[i]]], items, groupOf, i + 1)
  {
    var item := items[i];
    var group := groupOf(item);
    var members := if group in groups then groups[group] else [];
    var next := groups[group := members + [item]];
    if group !in groups {
      NoMembersOutside(items[..i], groupOf, group);
    }
    assert members == Members(items[..i], groupOf, group);
    GroupStep(items, groupOf, i);
    assert next.Keys == groups.Keys + {group};
    forall g | g in next ensures next[g] == Members(items[..i + 1], groupOf, g) {
      if g != group {
        assert Members(items[..i + 1], groupOf, g) == Members(items[..i], groupOf, g) + [];
      }
    }
  }

  lemma {:induction false} NoMembersOutside<T>(items: seq<T>, groupOf: T -> string, g: string)
    requires g !in GroupNames(items, groupOf)
    ensures Members(items, groupOf, g) == []
    decreases |items|
  {
    if items != [] {
      var init := items[..|items| - 1];
      assert forall i :: 0 <= i < |init| ==> init[i] == items[i];
      NoMembersOutside(init, groupOf, g);
    }
  }

  /** Taking one more item adds it to its own group and leaves every other group as it was. */
  lemma GroupStep<T>(items: seq<T>, groupOf: T -> string, i: nat)
    requires i < |items|
    ensures GroupNames(items[..i + 1], groupOf) == GroupNames(items[..i], groupOf) + {groupOf(items[i])}
    ensures forall g :: Members(items[..i + 1], groupOf, g)
                        == Members(items[..i], groupOf, g) + (if groupOf(items[i]) == g then [items[i]] else [])
  {
    assert items[..i + 1][..i] == items[..i];
  }
}
